=== FILE: README.md ===
# macbac in Dafny

macbac backs up a Mac's software setup and restores it:

- **Backup.** `start_backup` creates `macbac_backup_<YYYYmmdd_HHMMSS>` under an output path. It then runs five scanners in a fixed order and stores what each returned, or `{"error": message}` when one raised. The scanners are:
  - `appstore`: `mas list`, or App Store receipts when `mas` is missing;
  - `homebrew`: `brew bundle dump`;
  - `dev_env`: twelve well-known dot-files;
  - `fonts`: `~/Library/Fonts`;
  - `manual_apps`: `.app` bundles outside the App Store and Homebrew.
- **Storage.** The storage manager copies the font files into `fonts/`, writes `manifest.json` and writes the human-readable `inventory.md`.
- **Restore.** The restore manager reads the manifest back. It can show a summary, reinstall App Store apps with `mas install`, replay the Brewfile with `brew bundle`, and copy the backed-up fonts into `~/Library/Fonts`.

This project models that core as pure functions over explicit values:

- **Python values.** Python's dynamic values (dicts, lists, strings, ints, bools, `None`) are the datatype `Py.Json`. A dict is a map together with its key insertion order.
- **Exceptions.** An exception is the `Raise` case of `Py.Result`. Every subscript, `.get`, `in`, `len` and iteration raises exactly where CPython would for the wrong kind of value.
- **File system.** The file system is a value: `Files.FileSystem` is a map of files plus a set of directories. Creating directories, writing, copying and removing files are functions on it.
- **Environment.** External commands (`which`, `mas`, `brew`, `sw_vers`), directory listings, plist contents, the clock and copy failures are parameters that say what the outside world answers.

The modules follow the program:

| module | source |
|---|---|
| `Storage`, `Inventory` | `macbac/storage.py` |
| `Backup` | `macbac/backup.py` |
| `Restore` | `macbac/restore.py` |
| `AppStoreScanner`, `HomebrewScanner`, `DevEnvScanner`, `FontScanner`, `ManualAppScanner` | `macbac/scanners/` |
| `Py`, `Files`, `Probe`, `Clock`, `Text`, `Seqs`, `Wrappers` | supporting modules: Python semantics, paths, the scan outcome, `datetime` formatting, string helpers, sequence filtering |

The main properties proved:

- **Manifest round trip.** A restore reads back exactly the manifest a backup wrote.
- **Backup contents.** A successful backup directory holds the manifest and the inventory of exactly the data the five scanners gave for their environments.
- **Inventory.** The inventory is the header followed by the five sections in registry order. A section that raises ends the file with what it had written.
- **Manifest contents.** The manifest has its six keys in order. Each entry is what the aggregated scan data held, or the documented default.
- **Dev tools quirk.** The storage layer looks for `dev_env["installed_tools"]`, which the development scanner never emits. So the manifest's `dev_tools` is always empty, and the inventory always says no tools were detected. This is proved here as the code behaves.
- **App Store round trip.** The apps a backup recorded are reinstalled by id, in order, and each attempt is reported exactly once.
- **Homebrew round trip.** The Brewfile a backup recorded is handed unchanged to `brew bundle`, and the temporary file is removed.
- **Fonts.**
  - Font restore keeps every existing file and only creates files inside `~/Library/Fonts`.
  - Its copied count is exactly the number of files it created.
  - Running it a second time copies nothing.
  - A backup stores each font under the file name of its path. The font scanner names every font after its path, so that name is the one the manifest records and a restore looks up.
- **Scanners.**
  - Each scanner's dict carries the lists and counts its code promises.
  - The App Store parser keeps exactly the non-blank lines that contain a space, split at the first space.
  - Fonts are grouped by type into a partition of the scanned fonts.
  - The manual-app filter keeps exactly the apps that are neither App Store nor Homebrew apps.
- **Dates.** The backup directory's timestamp parses back to the second, so two backups in different seconds get different directories. The manifest's `isoformat()` date and the inventory's date also parse back to the moment they render.

## Model

| member | source | states |
|---|---|---|
| Py.Get | macbac/restore.py:43-46 | `dict.get`: a value that is not a dict raises AttributeError; a missing key gives the default, a present key its value |
| Py.Subscript | macbac/storage.py:68 | `d[k]` succeeds exactly when `d` is a dict holding `k`; otherwise KeyError on a dict, TypeError on anything else |
| Py.In | macbac/storage.py:67 | `k in v` raises exactly on None, bools and ints; on a dict it tests the keys, on a string substrings, on a list membership |
| Py.Iterate | macbac/restore.py:195 | iteration raises exactly on None, bools and ints; a list yields its items, a string its characters, a dict its keys in insertion order |
| Py.TruthyIterate | macbac/restore.py:168-170 | an iterable value is truthy exactly when iterating it yields something, so the emptiness test and the loop agree |
| Py.Len | macbac/restore.py:53 | `len` raises exactly on None, bools and ints and counts items, characters or keys otherwise |
| Files.MakeDir | macbac/storage.py:28 | `mkdir(exist_ok=True)` fails exactly when a file has the name, and otherwise only adds the directory |
| Files.WriteFile | macbac/storage.py:100-101 | opening for writing fails exactly on a directory, and otherwise replaces only that path's contents |
| Files.RemoveFile | macbac/restore.py:160-162 | `unlink(missing_ok=True)` removes the path if present and keeps every other file unchanged |
| Files.Copy | macbac/storage.py:36 | `shutil.copy2` succeeds only from a readable regular file; a copy to a directory lands under the source's base name; any readable file copies to a path that is not a directory |
| Text.Strip | macbac/storage.py:53 | `str.strip()`: the result is the slice of the input between a leading and a trailing run of whitespace; it is empty exactly when the input is all whitespace, otherwise starts and ends with a non-space, and an unpadded string is left alone |
| Text.TrimBoth | macbac/scanners/appstore_scanner.py:27 | stripping both ends leaves nothing exactly when the line is blank |
| Text.Split | macbac/scanners/homebrew_scanner.py:30 | `str.split(sep)`: at least one part, no part holds the separator, and joining the parts gives the input back |
| Text.SplitJoin | macbac/scanners/homebrew_scanner.py:30 | splitting the join of separator-free parts gives exactly those parts back |
| Text.SplitOnce | macbac/scanners/appstore_scanner.py:28 | `split(" ", 1)` finds two parts exactly when the line has a space; the first part has none and the parts rejoin to the line |
| Text.BaseName | macbac/storage.py:35 | `Path.name`: a slash-free suffix of the path, preceded by a slash when shorter than the path |
| Text.StemSuffix | macbac/scanners/font_scanner.py:69 | `Path.stem + Path.suffix` is the file name itself |
| Text.SuffixShape | macbac/scanners/font_scanner.py:69 | a non-empty suffix is a dot followed by dot-free text and leaves a non-empty stem |
| Clock.StampRoundTrip | macbac/backup.py:38 | the backup directory's timestamp parses back to the moment it was taken, to the second |
| Clock.StampInjective | macbac/backup.py:38-39 | two backups get the same directory name exactly when they start in the same second |
| Clock.IsoFormat | macbac/storage.py:60 | `isoformat()` is 19 characters long, 26 when the microseconds are not 0, and reads back as exactly the moment it renders |
| Clock.InventoryFormat | macbac/storage.py:123 | the "%Y-%m-%d %H:%M:%S" date is 19 characters long and reads back as the moment it renders, to the second |
| Clock.SecondsRoundTrip | macbac/storage.py:60 | date, dashes, separator, time and colons sit where the parser reads them, so the seconds rendering parses back to the moment, to the second |
| Clock.StampFormat | macbac/backup.py:38 | the "%Y%m%d_%H%M%S" stamp is 15 characters with the underscore between date and time |
| Probe.Outcome | macbac/backup.py:58-67 | a scan that returns is kept with its dict; a scan that raises becomes a failure |
| Storage.MacosVersion | macbac/storage.py:47-55 | `sw_vers` missing raises FileNotFoundError; a non-zero exit gives "Unknown"; otherwise its stripped output |
| Storage.Section | macbac/storage.py:67-68 | the guarded `data[outer][inner]` read gives the value when both keys exist and nothing when a dict lacks either key; for an outer value that is not a dict, `inner in` it decides: false gives nothing, true raises TypeError at the subscript, and a value `in` cannot search (None, bool, int) raises |
| Storage.NamesOf | macbac/storage.py:82 | the `name` list comprehension succeeds exactly when every entry has a name, and lists those names in order |
| Storage.NameList | macbac/storage.py:81-84 | an absent section gives `[]`; a list section succeeds exactly when every entry has a name |
| Storage.BackupInfo | macbac/storage.py:58-64 | the `backup_info` dict holds the date, the macOS version and version "0.2.0" |
| Storage.HomebrewEntry | macbac/storage.py:74-76 | the homebrew entry holds the Brewfile under `brewfile` |
| Storage.ManifestJson | macbac/storage.py:58-96 | the manifest has the keys backup_info, appstore, homebrew, fonts, manual_apps, dev_tools, in that order, each holding its value |
| Storage.ManifestOrderMatches | macbac/storage.py:58-96 | the manifest's key order lists exactly its keys, each once |
| Storage.BuildManifest | macbac/storage.py:57-96 | a built manifest is a dict with its six keys in order and the given backup info |
| Storage.ManifestSections | macbac/storage.py:66-96 | each manifest entry is the aggregated data's value when both keys exist and the documented default otherwise: `[]`, `{"brewfile": ""}`, or the name lists |
| Storage.ManifestTotal | macbac/storage.py:66-96 | building the manifest cannot raise when every section is absent or well-shaped |
| Storage.CopyFontFiles | macbac/storage.py:31-36 | no font files change nothing; a loop that raised nothing saw a string path in every entry |
| Storage.CopyFontFilesTouches | macbac/storage.py:31-36 | the font copy loop keeps every directory and file and creates or changes files under `fonts/` only |
| Storage.CopiedTargets | macbac/storage.py:31-36 | after a copy loop that raised nothing, every existing listed font file has a copy named after it in `fonts/` |
| Storage.GenerateManifest | macbac/storage.py:41-101 | no backup directory raises ValueError; on success manifest.json holds the built manifest and nothing else changed; on failure nothing changed |
| Storage.StoreBackupData | macbac/storage.py:21-39 | no backup directory raises ValueError; on success the fonts directory exists and the manifest file holds the built manifest |
| Inventory.Then | macbac/storage.py:121-141 | what was written before is a prefix of what is written after; the sequence ends without an exception exactly when both parts do, and an exception in the first part stops the second |
| Inventory.Rows | macbac/storage.py:155-156 | the row loop raises nothing exactly when every entry renders |
| Inventory.RowsAll | macbac/storage.py:155-156 | when every entry renders, the loop writes the rows in order |
| Inventory.ListSection | macbac/storage.py:143-160 | a section with an error entry shows only the heading and the error; a dict whose list is absent or empty shows the "none" text; a list whose entries all render shows the intro and one row per entry in order; every section starts with its heading |
| Inventory.HomebrewSection | macbac/storage.py:162-178 | an error entry shows the heading and the error; a missing or empty Brewfile gives "No Homebrew packages found."; a non-string Brewfile raises TypeError after the opening fence; a non-empty one appears verbatim in a fenced block |
| Inventory.AppStoreSection | macbac/storage.py:143-160 | an error entry alone; an absent or empty `apps` list gives "No App Store applications found."; well-formed apps give the ID/Name table with one row per app, in order |
| Inventory.DevEnvSection | macbac/storage.py:180-199 | an error entry alone; an absent or empty `installed_tools` gives "No development tools detected."; otherwise one line per tool, in order |
| Inventory.FontsSection | macbac/storage.py:201-216 | an error entry alone; an absent or empty `font_files` gives "No custom fonts found."; otherwise one line per font, in order |
| Inventory.ManualSection | macbac/storage.py:218-237 | an error entry alone; an absent or empty `apps` list gives the "none" line; otherwise the Name/Path table, and the section ends with a blank line instead of a rule |
| Inventory.Render | macbac/storage.py:129-141 | each section renders `backup_data.get(key, {})`: a missing key renders the empty dict, and data that is not a dict raises AttributeError before the section writes anything |
| Inventory.HeaderFields | macbac/storage.py:122-126 | the header is the title, then the backup date and then the macOS version, each right after its label |
| Inventory.ChainUpTo | macbac/storage.py:128-141 | writing pieces in turn gives all their texts when none raises, otherwise the texts up to the first piece that raises, including its partial text, and that exception |
| Inventory.InventoryText | macbac/storage.py:121-126 | the inventory always starts with its header: the title, the date and the macOS version |
| Inventory.InventorySections | macbac/storage.py:121-141 | the inventory is the header followed by the sections appstore, homebrew, dev_env, fonts and manual_apps; a section that raises ends the text with what it wrote so far |
| Inventory.InventoryInOrder | macbac/storage.py:121-141 | when no section raises, the inventory is the header and then the five rendered sections, in that order |
| Inventory.GenerateInventory | macbac/storage.py:103-141 | no backup directory raises ValueError; otherwise inventory.md holds what was rendered, even when a section raised part way |
| Inventory.ErrorSection | macbac/storage.py:143-149 | a failed scanner's entry renders as the heading and "❌ Error: message" only |
| AppStoreScanner.LineEntry | macbac/scanners/appstore_scanner.py:28-32 | the id is the text before the first space and id, space and name rejoin to the line |
| AppStoreScanner.ParseLinesExact | macbac/scanners/appstore_scanner.py:25-32 | the parsed apps rejoin to exactly the lines that are non-blank and contain a space, in order |
| AppStoreScanner.OutputLines | macbac/scanners/appstore_scanner.py:26 | the lines joined by newlines give back the stripped output |
| AppStoreScanner.ParseMasList | macbac/scanners/appstore_scanner.py:25-32 | each parsed app has a space-free id and comes from one of the output's lines |
| AppStoreScanner.ReceiptStems | macbac/scanners/appstore_scanner.py:45-59 | without /Applications nothing is found; otherwise exactly the stems of the bundles that hold a receipt, in order |
| AppStoreScanner.Scan | macbac/scanners/appstore_scanner.py:10-37 | missing `mas` falls back to receipts; a failing `mas list` raises RuntimeError with CPython's CalledProcessError text, "died with <Signals.…>" for a killed process; otherwise the parsed listing |
| AppStoreScanner.ToJson | macbac/scanners/appstore_scanner.py:34 | the dict's `apps`, its `total_count` equal to their number, and a `warning` exactly in the fallback |
| AppStoreScanner.FallbackShape | macbac/scanners/appstore_scanner.py:39-65 | without `mas` the scan warns and lists every receipt-holding bundle with id "unknown" and its stem as name |
| HomebrewScanner.LineStatistics | macbac/scanners/homebrew_scanner.py:30-44 | each count is the number of lines with its prefix, total_lines counts the non-blank lines, and the four categories never exceed it |
| HomebrewScanner.CategoriesWithinTotal | macbac/scanners/homebrew_scanner.py:31-43 | lines starting with tap, brew, cask or mas are non-blank and disjoint, so their counts sum to at most the non-blank lines |
| HomebrewScanner.Scan | macbac/scanners/homebrew_scanner.py:10-48 | the scan succeeds exactly when brew exists and the dump exits 0, and then holds the stripped Brewfile and its statistics; otherwise RuntimeError, carrying CPython's CalledProcessError text for a failed dump, including the signal case |
| HomebrewScanner.ToJson | macbac/scanners/homebrew_scanner.py:36-45 | the dict holds the Brewfile under `brewfile_content`, the five counts under `statistics`, and no error |
| HomebrewScanner.StatisticsDescribeBrewfile | macbac/scanners/homebrew_scanner.py:30-45 | the statistics of a successful scan's dict are the line counts of the Brewfile stored next to them |
| DevEnvScanner.ExpandUser | macbac/scanners/dev_env_scanner.py:72 | a leading `~` becomes the home directory and any other path is kept |
| DevEnvScanner.Partition | macbac/scanners/dev_env_scanner.py:71-95 | the twelve config files split into found (regular files, with their size) and missing ones, each exactly once |
| DevEnvScanner.Scan | macbac/scanners/dev_env_scanner.py:66-95 | the scan's found and missing lists are that partition of the twelve config files |
| DevEnvScanner.ToJson | macbac/scanners/dev_env_scanner.py:97-102 | the dict has exactly four keys, counts the found files and the twelve checked, and has no error |
| DevEnvScanner.NoInstalledTools | macbac/scanners/dev_env_scanner.py:97-102 | the scanner's dict never has an `installed_tools` entry |
| FontScanner.FontOf | macbac/scanners/font_scanner.py:68-81 | a font entry keeps its path and size and gets the type its lower-cased suffix maps to |
| FontScanner.ScanEntriesExact | macbac/scanners/font_scanner.py:62-90 | the fonts found are exactly the regular, readable files with a font suffix, in listing order, each with its path, name, type and size |
| FontScanner.OfTypeSnoc | macbac/scanners/font_scanner.py:43-47 | appending a font adds it to its own type's group only |
| FontScanner.AddFontGroups | macbac/scanners/font_scanner.py:44-47 | one step of the grouping loop keeps the key order the first-seen order of the types and the groups equal to the fonts of each type seen so far |
| FontScanner.GroupByType | macbac/scanners/font_scanner.py:41-47 | the keys are the types in first-seen order, each group holds exactly the fonts of its type, in order, and every font's type has a group |
| FontScanner.GroupsPartition | macbac/scanners/font_scanner.py:41-47 | with distinct group keys covering every font, the group sizes add up to the number of fonts |
| FontScanner.Scan | macbac/scanners/font_scanner.py:27-60 | a missing font directory gives no fonts and "(not found)"; the total is the sum of sizes; the groups hold exactly the fonts of each type, every font's type has a group, and the group sizes add up to the number of fonts |
| FontScanner.ScannedFontsNamed | macbac/scanners/font_scanner.py:74-76 | every font dict a scan lists has a `name` that is the file name of its `path` |
| FontScanner.ToJson | macbac/scanners/font_scanner.py:49-60 | the dict's `font_files`, `total_count`, `total_size_bytes` and `scanned_directories` match the scan, and `fonts_by_type` holds, in the scan's type order, one list per group with that group's fonts, with no error |
| FontScanner.GroupingGrouped | macbac/scanners/font_scanner.py:41-47 | the grouping loop's keys are the types in first-seen order and each group holds exactly the fonts of its type, in order |
| FontScanner.ScanGroupsPartition | macbac/scanners/font_scanner.py:41-60 | in the scanner's dict, `fonts_by_type` lists the types in first-seen order and has a non-empty list for each type present, holding exactly that type's entries of `font_files`, and every font's type is a key |
| ManualAppScanner.AppInfoOf | macbac/scanners/manual_app_scanner.py:67-99 | no Info.plist gives nothing; an unreadable one gives the fallback record; a malformed XML plist raises ExpatError and a non-dict plist AttributeError, neither caught; otherwise the plist's values with their defaults |
| ManualAppScanner.EmptyPlistDefaults | macbac/scanners/manual_app_scanner.py:79-88 | a plist without the four keys yields the same record as the fallback |
| ManualAppScanner.ScanBundlesFails | macbac/scanners/manual_app_scanner.py:51-65 | scanning a directory raises exactly when some bundle's plist is malformed or not a dict |
| ManualAppScanner.ScanBundlesKeeps | macbac/scanners/manual_app_scanner.py:51-65 | the apps found are exactly the bundles with an Info.plist, in order |
| ManualAppScanner.ScanBundles | macbac/scanners/manual_app_scanner.py:51-65 | every app found is a directory whose Info.plist gave it that record; a raise is the ExpatError or AttributeError of a bad plist |
| ManualAppScanner.IsAppStoreApp | macbac/scanners/manual_app_scanner.py:101-124 | a receipt makes an App Store app; otherwise no plist or an unreadable one gives false, a dict plist decides by its sandbox entitlement, and a malformed or non-dict plist raises |
| ManualAppScanner.IsHomebrewApp | macbac/scanners/manual_app_scanner.py:126-150 | a symlink into a Homebrew prefix is a Homebrew app; otherwise a string bundle id decides by containing "org.homebrew." or "homebrew."; a None, bool or int id raises TypeError |
| ManualAppScanner.IsManual | macbac/scanners/manual_app_scanner.py:26-31 | an App Store app is never manual; otherwise an app is manual exactly when it is not a Homebrew app |
| ManualAppScanner.FilterManualExact | macbac/scanners/manual_app_scanner.py:26-31 | the filter succeeds exactly when every test does, and then keeps exactly the manual apps, in order |
| ManualAppScanner.FilterManual | macbac/scanners/manual_app_scanner.py:26-31 | every app kept is one of the found apps and passes as manual |
| ManualAppScanner.ReceiptExcludes | macbac/scanners/manual_app_scanner.py:105-108 | an app with an App Store receipt is never kept as manual |
| ManualAppScanner.HomebrewSymlinkExcludes | macbac/scanners/manual_app_scanner.py:130-138 | an app symlinked into a Homebrew prefix is never kept as manual |
| ManualAppScanner.Scan | macbac/scanners/manual_app_scanner.py:11-49 | the manual apps are at most all apps found, both directories are labelled, a failing directory scan raises, and two missing directories give an empty result |
| ManualAppScanner.ScanContents | macbac/scanners/manual_app_scanner.py:11-49 | the scan counts every app of both directories and keeps exactly the manual ones |
| ManualAppScanner.ToJson | macbac/scanners/manual_app_scanner.py:33-49 | the dict's `apps`, `total_count` and `all_apps_count` match the scan, with no error |
| Backup.EntryOf | macbac/backup.py:58-67 | a returned scan is stored as its dict, a failed one as `{"error": message}` |
| Backup.ScannerNamesDistinct | macbac/backup.py:27-33 | the five registry names are distinct, so no scanner's entry overwrites another's |
| Backup.Collect | macbac/backup.py:46-69 | the aggregated data holds each scanner's entry under its name, in registry order, and nothing else |
| Backup.RunDevEnv | macbac/backup.py:58-60 | the development scan returns the dict of the found and missing config files and never raises |
| Backup.FontOutcome | macbac/backup.py:58-60 | the font scan always returns, and its dict is the scan of the font environment, without an error entry |
| Backup.AppStoreOutcome | macbac/backup.py:58-67 | the App Store outcome returned exactly when the scan succeeded, with its dict, and otherwise records the exception's message |
| Backup.HomebrewOutcome | macbac/backup.py:58-67 | the Homebrew outcome returned exactly when the scan succeeded, with its dict, and otherwise records the exception's message |
| Backup.ManualOutcome | macbac/backup.py:58-67 | the manual-app outcome returned exactly when the scan succeeded, with its dict, and otherwise records the exception's message |
| Backup.RunScanners | macbac/backup.py:53-69 | the scans run in registry order and each outcome is its scanner's result on its own environment |
| Backup.Persist | macbac/backup.py:71-79 | after storing and the inventory, the manifest file holds the manifest built from the data and the inventory file holds the inventory rendered from the same data |
| Backup.BackupDir | macbac/backup.py:38-39 | the backup directory lies under the output path, is named `macbac_backup_` and a stamp, and the stamp reads back as the start time to the second |
| Backup.ScanAndStore | macbac/backup.py:46-79 | after the scans, a run that raised nothing leaves the manifest and the inventory of exactly the data the five scanners gave |
| Backup.StartBackup | macbac/backup.py:35-81 | the result is the timestamped directory, a file in its place is a FileExistsError, and on success the directory holds the manifest and the inventory of exactly the data the five scanners gave |
| Backup.DevToolsAlwaysEmpty | macbac/storage.py:93-96 | whatever the development scan found, the manifest's `dev_tools` is `[]` |
| Backup.DevSectionAlwaysEmpty | macbac/storage.py:188-197 | the inventory's development section always reads "No development tools detected." for the scanner's dict |
| Backup.FailedScanRecordsNothing | macbac/storage.py:67-78 | failed App Store and Homebrew scans leave `[]` and an empty Brewfile in the manifest |
| Backup.AppStoreAppsRecorded | macbac/storage.py:67-68 | a successful App Store scan's app dicts appear in the manifest, in order |
| Restore.LoadManifest | macbac/restore.py:27-36 | a missing manifest raises FileNotFoundError and a directory IsADirectoryError; a JSON document loads as written; undecodable bytes raise UnicodeDecodeError; a syntax error raises ValueError "Invalid manifest file: …" |
| Restore.ManifestRoundTrip | macbac/restore.py:27-36 | loading after a successful store gives back exactly the manifest that was built |
| Restore.CountIfTruthy | macbac/restore.py:52-53 | an empty category is not shown; a non-empty list is shown with its length |
| Restore.ShowSummary | macbac/restore.py:38-64 | a manifest that is not a dict raises AttributeError |
| Restore.SummaryOfManifest | macbac/restore.py:38-64 | the summary of a stored manifest shows its date, macOS and macbac versions, and the app count, Brewfile and font count when non-empty |
| Restore.SummaryShowsInfo | macbac/restore.py:43-61 | each backup_info line shows the recorded value or "Unknown" when the field or the whole backup_info is missing, and Homebrew is listed exactly when its Brewfile is truthy |
| Restore.SummaryLayout | macbac/restore.py:40-64 | the summary prints the title, the three backup_info lines, one line per non-empty category in the order appstore, homebrew, fonts, then the usage hint |
| Restore.FirstBad | macbac/restore.py:93-110 | the install loop runs up to the first app that is not a dict with a string id, and no further |
| Restore.InstallApps | macbac/restore.py:93-110 | one `mas install <id>` per app up to the first bad entry, which raises TypeError or AttributeError |
| Restore.InstallAppsNames | macbac/restore.py:93-110 | the apps reported installed are exactly the attempted ones whose install succeeded, and the failed ones are the rest, in order |
| Restore.InstallsReported | macbac/restore.py:93-110 | every attempted install is reported exactly once |
| Restore.RestoreAppStore | macbac/restore.py:66-112 | no apps does nothing; without `mas` only the `which` probe runs; otherwise the install loop follows the probe |
| Restore.AppStoreRoundTrip | macbac/restore.py:66-112 | apps recorded from `mas list` are reinstalled once each, by id, in order, without an exception |
| Restore.RestoreHomebrew | macbac/restore.py:114-162 | a falsy Brewfile does nothing; without brew only the `which` probe runs; otherwise `brew bundle` runs once on the temporary file holding the Brewfile, succeeds exactly when it exits 0, and the file is removed; a non-string Brewfile raises TypeError and leaves the file |
| Restore.HomebrewRoundTrip | macbac/restore.py:114-162 | `brew bundle` reads exactly the recorded Brewfile and no temporary file remains |
| Restore.FontStepEffect | macbac/restore.py:195-214 | one loop pass either changes only the skip count or adds exactly the name's target file and counts it as copied |
| Restore.CopyFontsKeeps | macbac/restore.py:195-214 | the copy loop keeps all directories and files and creates files only inside the target directory |
| Restore.CopyFontsCounts | macbac/restore.py:195-214 | the copied count equals the number of files created, and copied plus skipped never exceeds the names |
| Restore.CopyFontsSettles | macbac/restore.py:195-214 | after the loop every font that could be copied has something at its target |
| Restore.SettledCopiesNothing | macbac/restore.py:195-214 | when every font's target is already there, the loop copies nothing and changes nothing |
| Restore.FontStep | macbac/restore.py:195-214 | one pass raises only on a name that is not a string; it counts at most one font, as copied or skipped, and changes the file system only when it copies |
| Restore.CopyFonts | macbac/restore.py:195-214 | the loop raises exactly when some name is not a string, and copied plus skipped never exceeds the names |
| Restore.CopyFontsTally | macbac/restore.py:195-214 | copied plus skipped is the number of names whose source exists and whose target either exists or can be copied |
| Restore.CopyFontsIdempotent | macbac/restore.py:195-214 | a second copy loop over the same names copies nothing, leaves the file system as the first left it, and skips exactly what the first copied or skipped |
| Restore.RestoreFonts | macbac/restore.py:164-218 | no fonts or no backup directory does nothing; a file at the target raises FileExistsError; existing files are kept, new ones lie in ~/Library/Fonts, and the copied count is their number |
| Restore.RestoreFontsIdempotent | macbac/restore.py:164-218 | restoring the same fonts again copies nothing, changes nothing, and skips exactly what the first restore copied or skipped |
| Restore.StoredFontsRestorable | macbac/storage.py:31-36 | after a backup that raised nothing, each copyable font entry is a file in the backup's `fonts/` under the base name of its path, and so under its recorded `name` when the entry is named after its path, which is the name a restore joins to `fonts/` |

## Left out

- Python's `repr` of lists and dicts in printed values: `Py.Show` renders only strings, numbers, booleans and `None` exactly.
- Text.Lower: only ASCII letters are lower-cased; `str.lower()` also lower-cases other scripts, which can only matter for a font suffix such as ".TTF" written in non-ASCII letters.
- Path handling: paths are joined with "/" without normalisation. Joining an absolute name, as `Path` does, and empty names are not modelled.
- Parent directories are not tracked: `mkdir(parents=True)` and a FileNotFoundError for a missing parent are not modelled.
- Floating point: `size_kb` and `total_size_mb` are left out of the scanners' dicts.
- Plist values: `Plist.Readable` holds a `Py.Json` value, so a plist's `<real>`, `<date>` and `<data>` values cannot be represented. A `CFBundleIdentifier` of one of those kinds would make `indicator in bundle_id` raise TypeError in `_is_homebrew_app`; the model cannot express that case.
- The `rich` console, progress bars and markup are left out. The restore summary is modelled as the values and plain lines it prints.
- The command-line interface (`cli.py`) is not part of this model.
- JSON and plist parsing are outside the model. A manifest written by the backup is a JSON document value, and other manifest contents are decoded by a `decode` parameter. An Info.plist is given as its decoded value, as unreadable (a binary-format error or an OS error, both caught), or as malformed XML (which escapes).
- `%Y` zero-pads years below 1000 to four digits here; the platform's `strftime` may not.
- A config file that disappears between the existence check and `stat` in the development scanner (a race) is not modelled.
- The clock is a parameter: `Backup.Times` gives the three `datetime.now()` readings.
- Restore.LoadManifest: the FileNotFoundError carries the manifest path, not the full "Manifest file not found: …" message.
- Concurrency is not modelled; the program has none.
- The temporary Brewfile's name is a parameter; `tempfile` guarantees it is fresh, which the precondition of `Restore.RestoreHomebrew` states.
- Copy failures (permissions, disk full) are a fixed set `failing` of source paths whose copy raises.
- `which` itself missing, and a tool vanishing between the `which` probe and its use, are not modelled; the tools are given as present or absent.
- `set_backup_dir` is the `Option` backup directory parameter of the storage functions.
- `_is_app_store_app` reads Info.plist a second time; the model assumes it gives the same value as the first read in `_get_app_info`.
- Restore.ShowSummary: its contract states only the non-dict case; what it shows is stated by `Restore.SummaryShowsInfo` for any dict manifest and by `Restore.SummaryOfManifest` for a stored one.
- Storage.BuildManifest: its contract states the shape and the backup info; the entries are stated by `Storage.ManifestSections`.
- Probe.Message: `str(e)` is exact for the scanners' own RuntimeError and ValueError texts, KeyError and the three file-system errors. A CalledProcessError's text for a process killed by a signal names the signal by macOS's numbering (1 to 31); an unnamed number gives "unknown signal". For TypeError, AttributeError, UnicodeDecodeError, ExpatError and a failed copy it is a stand-in naming the exception class or path, because CPython's text depends on the offending value, the byte offset or the OS error, which the model does not keep. Such a failed scan's `{"error": …}` text therefore differs from the program's.
- `sw_vers` runs twice in a backup, once for the manifest and once for the inventory; one `sw` value answers both, so the two cannot disagree here.
- A structurally invalid XML plist raises ValueError in `plistlib` rather than ExpatError. The model gives every malformed XML plist ExpatError; either one escapes the scanner in the same way, and only the stored message differs.

=== FILE: appstore_scanner.dfy ===
/**
 The App Store scanner (macbac/scanners/appstore_scanner.py): the apps
 `mas list` reports, one per output line, or, when `mas` is not installed,
 the /Applications bundles carrying an App Store receipt.
 */
module AppStoreScanner {
  import opened Wrappers
  import opened Text
  import opened Py
  import opened Seqs
  import opened Probe

  /** An entry of `mas list`: the id before the first space, the rest of
      the line as the name. */
  datatype StoreApp = StoreApp(id: string, name: string)

  /** An `*.app` entry of /Applications, and whether it holds
      Contents/_MASReceipt/receipt. */
  datatype Bundle = Bundle(path: string, hasReceipt: bool)

  /** The scanner's result: parsed `mas list` output, or the receipt-based
      fallback, which knows only the bundles' stems. */
  datatype AppStoreScan = Listed(apps: seq<StoreApp>) | WithoutMas(stems: seq<string>)

  /** What the scanner can observe. */
  datatype Environment = Environment(
    masInstalled: bool,            // `which mas` succeeded
    masList: Completed,            // `mas list`
    applicationsExists: bool,      // /Applications exists
    applications: seq<Bundle>)     // /Applications/*.app, in glob order

  const FallbackNote := "App Store app (mas not installed - ID unavailable)"
  const FallbackWarning := "mas command not found - limited App Store app detection"
  const MasListRepr := "['mas', 'list']"

  /** A line that yields an entry: not blank, and holding a space. */
  predicate IsEntryLine(line: string) {
    HasContent(line) && ' ' in line
  }

  /** The entry of a line: `line.split(" ", 1)`. */
  function LineEntry(line: string): (a: StoreApp)
    requires ' ' in line
    ensures ' ' !in a.id
    ensures a.id + " " + a.name == line
  {
    var parts := SplitOnce(line, ' ').value;
    StoreApp(parts.0, parts.1)
  }

  /** The line an entry came from. */
  function Rejoin(a: StoreApp): string {
    a.id + " " + a.name
  }

  function RejoinAll(apps: seq<StoreApp>): (lines: seq<string>)
    ensures |lines| == |apps|
    ensures forall i :: 0 <= i < |apps| ==> lines[i] == Rejoin(apps[i])
  {
    seq(|apps|, i requires 0 <= i < |apps| => Rejoin(apps[i]))
  }

  /** The loop over the lines of the output. */
  function ParseLines(lines: seq<string>): (apps: seq<StoreApp>)
    ensures |apps| <= |lines|
    ensures forall i :: 0 <= i < |apps| ==> ' ' !in apps[i].id
  {
    if |lines| == 0 then []
    else
      var rest := ParseLines(lines[1..]);
      if IsEntryLine(lines[0]) then
        var a := LineEntry(lines[0]);
        assert forall i :: 1 <= i < |rest| + 1 ==> ([a] + rest)[i] == rest[i - 1];
        [a] + rest
      else rest
  }

  /** Rejoining the entries gives back exactly the entry lines, in their
      order: no line with content and a space is dropped, none is
      reordered, and no other line contributes. */
  lemma {:induction false} ParseLinesExact(lines: seq<string>)
    ensures RejoinAll(ParseLines(lines)) == Filter(lines, IsEntryLine)
  {
    if |lines| > 0 {
      ParseLinesExact(lines[1..]);
      if IsEntryLine(lines[0]) {
        assert RejoinAll(ParseLines(lines)) == [Rejoin(LineEntry(lines[0]))] + RejoinAll(ParseLines(lines[1..]));
      }
    }
  }

  /** The lines `result.stdout.strip().split("\n")` visits. */
  function OutputLines(stdout: string): (lines: seq<string>)
    ensures |lines| >= 1
    ensures JoinWith(lines, '\n') == Strip(stdout)
  {
    Split(Strip(stdout), '\n')
  }

  /** The apps of a `mas list` output, in line order. */
  function ParseMasList(stdout: string): (apps: seq<StoreApp>)
    ensures |apps| <= |OutputLines(stdout)|
    ensures forall i :: 0 <= i < |apps| ==> ' ' !in apps[i].id && Rejoin(apps[i]) in OutputLines(stdout)
  {
    ParsedFromLines(OutputLines(stdout));
    ParseLines(OutputLines(stdout))
  }

  /** Every parsed entry rejoins to one of the lines. */
  lemma ParsedFromLines(lines: seq<string>)
    ensures forall i :: 0 <= i < |ParseLines(lines)| ==> Rejoin(ParseLines(lines)[i]) in lines
  {
    var apps := ParseLines(lines);
    ParseLinesExact(lines);
    assert forall i :: 0 <= i < |apps| ==> RejoinAll(apps)[i] in Filter(lines, IsEntryLine);
  }

  /** `_scan_without_mas`: the stems of the receipt-holding bundles, none
      when /Applications is missing. */
  function ReceiptStems(applicationsExists: bool, bundles: seq<Bundle>): (stems: seq<string>)
    ensures !applicationsExists ==> stems == []
    ensures |stems| <= |bundles|
    ensures applicationsExists ==>
      stems == BundleStems(Filter(bundles, (b: Bundle) => b.hasReceipt))
  {
    if !applicationsExists then []
    else BundleStems(Filter(bundles, (b: Bundle) => b.hasReceipt))
  }

  function BundleStems(bundles: seq<Bundle>): (stems: seq<string>)
    ensures |stems| == |bundles|
    ensures forall i :: 0 <= i < |bundles| ==> stems[i] == Stem(BaseName(bundles[i].path))
  {
    seq(|bundles|, i requires 0 <= i < |bundles| => Stem(BaseName(bundles[i].path)))
  }

  /** `AppStoreScanner.scan`. */
  function Scan(env: Environment): (r: Result<AppStoreScan>)
    ensures !env.masInstalled ==> r == Ok(WithoutMas(ReceiptStems(env.applicationsExists, env.applications)))
    ensures env.masInstalled && env.masList.returncode != 0 ==>
      r == Raise(RuntimeError("Failed to run mas list: " + CalledProcessErrorText(MasListRepr, env.masList.returncode)))
    ensures env.masInstalled && env.masList.returncode == 0 ==> r == Ok(Listed(ParseMasList(env.masList.stdout)))
  {
    if !env.masInstalled then Ok(WithoutMas(ReceiptStems(env.applicationsExists, env.applications)))
    else if env.masList.returncode != 0 then
      Raise(RuntimeError("Failed to run mas list: " + CalledProcessErrorText(MasListRepr, env.masList.returncode)))
    else Ok(Listed(ParseMasList(env.masList.stdout)))
  }

  /** The dict of one app. */
  function AppJson(a: StoreApp): Json {
    Dict(map["id" := Str(a.id), "name" := Str(a.name)], ["id", "name"])
  }

  /** The dict of one fallback app. */
  function FallbackJson(stem: string): Json {
    Dict(map["id" := Str("unknown"), "name" := Str(stem), "note" := Str(FallbackNote)],
         ["id", "name", "note"])
  }

  /** The list of app dicts of a result. */
  function AppItems(s: AppStoreScan): (items: seq<Json>)
    ensures s.Listed? ==> |items| == |s.apps|
    ensures s.Listed? ==> forall i :: 0 <= i < |items| ==>
      Subscript(items[i], "id") == Ok(Str(s.apps[i].id)) && Subscript(items[i], "name") == Ok(Str(s.apps[i].name))
    ensures s.WithoutMas? ==> |items| == |s.stems|
    ensures s.WithoutMas? ==> forall i :: 0 <= i < |items| ==>
      Subscript(items[i], "id") == Ok(Str("unknown")) && Subscript(items[i], "name") == Ok(Str(s.stems[i]))
  {
    match s
    case Listed(apps) => seq(|apps|, i requires 0 <= i < |apps| => AppJson(apps[i]))
    case WithoutMas(stems) => seq(|stems|, i requires 0 <= i < |stems| => FallbackJson(stems[i]))
  }

  /** The dict `scan` returns: the apps, their count, and a warning exactly
      when `mas` was missing. */
  function ToJson(s: AppStoreScan): (d: Json)
    ensures Subscript(d, "apps") == Ok(List(AppItems(s)))
    ensures Subscript(d, "total_count") == Ok(Int(|AppItems(s)|))
    ensures HasKey(d, "warning") <==> s.WithoutMas?
  {
    var items := AppItems(s);
    if s.Listed? then
      Dict(map["apps" := List(items), "total_count" := Int(|items|)], ["apps", "total_count"])
    else
      Dict(map["apps" := List(items), "total_count" := Int(|items|), "warning" := Str(FallbackWarning)],
           ["apps", "total_count", "warning"])
  }

  /** Without `mas` every app's id is "unknown" and the result carries a
      warning; only receipt-holding bundles appear, in glob order. */
  lemma FallbackShape(env: Environment)
    requires !env.masInstalled
    ensures Scan(env).Ok? && HasKey(ToJson(Scan(env).value), "warning")
    ensures var apps := AppItems(Scan(env).value);
      forall i :: 0 <= i < |apps| ==> Subscript(apps[i], "id") == Ok(Str("unknown"))
    ensures env.applicationsExists ==>
      Scan(env).value.stems == BundleStems(Filter(env.applications, (b: Bundle) => b.hasReceipt))
  {
  }
}

=== FILE: backup.dfy ===
/**
 The backup engine (macbac/backup.py): run the five scanners in registry
 order, keep each result or its error message under the scanner's name,
 then store the data and write the inventory into a timestamped backup
 directory.
 */
module Backup {
  import opened Wrappers
  import opened Py
  import opened Files
  import opened Probe
  import opened Clock
  import opened Storage
  import opened Inventory
  import AppStoreScanner
  import HomebrewScanner
  import DevEnvScanner
  import FontScanner
  import ManualAppScanner

  /** The scanner registry, in iteration order. */
  const ScannerNames: seq<string> := ["appstore", "homebrew", "dev_env", "fonts", "manual_apps"]

  /** What each scanner observes. */
  datatype Environments = Environments(
    appstore: AppStoreScanner.Environment,
    homebrew: HomebrewScanner.Environment,
    devEnv: DevEnvScanner.Environment,
    fonts: FontScanner.Environment,
    manual: ManualAppScanner.Environment)

  /** The three readings of the clock: the directory stamp, the manifest
      date and the inventory date are taken by separate `datetime.now()`
      calls. */
  datatype Times = Times(started: DateTime, manifest: DateTime, inventory: DateTime)

  /** What the engine stores for a scanner: its dict, or `{"error": msg}`. */
  function EntryOf(o: ScanOutcome): (d: Json)
    ensures o.Returned? ==> d == o.data
    ensures o.Failed? ==> d.Dict? && d.fields == map["error" := Str(o.message)]
  {
    match o
    case Returned(data) => data
    case Failed(message) => Dict(map["error" := Str(message)], ["error"])
  }

  /** The registry names are distinct. */
  lemma ScannerNamesDistinct()
    ensures forall i, j :: 0 <= i < j < |ScannerNames| ==> ScannerNames[i] != ScannerNames[j]
  {
    forall i, j | 0 <= i < j < |ScannerNames| ensures ScannerNames[i] != ScannerNames[j] {
      assert ScannerNames[i][0] != ScannerNames[j][0];
    }
  }

  /** `data` holds each scanner's entry under its name, in registry order,
      and nothing else. */
  ghost predicate Aggregated(data: Json, outcomes: seq<ScanOutcome>)
    requires |outcomes| == |ScannerNames|
  {
    && data.Dict? && data.order == ScannerNames && OrderMatches(data.fields, data.order)
    && forall i :: 0 <= i < |ScannerNames| ==> Field(data, ScannerNames[i], EntryOf(outcomes[i]))
  }

  /** The loop of `start_backup` that fills `backup_data`, one scanner
      after the other. */
  method Collect(outcomes: seq<ScanOutcome>) returns (data: Json)
    requires |outcomes| == |ScannerNames|
    ensures Aggregated(data, outcomes)
  {
    ScannerNamesDistinct();
    var fields: map<string, Json> := map[];
    var order: seq<string> := [];
    var i := 0;
    while i < |ScannerNames|
      invariant i <= |ScannerNames|
      invariant order == ScannerNames[..i]
      invariant forall k :: k in fields <==> k in order
      invariant forall j :: 0 <= j < i ==> ScannerNames[j] in fields && fields[ScannerNames[j]] == EntryOf(outcomes[j])
    {
      fields := fields[ScannerNames[i] := EntryOf(outcomes[i])];
      order := order + [ScannerNames[i]];
      i := i + 1;
    }
    assert order == ScannerNames;
    data := Dict(fields, order);
  }

  /** What the engine gets from the development-environment scanner,
      which never raises. */
  function DevEnvOutcome(env: DevEnvScanner.Environment): ScanOutcome {
    Returned(DevEnvScanner.ToJson(DevEnvScanner.DevScan(
      DevEnvScanner.FoundIn(env, DevEnvScanner.ConfigFiles), DevEnvScanner.MissingIn(env, DevEnvScanner.ConfigFiles))))
  }

  /** Running the development-environment scanner. */
  method RunDevEnv(env: DevEnvScanner.Environment) returns (o: ScanOutcome)
    ensures o == DevEnvOutcome(env)
  {
    var dev := DevEnvScanner.Scan(env);
    o := Returned(DevEnvScanner.ToJson(dev));
  }

  /** What the engine gets from the font scanner, which never raises. */
  function FontOutcome(env: FontScanner.Environment): (o: ScanOutcome)
    ensures o.Returned? && o.data == FontScanner.ToJson(FontScanner.Scan(env)) && !HasKey(o.data, "error")
  {
    Returned(FontScanner.ToJson(FontScanner.Scan(env)))
  }

  /** What the engine gets from the App Store scanner: its dict, or the
      message of the exception it raised. */
  function AppStoreOutcome(env: AppStoreScanner.Environment): (o: ScanOutcome)
    ensures o.Returned? <==> AppStoreScanner.Scan(env).Ok?
    ensures o.Returned? ==> o.data == AppStoreScanner.ToJson(AppStoreScanner.Scan(env).value)
    ensures o.Failed? ==> o.message == Message(AppStoreScanner.Scan(env).error)
  {
    match AppStoreScanner.Scan(env)
    case Ok(scan) => Returned(AppStoreScanner.ToJson(scan))
    case Raise(e) => Failed(Message(e))
  }

  /** What the engine gets from the Homebrew scanner: its dict, or the
      message of the exception it raised. */
  function HomebrewOutcome(env: HomebrewScanner.Environment): (o: ScanOutcome)
    ensures o.Returned? <==> HomebrewScanner.Scan(env).Ok?
    ensures o.Returned? ==> o.data == HomebrewScanner.ToJson(HomebrewScanner.Scan(env).value)
    ensures o.Failed? ==> o.message == Message(HomebrewScanner.Scan(env).error)
  {
    match HomebrewScanner.Scan(env)
    case Ok(scan) => Returned(HomebrewScanner.ToJson(scan))
    case Raise(e) => Failed(Message(e))
  }

  /** What the engine gets from the manual-application scanner: its dict,
      or the message of the exception it raised. */
  function ManualOutcome(env: ManualAppScanner.Environment): (o: ScanOutcome)
    ensures o.Returned? <==> ManualAppScanner.Scan(env).Ok?
    ensures o.Returned? ==> o.data == ManualAppScanner.ToJson(ManualAppScanner.Scan(env).value)
    ensures o.Failed? ==> o.message == Message(ManualAppScanner.Scan(env).error)
  {
    match ManualAppScanner.Scan(env)
    case Ok(scan) => Returned(ManualAppScanner.ToJson(scan))
    case Raise(e) => Failed(Message(e))
  }

  /** What the five scanners give for `envs`, in registry order. */
  function Outcomes(envs: Environments): (outcomes: seq<ScanOutcome>)
    ensures |outcomes| == |ScannerNames|
  {
    [AppStoreOutcome(envs.appstore), HomebrewOutcome(envs.homebrew), DevEnvOutcome(envs.devEnv),
     FontOutcome(envs.fonts), ManualOutcome(envs.manual)]
  }

  /** The scanning half of `start_backup`: every scanner runs once, in
      registry order. */
  method RunScanners(envs: Environments) returns (outcomes: seq<ScanOutcome>)
    ensures outcomes == Outcomes(envs)
  {
    var devEnv := RunDevEnv(envs.devEnv);
    outcomes := [AppStoreOutcome(envs.appstore), HomebrewOutcome(envs.homebrew), devEnv,
                 FontOutcome(envs.fonts), ManualOutcome(envs.manual)];
  }

  const BackupPrefix := "macbac_backup_"

  /** The backup directory for a start time: a directory of `outputPath`
      whose name is the prefix followed by a stamp that reads back as the
      start time to the second. */
  function BackupDir(outputPath: string, started: DateTime): (dir: string)
    requires Valid(started)
    ensures |dir| == |outputPath| + 1 + |BackupPrefix| + 15
    ensures dir[..|outputPath| + 1 + |BackupPrefix|] == outputPath + "/" + BackupPrefix
    ensures ParseStamp(dir[|outputPath| + 1 + |BackupPrefix|..]) == Some(started.(microsecond := 0))
  {
    StampRoundTrip(started);
    var dir := Join(outputPath, BackupPrefix + StampFormat(started));
    assert dir[|outputPath| + 1 + |BackupPrefix|..] == StampFormat(started);
    dir
  }

  /** Different files of one directory have different paths. */
  lemma JoinDistinct(dir: string, a: string, b: string)
    requires a != b
    ensures Join(dir, a) != Join(dir, b)
  {
    assert Join(dir, a)[|dir| + 1..] == a;
    assert Join(dir, b)[|dir| + 1..] == b;
  }

  /** Writing the inventory leaves the manifest in place. */
  lemma InventoryKeepsManifest(dir: string, fs: FileSystem, inventory: Content)
    ensures var fs' := FileSystem(fs.files[InventoryPath(dir) := inventory], fs.dirs);
      Manifest(fs', dir) == Manifest(fs, dir) && IsFile(fs', InventoryPath(dir))
  {
    JoinDistinct(dir, "inventory.md", "manifest.json");
  }

  /** `dir` holds the manifest of `data` and the inventory of `data`,
      rendered without an exception. */
  ghost predicate Persisted(fs: FileSystem, dir: string, data: Json, sw: SwVers, manifestDate: string, inventoryDate: string) {
    && MacosVersion(sw).Ok?
    && BuildManifest(data, manifestDate, MacosVersion(sw).value).Ok?
    && Manifest(fs, dir) == BuildManifest(data, manifestDate, MacosVersion(sw).value).value
    && InventoryText(data, inventoryDate, MacosVersion(sw).value).raised.None?
    && IsFile(fs, InventoryPath(dir))
    && fs.files[InventoryPath(dir)] == PlainText(InventoryText(data, inventoryDate, MacosVersion(sw).value).text)
  }

  /** The storing half of `start_backup`: the manifest and the font
      copies, then the inventory, into an existing backup directory. */
  method Persist(dir: string, data: Json, fs: FileSystem, failing: set<string>, sw: SwVers,
                 manifestDate: string, inventoryDate: string) returns (raised: Option<PyError>, fs': FileSystem)
    requires dir in fs.dirs
    ensures raised.None? ==> dir in fs'.dirs && Persisted(fs', dir, data, sw, manifestDate, inventoryDate)
  {
    var stored := StoreBackupData(Some(dir), data, fs, failing, sw, manifestDate);
    if stored.raised.Some? {
      return stored.raised, stored.fs;
    }
    assert dir in stored.fs.dirs;
    var inventory := GenerateInventory(Some(dir), data, stored.fs, sw, inventoryDate);
    fs' := inventory.fs;
    raised := inventory.raised;
    if raised.None? {
      InventoryKeepsManifest(dir, stored.fs, PlainText(InventoryText(data, inventoryDate, MacosVersion(sw).value).text));
    }
  }

  /** `dir` holds the manifest and the inventory of exactly the data the
      five scanners give for `envs`. */
  ghost predicate BackedUp(fs: FileSystem, dir: string, envs: Environments, sw: SwVers,
                           manifestDate: string, inventoryDate: string) {
    exists data: Json :: Aggregated(data, Outcomes(envs)) && Persisted(fs, dir, data, sw, manifestDate, inventoryDate)
  }

  /** The part of `start_backup` that follows the creation of the backup
      directory: scan, aggregate, store, write the inventory. */
  method ScanAndStore(dir: string, envs: Environments, fs: FileSystem, failing: set<string>, sw: SwVers,
                      manifestDate: string, inventoryDate: string) returns (raised: Option<PyError>, fs': FileSystem)
    requires dir in fs.dirs
    ensures raised.None? ==> dir in fs'.dirs && IsFile(fs', InventoryPath(dir))
    ensures raised.None? ==> Manifest(fs', dir).Dict? && Manifest(fs', dir).order == ManifestOrder
    ensures raised.None? ==> BackedUp(fs', dir, envs, sw, manifestDate, inventoryDate)
  {
    var outcomes := RunScanners(envs);
    var data := Collect(outcomes);
    raised, fs' := Persist(dir, data, fs, failing, sw, manifestDate, inventoryDate);
    if raised.None? {
      assert Aggregated(data, Outcomes(envs)) && Persisted(fs', dir, data, sw, manifestDate, inventoryDate);
      assert BackedUp(fs', dir, envs, sw, manifestDate, inventoryDate);
    }
  }

  /** `start_backup`: the directory, the scans, the stored data, then the
      inventory. An exception from storing is not caught and the inventory
      is then not written. A successful backup holds the manifest and the
      inventory of exactly the data the five scanners gave. */
  method StartBackup(outputPath: string, times: Times, envs: Environments, fs: FileSystem,
                     failing: set<string>, sw: SwVers) returns (r: Result<string>, fs': FileSystem)
    requires Valid(times.started) && Valid(times.manifest) && Valid(times.inventory)
    ensures r.Ok? ==> r.value == BackupDir(outputPath, times.started)
    ensures BackupDir(outputPath, times.started) in fs.files ==>
      r == Raise(FileExistsError(BackupDir(outputPath, times.started))) && fs' == fs
    ensures r.Ok? ==> BackupDir(outputPath, times.started) in fs'.dirs
    ensures r.Ok? ==> Manifest(fs', r.value).Dict? && Manifest(fs', r.value).order == ManifestOrder
    ensures r.Ok? ==> IsFile(fs', InventoryPath(r.value))
    ensures r.Ok? ==> BackedUp(fs', r.value, envs, sw, IsoFormat(times.manifest), InventoryFormat(times.inventory))
  {
    var dir := BackupDir(outputPath, times.started);
    var made := MakeDir(fs, dir);
    if made.Raise? {
      return Raise(made.error), fs;
    }
    var raised;
    raised, fs' := ScanAndStore(dir, envs, made.value, failing, sw, IsoFormat(times.manifest), InventoryFormat(times.inventory));
    if raised.Some? {
      return Raise(raised.value), fs';
    }
    r := Ok(dir);
  }

  /** A development-tools list is never recorded: the entry `start_backup`
      stores for the development scanner, its dict or an error dict, has no
      "installed_tools" entry, so the manifest's tool list is empty
      whatever is installed. */
  lemma DevToolsAlwaysEmpty(data: Json, o: ScanOutcome, dev: DevEnvScanner.DevScan, date: string, macos: string)
    requires Field(data, "dev_env", EntryOf(o))
    requires o == Returned(DevEnvScanner.ToJson(dev)) || o.Failed?
    ensures BuildManifest(data, date, macos).Ok? ==>
      Field(BuildManifest(data, date, macos).value, "dev_tools", List([]))
  {
    DevEnvScanner.NoInstalledTools(dev);
    assert !HasKey(data.fields["dev_env"], "installed_tools");
    if BuildManifest(data, date, macos).Ok? {
      ManifestSections(data, date, macos);
    }
  }

  /** The inventory's development section says no tools were detected
      whenever the scan returned. */
  lemma DevSectionAlwaysEmpty(dev: DevEnvScanner.DevScan)
    ensures DevEnvSection(DevEnvScanner.ToJson(dev)) == Emit(DevEnvHeading + NoDevTools + Rule)
  {
    DevEnvScanner.NoInstalledTools(dev);
  }

  /** A scanner that raised leaves an empty entry in the manifest: its
      error dict has none of the keys the manifest reads. */
  lemma FailedScanRecordsNothing(data: Json, appstore: ScanOutcome, homebrew: ScanOutcome, date: string, macos: string)
    requires appstore.Failed? && homebrew.Failed?
    requires Field(data, "appstore", EntryOf(appstore)) && Field(data, "homebrew", EntryOf(homebrew))
    ensures BuildManifest(data, date, macos).Ok? ==>
      var m := BuildManifest(data, date, macos).value;
      Field(m, "appstore", List([])) && Field(m, "homebrew", HomebrewEntry(Str("")))
  {
    if BuildManifest(data, date, macos).Ok? {
      ManifestSections(data, date, macos);
    }
  }

  /** What a successful App Store scan contributes to the manifest: its
      app dicts, in order. */
  lemma AppStoreAppsRecorded(data: Json, scan: AppStoreScanner.AppStoreScan, date: string, macos: string)
    requires Field(data, "appstore", EntryOf(Returned(AppStoreScanner.ToJson(scan))))
    ensures BuildManifest(data, date, macos).Ok? ==>
      Field(BuildManifest(data, date, macos).value, "appstore", List(AppStoreScanner.AppItems(scan)))
  {
    if BuildManifest(data, date, macos).Ok? {
      ManifestSections(data, date, macos);
    }
  }
}

=== FILE: clock.dfy ===
/**
 The three renderings of `datetime.now()` the program uses: `isoformat()`
 for the manifest date, "%Y-%m-%d %H:%M:%S" for the inventory, and
 "%Y%m%d_%H%M%S" for the name of a backup directory. The clock itself is
 a parameter.
 */
module Clock {
  import opened Wrappers
  import opened Text

  datatype DateTime = DateTime(year: nat, month: nat, day: nat, hour: nat, minute: nat, second: nat, microsecond: nat)

  /** The ranges `datetime` enforces on its fields (day-of-month limits
      per month aside). */
  predicate Valid(t: DateTime) {
    && 1 <= t.year <= 9999 && 1 <= t.month <= 12 && 1 <= t.day <= 31
    && t.hour < 24 && t.minute < 60 && t.second < 60 && t.microsecond < 1000000
  }

  function Pow10(w: nat): (p: nat)
    ensures p >= 1
  {
    if w == 0 then 1 else 10 * Pow10(w - 1)
  }

  predicate AllDigits(s: string) {
    forall i :: 0 <= i < |s| ==> '0' <= s[i] <= '9'
  }

  /** `n` zero-padded to `w` digits (`n` must fit). */
  function Pad(n: nat, w: nat): (s: string)
    requires n < Pow10(w)
    ensures |s| == w && AllDigits(s)
  {
    if w == 0 then ""
    else
      var init := Pad(n / 10, w - 1);
      init + [DigitChar(n % 10)]
  }

  /** The number a string of decimal digits spells. */
  function ParseDigits(s: string): nat
    requires AllDigits(s)
  {
    if |s| == 0 then 0
    else ParseDigits(s[..|s| - 1]) * 10 + (s[|s| - 1] as int - '0' as int)
  }

  /** Parsing a padded number gives it back. */
  lemma {:induction false} ParsePad(n: nat, w: nat)
    requires n < Pow10(w)
    ensures ParseDigits(Pad(n, w)) == n
  {
    if w > 0 {
      ParsePad(n / 10, w - 1);
      assert Pad(n, w)[..w - 1] == Pad(n / 10, w - 1);
    }
  }

  /** "YYYY-MM-DD?HH:MM:SS" with `mid` between the date and the time. */
  function Seconds(t: DateTime, mid: char): (s: string)
    requires Valid(t)
    ensures |s| == 19 && s[10] == mid
  {
    Pad(t.year, 4) + "-" + Pad(t.month, 2) + "-" + Pad(t.day, 2) + [mid]
      + Pad(t.hour, 2) + ":" + Pad(t.minute, 2) + ":" + Pad(t.second, 2)
  }

  /** Reads "YYYY-MM-DD?HH:MM:SS" back, with `mid` between the date and the
      time; the microseconds are 0. */
  function ParseSeconds(s: string, mid: char): (r: Option<DateTime>)
    ensures r.Some? ==> |s| == 19 && s[10] == mid && r.value.microsecond == 0
  {
    if |s| == 19 && s[4] == '-' && s[7] == '-' && s[10] == mid && s[13] == ':' && s[16] == ':'
       && AllDigits(s[0..4]) && AllDigits(s[5..7]) && AllDigits(s[8..10])
       && AllDigits(s[11..13]) && AllDigits(s[14..16]) && AllDigits(s[17..19])
    then
      Some(DateTime(ParseDigits(s[0..4]), ParseDigits(s[5..7]), ParseDigits(s[8..10]),
                    ParseDigits(s[11..13]), ParseDigits(s[14..16]), ParseDigits(s[17..19]), 0))
    else None
  }

  /** Reading the seconds rendering back gives the time to the second. */
  lemma SecondsRoundTrip(t: DateTime, mid: char)
    requires Valid(t)
    ensures ParseSeconds(Seconds(t, mid), mid) == Some(t.(microsecond := 0))
  {
    var s := Seconds(t, mid);
    assert s[0..4] == Pad(t.year, 4);
    assert s[5..7] == Pad(t.month, 2);
    assert s[8..10] == Pad(t.day, 2);
    assert s[11..13] == Pad(t.hour, 2);
    assert s[14..16] == Pad(t.minute, 2);
    assert s[17..19] == Pad(t.second, 2);
    ParsePad(t.year, 4);
    ParsePad(t.month, 2);
    ParsePad(t.day, 2);
    ParsePad(t.hour, 2);
    ParsePad(t.minute, 2);
    ParsePad(t.second, 2);
  }

  /** Reads an `isoformat()` string back: the seconds rendering with "T",
      then optionally "." and six digits of microseconds. */
  function ParseIso(s: string): (r: Option<DateTime>)
    ensures r.Some? ==> |s| == 19 || |s| == 26
  {
    if |s| == 19 then ParseSeconds(s, 'T')
    else if |s| == 26 && s[19] == '.' && AllDigits(s[20..]) then
      match ParseSeconds(s[..19], 'T')
      case None => None
      case Some(t) => Some(t.(microsecond := ParseDigits(s[20..])))
    else None
  }

  /** `t.isoformat()`: the microseconds appear only when they are not 0;
      reading it back gives `t`. */
  function IsoFormat(t: DateTime): (s: string)
    requires Valid(t)
    ensures |s| == (if t.microsecond == 0 then 19 else 26)
    ensures ParseIso(s) == Some(t)
  {
    var secs := Seconds(t, 'T');
    SecondsRoundTrip(t, 'T');
    if t.microsecond == 0 then secs
    else
      var s := secs + "." + Pad(t.microsecond, 6);
      assert s[..19] == secs && s[20..] == Pad(t.microsecond, 6);
      ParsePad(t.microsecond, 6);
      s
  }

  /** `t.strftime("%Y-%m-%d %H:%M:%S")`: reading it back gives `t` to the
      second. */
  function InventoryFormat(t: DateTime): (s: string)
    requires Valid(t)
    ensures |s| == 19
    ensures ParseSeconds(s, ' ') == Some(t.(microsecond := 0))
  {
    SecondsRoundTrip(t, ' ');
    Seconds(t, ' ')
  }

  /** `t.strftime("%Y%m%d_%H%M%S")`. */
  function StampFormat(t: DateTime): (s: string)
    requires Valid(t)
    ensures |s| == 15 && s[8] == '_'
  {
    Pad(t.year, 4) + Pad(t.month, 2) + Pad(t.day, 2) + "_" + Pad(t.hour, 2) + Pad(t.minute, 2) + Pad(t.second, 2)
  }

  /** Reads a backup stamp back: eight digits, an underscore, six digits. */
  function ParseStamp(s: string): (r: Option<DateTime>)
    ensures r.Some? ==> |s| == 15 && s[8] == '_'
  {
    if |s| == 15 && s[8] == '_' && AllDigits(s[..8]) && AllDigits(s[9..]) then
      Some(DateTime(ParseDigits(s[0..4]), ParseDigits(s[4..6]), ParseDigits(s[6..8]),
                    ParseDigits(s[9..11]), ParseDigits(s[11..13]), ParseDigits(s[13..15]), 0))
    else None
  }

  /** A stamp gives back the time it was made from, to the second. */
  lemma StampRoundTrip(t: DateTime)
    requires Valid(t)
    ensures ParseStamp(StampFormat(t)) == Some(t.(microsecond := 0))
  {
    StampSlices(Pad(t.year, 4), Pad(t.month, 2), Pad(t.day, 2), "_", Pad(t.hour, 2), Pad(t.minute, 2), Pad(t.second, 2));
    DigitsAppend3(Pad(t.year, 4), Pad(t.month, 2), Pad(t.day, 2));
    DigitsAppend3(Pad(t.hour, 2), Pad(t.minute, 2), Pad(t.second, 2));
    ParsePad(t.year, 4);
    ParsePad(t.month, 2);
    ParsePad(t.day, 2);
    ParsePad(t.hour, 2);
    ParsePad(t.minute, 2);
    ParsePad(t.second, 2);
  }

  /** Where the seven parts of a stamp sit in it. */
  lemma StampSlices<T>(a: seq<T>, b: seq<T>, c: seq<T>, u: seq<T>, d: seq<T>, e: seq<T>, f: seq<T>)
    requires |a| == 4 && |b| == 2 && |c| == 2 && |u| == 1 && |d| == 2 && |e| == 2 && |f| == 2
    ensures var s := a + b + c + u + d + e + f;
      && |s| == 15 && s[8] == u[0]
      && s[0..4] == a && s[4..6] == b && s[6..8] == c && s[..8] == a + b + c
      && s[9..11] == d && s[11..13] == e && s[13..15] == f && s[9..] == d + e + f
  {
    var s := a + b + c + u + d + e + f;
    assert s == (a + b + c) + u + (d + e + f);
  }

  /** Three digit strings joined are digits. */
  lemma DigitsAppend3(a: string, b: string, c: string)
    requires AllDigits(a) && AllDigits(b) && AllDigits(c)
    ensures AllDigits(a + b + c)
  {
    var s := a + b + c;
    forall i | 0 <= i < |s|
      ensures '0' <= s[i] <= '9'
    {
      if i < |a| {
        assert s[i] == a[i];
      } else if i < |a| + |b| {
        assert s[i] == b[i - |a|];
      } else {
        assert s[i] == c[i - |a| - |b|];
      }
    }
  }

  /** Two moments in different seconds have different stamps, and two in
      the same second share one. */
  lemma StampInjective(t1: DateTime, t2: DateTime)
    requires Valid(t1) && Valid(t2)
    ensures StampFormat(t1) == StampFormat(t2) <==> t1.(microsecond := 0) == t2.(microsecond := 0)
  {
    StampRoundTrip(t1);
    StampRoundTrip(t2);
  }
}

=== FILE: dev_env_scanner.dfy ===
/**
 The development-environment scanner (macbac/scanners/dev_env_scanner.py):
 which of twelve well-known configuration files exist in the home
 directory as regular files.
 */
module DevEnvScanner {
  import opened Wrappers
  import opened Py

  /** One row of the table of configuration files. */
  datatype Config = Config(name: string, path: string, description: string)

  /** What a path names on disk. */
  datatype PathKind = Absent | RegularFile(size: nat) | Other

  /** What the scanner can observe: the home directory and what each
      expanded path names; paths not in `kinds` do not exist. */
  datatype Environment = Environment(home: string, kinds: map<string, PathKind>)

  /** A checked configuration file; `size` is present exactly for the ones
      found. */
  datatype Entry = Entry(config: Config, size: Option<nat>)

  datatype DevScan = DevScan(found: seq<Entry>, missing: seq<Entry>)

  /** The configuration files checked, in order. */
  const ConfigFiles: seq<Config> := [
    Config(".gitconfig", "~/.gitconfig", "Git global configuration"),
    Config(".zshrc", "~/.zshrc", "Zsh shell configuration"),
    Config(".bashrc", "~/.bashrc", "Bash shell configuration"),
    Config(".bash_profile", "~/.bash_profile", "Bash profile configuration"),
    Config(".vimrc", "~/.vimrc", "Vim editor configuration"),
    Config(".tmux.conf", "~/.tmux.conf", "Tmux terminal multiplexer configuration"),
    Config(".ssh/config", "~/.ssh/config", "SSH client configuration"),
    Config(".aws/config", "~/.aws/config", "AWS CLI configuration"),
    Config(".aws/credentials", "~/.aws/credentials", "AWS CLI credentials (sensitive)"),
    Config(".npmrc", "~/.npmrc", "NPM configuration"),
    Config(".pypirc", "~/.pypirc", "PyPI configuration"),
    Config(".gitignore_global", "~/.gitignore_global", "Global Git ignore patterns")]

  /** `Path(p).expanduser()` for the home directory `home`. */
  function ExpandUser(home: string, p: string): (q: string)
    ensures |p| > 0 && p[0] == '~' ==> q == home + p[1..]
    ensures !(|p| > 0 && p[0] == '~') ==> q == p
  {
    if |p| > 0 && p[0] == '~' then home + p[1..] else p
  }

  /** What the expanded path of a configuration file names. */
  function KindOf(env: Environment, c: Config): PathKind {
    var p := ExpandUser(env.home, c.path);
    if p in env.kinds then env.kinds[p] else Absent
  }

  /** `exists() and is_file()`. */
  predicate Present(env: Environment, c: Config) {
    KindOf(env, c).RegularFile?
  }

  /** The found entries among `cs`, in order. */
  function FoundIn(env: Environment, cs: seq<Config>): seq<Entry> {
    if |cs| == 0 then []
    else
      var c := cs[|cs| - 1];
      FoundIn(env, cs[..|cs| - 1]) + (if Present(env, c) then [Entry(c, Some(KindOf(env, c).size))] else [])
  }

  /** The missing entries among `cs`, in order. */
  function MissingIn(env: Environment, cs: seq<Config>): seq<Entry> {
    if |cs| == 0 then []
    else
      var c := cs[|cs| - 1];
      MissingIn(env, cs[..|cs| - 1]) + (if Present(env, c) then [] else [Entry(c, None)])
  }

  function ConfigsOf(es: seq<Entry>): (cs: seq<Config>)
    ensures |cs| == |es|
    ensures forall i :: 0 <= i < |es| ==> cs[i] == es[i].config
  {
    seq(|es|, i requires 0 <= i < |es| => es[i].config)
  }

  /** Every checked file lands in exactly one of the two lists: the found
      list holds the present ones with their size, the missing list the
      others without one, and together they hold as many entries as were
      checked. */
  lemma {:induction false} Partition(env: Environment, cs: seq<Config>)
    ensures |FoundIn(env, cs)| + |MissingIn(env, cs)| == |cs|
    ensures forall c :: c in ConfigsOf(FoundIn(env, cs)) <==> c in cs && Present(env, c)
    ensures forall c :: c in ConfigsOf(MissingIn(env, cs)) <==> c in cs && !Present(env, c)
    ensures forall e :: e in FoundIn(env, cs) ==> Present(env, e.config) && e.size == Some(KindOf(env, e.config).size)
    ensures forall e :: e in MissingIn(env, cs) ==> e.size.None?
  {
    if |cs| > 0 {
      var init := cs[..|cs| - 1];
      var c := cs[|cs| - 1];
      Partition(env, init);
      assert cs == init + [c];
      var found := FoundIn(env, init);
      var missing := MissingIn(env, init);
      if Present(env, c) {
        assert ConfigsOf(FoundIn(env, cs)) == ConfigsOf(found) + [c];
        assert ConfigsOf(MissingIn(env, cs)) == ConfigsOf(missing);
      } else {
        assert ConfigsOf(FoundIn(env, cs)) == ConfigsOf(found);
        assert ConfigsOf(MissingIn(env, cs)) == ConfigsOf(missing) + [c];
      }
    }
  }

  /** `DevEnvScanner.scan`: one pass over the table, each file appended to
      the found or the missing list. */
  method Scan(env: Environment) returns (r: DevScan)
    ensures r.found == FoundIn(env, ConfigFiles) && r.missing == MissingIn(env, ConfigFiles)
    ensures |r.found| + |r.missing| == |ConfigFiles| == 12
  {
    var found: seq<Entry> := [];
    var missing: seq<Entry> := [];
    var i := 0;
    while i < |ConfigFiles|
      invariant i <= |ConfigFiles|
      invariant found == FoundIn(env, ConfigFiles[..i])
      invariant missing == MissingIn(env, ConfigFiles[..i])
    {
      var c := ConfigFiles[i];
      assert ConfigFiles[..i + 1][..i] == ConfigFiles[..i];
      if KindOf(env, c).RegularFile? {
        found := found + [Entry(c, Some(KindOf(env, c).size))];
      } else {
        missing := missing + [Entry(c, None)];
      }
      i := i + 1;
    }
    assert ConfigFiles[..i] == ConfigFiles;
    Partition(env, ConfigFiles);
    r := DevScan(found, missing);
  }

  /** The dict of a found file. */
  function FoundJson(e: Entry): Json {
    var c := e.config;
    Dict(map["name" := Str(c.name), "path" := Str(c.path), "description" := Str(c.description),
             "size_bytes" := Int(e.size.GetOr(0)), "exists" := Bool(true)],
         ["name", "path", "description", "size_bytes", "exists"])
  }

  /** The dict of a missing file. */
  function MissingJson(e: Entry): Json {
    var c := e.config;
    Dict(map["name" := Str(c.name), "path" := Str(c.path), "description" := Str(c.description),
             "exists" := Bool(false)],
         ["name", "path", "description", "exists"])
  }

  /** The dict `scan` returns. Its keys are the four below; there is no
      "installed_tools" key. */
  function ToJson(s: DevScan): (d: Json)
    ensures d.Dict? && d.fields.Keys == {"config_files", "missing_files", "found_count", "total_checked"}
    ensures Subscript(d, "found_count") == Ok(Int(|s.found|))
    ensures Subscript(d, "total_checked") == Ok(Int(|ConfigFiles|))
    ensures !HasKey(d, "error")
  {
    Dict(map["config_files" := List(seq(|s.found|, i requires 0 <= i < |s.found| => FoundJson(s.found[i]))),
             "missing_files" := List(seq(|s.missing|, i requires 0 <= i < |s.missing| => MissingJson(s.missing[i]))),
             "found_count" := Int(|s.found|),
             "total_checked" := Int(|ConfigFiles|)],
         ["config_files", "missing_files", "found_count", "total_checked"])
  }

  /** Whatever is on disk, the result has no "installed_tools" entry, the
      key the storage layer reads the development tools from. */
  lemma NoInstalledTools(s: DevScan)
    ensures !HasKey(ToJson(s), "installed_tools")
  {
  }
}

=== FILE: files.dfy ===
/**
 An abstract file system: regular files with their contents, and a set of
 directory paths. Paths are strings joined with "/" (the `Path / name`
 operator); parent-directory existence is not tracked.
 */
module Files {
  import opened Wrappers
  import opened Text
  import opened Py

  /** What a regular file holds: raw bytes, the JSON text of a value
      (`json.dump` output, decoded back by `json.load`), or UTF-8 text. */
  datatype Content = Bytes(data: seq<bv8>) | JsonText(doc: Json) | PlainText(text: string)

  datatype FileSystem = FileSystem(files: map<string, Content>, dirs: set<string>)

  /** The file system after a sequence of operations, and the exception
      that interrupted it, if one did; what was written before the
      exception stays written. */
  datatype Effect = Effect(fs: FileSystem, raised: Option<PyError>)

  /** `Path(p).exists()`. */
  predicate Exists(fs: FileSystem, p: string) {
    p in fs.files || p in fs.dirs
  }

  /** `Path(p).is_file()`. */
  predicate IsFile(fs: FileSystem, p: string) {
    p in fs.files
  }

  /** `Path(dir) / name`. */
  function Join(dir: string, name: string): string {
    dir + "/" + name
  }

  /** `fs'` keeps every file of `fs` with its content and has the same
      directories: at most new files were added. */
  predicate OnlyAdds(fs: FileSystem, fs': FileSystem) {
    && fs'.dirs == fs.dirs
    && (forall p :: p in fs.files ==> p in fs'.files && fs'.files[p] == fs.files[p])
  }

  /** `q` lies under directory `d`. */
  predicate InDir(q: string, d: string) {
    |q| > |d| && q[..|d| + 1] == d + "/"
  }

  /** `dir/name` lies under `dir`, and so does anything under it. */
  lemma JoinInDir(dir: string, name: string)
    ensures InDir(Join(dir, name), dir)
    ensures forall q :: InDir(q, Join(dir, name)) ==> InDir(q, dir)
  {
    assert (dir + "/" + name)[..|dir| + 1] == dir + "/";
    forall q | InDir(q, Join(dir, name))
      ensures InDir(q, dir)
    {
      assert q[..|dir| + 1] == q[..|Join(dir, name)| + 1][..|dir| + 1];
    }
  }

  /** `Path(p).mkdir(exist_ok=True)`: an existing directory is fine, an
      existing file is a FileExistsError. */
  function MakeDir(fs: FileSystem, p: string): (r: Result<FileSystem>)
    ensures r.Raise? <==> p in fs.files
    ensures r.Ok? ==> r.value == FileSystem(fs.files, fs.dirs + {p})
  {
    if p in fs.files then Raise(FileExistsError(p))
    else Ok(FileSystem(fs.files, fs.dirs + {p}))
  }

  /** Opening `p` for writing and writing `c`: a directory cannot be opened
      as a file. */
  function WriteFile(fs: FileSystem, p: string, c: Content): (r: Result<FileSystem>)
    ensures r.Raise? <==> p in fs.dirs
    ensures r.Ok? ==> r.value == FileSystem(fs.files[p := c], fs.dirs)
  {
    if p in fs.dirs then Raise(IsADirectoryError(p))
    else Ok(FileSystem(fs.files[p := c], fs.dirs))
  }

  /** `Path(p).unlink(missing_ok=True)` of a regular file. */
  function RemoveFile(fs: FileSystem, p: string): (fs': FileSystem)
    ensures p !in fs'.files && fs'.dirs == fs.dirs
    ensures forall q :: q in fs.files && q != p ==> q in fs'.files && fs'.files[q] == fs.files[q]
    ensures forall q :: q in fs'.files ==> q in fs.files
  {
    FileSystem(fs.files - {p}, fs.dirs)
  }

  /** `shutil.copy2(src, dst)`. The source must be a regular file; copying
      into an existing directory writes `dst/<name of src>`. `failing` holds
      the sources whose copy raises an OSError for reasons outside the model
      (permissions, a full disk). */
  function Copy(fs: FileSystem, src: string, dst: string, failing: set<string>): (r: Result<FileSystem>)
    ensures r.Ok? ==> src in fs.files && src !in failing
    ensures r.Ok? ==> var target := if dst in fs.dirs then Join(dst, BaseName(src)) else dst;
      r.value == FileSystem(fs.files[target := fs.files[src]], fs.dirs)
    ensures src in fs.files && src !in failing && dst !in fs.dirs ==> r.Ok?
  {
    if src !in fs.files && src in fs.dirs then Raise(IsADirectoryError(src))
    else if src !in fs.files then Raise(FileNotFoundError(src))
    else if src in failing then Raise(OSError(src))
    else
      var target := if dst in fs.dirs then Join(dst, BaseName(src)) else dst;
      if target in fs.dirs then Raise(IsADirectoryError(target))
      else Ok(FileSystem(fs.files[target := fs.files[src]], fs.dirs))
  }
}

=== FILE: font_scanner.dfy ===
/**
 The font scanner (macbac/scanners/font_scanner.py): the font files found
 recursively under ~/Library/Fonts, their total size, and the same files
 grouped by font type.
 */
module FontScanner {
  import opened Wrappers
  import opened Text
  import opened Py
  import opened Seqs

  /** Lower-case file suffix to font type. */
  const FontExtensions: map<string, string> := map[
    ".ttf" := "TrueType Font",
    ".otf" := "OpenType Font",
    ".ttc" := "TrueType Collection",
    ".otc" := "OpenType Collection",
    ".woff" := "Web Open Font Format",
    ".woff2" := "Web Open Font Format 2",
    ".eot" := "Embedded OpenType",
    ".pfb" := "PostScript Type 1",
    ".pfm" := "PostScript Type 1 Metrics",
    ".afm" := "Adobe Font Metrics",
    ".bdf" := "Bitmap Distribution Format",
    ".pcf" := "Portable Compiled Format",
    ".snf" := "Server Normal Format"]

  /** One path `rglob("*")` yields: whether it is a regular file, and its
      size, or `None` when `stat()` raises OSError. */
  datatype Entry = Entry(path: string, isFile: bool, size: Option<nat>)

  /** What `rglob` yielded before it finished or raised PermissionError;
      the entries yielded before the error are kept. */
  datatype Listing = Listing(yielded: seq<Entry>, deniedAfter: bool)

  datatype FontFile = FontFile(name: string, path: string, extension: string, fontType: string, sizeBytes: nat)

  /** What the scanner can observe. */
  datatype Environment = Environment(home: string, fontsDirExists: bool, listing: Listing)

  datatype FontScan = FontScan(
    fontFiles: seq<FontFile>,
    totalSizeBytes: nat,
    typeOrder: seq<string>,                  // fonts_by_type keys, first-seen order
    byType: map<string, seq<FontFile>>,      // fonts_by_type
    scannedDirectories: seq<string>)

  /** The lower-cased suffix of an entry's file name. */
  function ExtensionOf(path: string): string {
    Lower(Suffix(BaseName(path)))
  }

  /** An entry that becomes a font: a regular file with a font suffix,
      compared case-insensitively, whose size could be read. */
  predicate IsFontEntry(e: Entry) {
    e.isFile && ExtensionOf(e.path) in FontExtensions && e.size.Some?
  }

  /** A font's extension is its lower-cased suffix, a key of the table,
      and its type is the table's entry for it. */
  predicate Classified(f: FontFile) {
    && f.extension in FontExtensions
    && f.fontType == FontExtensions[f.extension]
    && f.name == BaseName(f.path)
    && f.extension == Lower(Suffix(f.name))
  }

  function FontOf(e: Entry): (f: FontFile)
    requires IsFontEntry(e)
    ensures Classified(f) && f.path == e.path && f.sizeBytes == e.size.value
  {
    var ext := ExtensionOf(e.path);
    FontFile(BaseName(e.path), e.path, ext, FontExtensions[ext], e.size.value)
  }

  /** `_scan_directory` over the yielded entries. */
  function ScanEntries(entries: seq<Entry>): (fonts: seq<FontFile>)
    ensures |fonts| <= |entries|
    ensures forall i :: 0 <= i < |fonts| ==> Classified(fonts[i])
  {
    if |entries| == 0 then []
    else
      var rest := ScanEntries(entries[1..]);
      if IsFontEntry(entries[0]) then
        var f := FontOf(entries[0]);
        AllCons(f, rest, Classified);
        [f] + rest
      else rest
  }

  /** The fonts are exactly the font entries, each with its path and size,
      in listing order: a file whose stat fails, a non-file and a non-font
      suffix are skipped and nothing else is. */
  lemma {:induction false} ScanEntriesExact(entries: seq<Entry>)
    ensures ScanEntries(entries) == Map(Filter(entries, IsFontEntry), FontOf)
  {
    if |entries| > 0 {
      ScanEntriesExact(entries[1..]);
      var e := entries[0];
      var rest := ScanEntries(entries[1..]);
      var kept := Filter(entries[1..], IsFontEntry);
      if IsFontEntry(e) {
        assert ScanEntries(entries) == [FontOf(e)] + rest;
        assert Filter(entries, IsFontEntry) == [e] + kept;
        MapCons(e, kept, FontOf);
      } else {
        assert ScanEntries(entries) == rest;
        assert Filter(entries, IsFontEntry) == kept;
      }
    }
  }

  /** The sum of the fonts' sizes. */
  function TotalSize(fonts: seq<FontFile>): nat {
    if |fonts| == 0 then 0 else fonts[0].sizeBytes + TotalSize(fonts[1..])
  }

  /** The fonts of type `t`, in order. */
  function OfType(fonts: seq<FontFile>, t: string): (g: seq<FontFile>)
    ensures |g| <= |fonts|
    ensures forall i :: 0 <= i < |g| ==> g[i].fontType == t
  {
    if |fonts| == 0 then []
    else if fonts[0].fontType == t then [fonts[0]] + OfType(fonts[1..], t)
    else OfType(fonts[1..], t)
  }

  lemma {:induction false} OfTypeSnoc(fonts: seq<FontFile>, f: FontFile, t: string)
    ensures OfType(fonts + [f], t) == OfType(fonts, t) + (if f.fontType == t then [f] else [])
  {
    if |fonts| == 0 {
      assert fonts + [f] == [f];
    } else {
      assert (fonts + [f])[1..] == fonts[1..] + [f];
      OfTypeSnoc(fonts[1..], f, t);
    }
  }

  /** The types of `fonts`, each once, in the order they first occur. */
  function TypesSeen(fonts: seq<FontFile>): seq<string> {
    if |fonts| == 0 then []
    else
      var seen := TypesSeen(fonts[..|fonts| - 1]);
      var t := fonts[|fonts| - 1].fontType;
      if t in seen then seen else seen + [t]
  }

  /** `order` lists each type of `prefix` once, in first-seen order, and
      `groups` maps each of them to its fonts. */
  ghost predicate Grouped(prefix: seq<FontFile>, order: seq<string>, groups: map<string, seq<FontFile>>) {
    && order == TypesSeen(prefix)
    && (forall i, j :: 0 <= i < j < |order| ==> order[i] != order[j])
    && (forall t :: t in groups <==> t in order)
    && (forall t :: t in groups ==> groups[t] == OfType(prefix, t) && groups[t] != [])
    && (forall t :: t !in groups ==> OfType(prefix, t) == [])
  }

  /** No fonts, no groups. */
  lemma GroupedEmpty(prefix: seq<FontFile>)
    requires prefix == []
    ensures Grouped(prefix, [], map[])
  {
  }

  /** A font of a type already seen joins its type's group. */
  lemma GroupStepSeen(prefix: seq<FontFile>, f: FontFile, order: seq<string>, groups: map<string, seq<FontFile>>)
    requires Grouped(prefix, order, groups) && f.fontType in groups
    ensures Grouped(prefix + [f], order, groups[f.fontType := groups[f.fontType] + [f]])
  {
    var groups' := groups[f.fontType := groups[f.fontType] + [f]];
    assert (prefix + [f])[..|prefix|] == prefix;
    forall t ensures OfType(prefix + [f], t) == OfType(prefix, t) + (if f.fontType == t then [f] else []) {
      OfTypeSnoc(prefix, f, t);
    }
    assert groups'.Keys == groups.Keys;
  }

  /** A font of a new type opens a group for it, listed last. */
  lemma GroupStepNew(prefix: seq<FontFile>, f: FontFile, order: seq<string>, groups: map<string, seq<FontFile>>)
    requires Grouped(prefix, order, groups) && f.fontType !in groups
    ensures Grouped(prefix + [f], order + [f.fontType], groups[f.fontType := [f]])
  {
    var order' := order + [f.fontType];
    var groups' := groups[f.fontType := [f]];
    assert (prefix + [f])[..|prefix|] == prefix;
    forall t ensures OfType(prefix + [f], t) == OfType(prefix, t) + (if f.fontType == t then [f] else []) {
      OfTypeSnoc(prefix, f, t);
    }
    forall i, j | 0 <= i < j < |order'| ensures order'[i] != order'[j] {
      if j == |order| {
        assert order'[i] == order[i] && order[i] in groups;
      } else {
        assert order'[i] == order[i] && order'[j] == order[j];
      }
    }
    forall t ensures t in groups' <==> t in order' {
      assert t in order' <==> t in order || t == f.fontType;
    }
  }

  /** One pass of the `fonts_by_type` loop: open the font's group on
      first sight of its type, then append the font to it. */
  function AddFont(order: seq<string>, groups: map<string, seq<FontFile>>, f: FontFile): (r: (seq<string>, map<string, seq<FontFile>>))
    ensures f.fontType in r.1 && groups.Keys <= r.1.Keys
  {
    if f.fontType in groups then (order, groups[f.fontType := groups[f.fontType] + [f]])
    else (order + [f.fontType], groups[f.fontType := [f]])
  }

  /** Adding a font keeps the grouping in step with the fonts seen. */
  lemma AddFontGroups(prefix: seq<FontFile>, order: seq<string>, groups: map<string, seq<FontFile>>, f: FontFile)
    requires Grouped(prefix, order, groups)
    ensures var r := AddFont(order, groups, f); Grouped(prefix + [f], r.0, r.1)
  {
    if f.fontType in groups {
      GroupStepSeen(prefix, f, order, groups);
    } else {
      GroupStepNew(prefix, f, order, groups);
    }
  }

  /** Each font is in the fonts of its type. */
  lemma {:induction false} OfTypeHas(fonts: seq<FontFile>, i: nat)
    requires i < |fonts|
    ensures fonts[i] in OfType(fonts, fonts[i].fontType)
  {
    if i > 0 {
      OfTypeHas(fonts[1..], i - 1);
    }
  }

  /** A grouping has a group for the type of every font. */
  lemma GroupedCovers(fonts: seq<FontFile>, order: seq<string>, groups: map<string, seq<FontFile>>)
    requires Grouped(fonts, order, groups)
    ensures forall i :: 0 <= i < |fonts| ==> fonts[i].fontType in groups
  {
    forall i | 0 <= i < |fonts| ensures fonts[i].fontType in groups {
      OfTypeHas(fonts, i);
    }
  }

  /** `fonts_by_type` and its key order after the grouping loop has
      visited `fonts`. */
  function Grouping(fonts: seq<FontFile>): (seq<string>, map<string, seq<FontFile>>) {
    if |fonts| == 0 then ([], map[])
    else
      var prev := Grouping(fonts[..|fonts| - 1]);
      AddFont(prev.0, prev.1, fonts[|fonts| - 1])
  }

  /** The grouping of `fonts` lists each type once, in first-seen order,
      and holds each type's fonts. */
  lemma {:induction false} GroupingGrouped(fonts: seq<FontFile>)
    ensures Grouped(fonts, Grouping(fonts).0, Grouping(fonts).1)
  {
    if |fonts| == 0 {
      GroupedEmpty(fonts);
    } else {
      var init := fonts[..|fonts| - 1];
      var last := fonts[|fonts| - 1];
      var prev := Grouping(init);
      assert init + [last] == fonts;
      assert Grouping(fonts) == AddFont(prev.0, prev.1, last);
      GroupingGrouped(init);
      AddFontGroups(init, prev.0, prev.1, last);
    }
  }

  /** The `fonts_by_type` loop, font by font. */
  method GroupByType(fonts: seq<FontFile>) returns (order: seq<string>, groups: map<string, seq<FontFile>>)
    ensures (order, groups) == Grouping(fonts)
    ensures Grouped(fonts, order, groups)
    ensures forall i :: 0 <= i < |fonts| ==> fonts[i].fontType in groups
  {
    order := [];
    groups := map[];
    var n := 0;
    while n < |fonts|
      invariant n <= |fonts|
      invariant (order, groups) == Grouping(fonts[..n])
    {
      assert fonts[..n + 1][..n] == fonts[..n];
      var next := AddFont(order, groups, fonts[n]);
      order, groups := next.0, next.1;
      n := n + 1;
    }
    assert fonts[..n] == fonts;
    GroupingGrouped(fonts);
    GroupedCovers(fonts, order, groups);
  }

  /** The sum of the group sizes over the listed types. */
  function GroupSizes(order: seq<string>, fonts: seq<FontFile>): nat {
    if |order| == 0 then 0 else |OfType(fonts, order[0])| + GroupSizes(order[1..], fonts)
  }

  /** The number of times `t` is listed. */
  function Hits(order: seq<string>, t: string): nat {
    if |order| == 0 then 0 else (if order[0] == t then 1 else 0) + Hits(order[1..], t)
  }

  lemma {:induction false} HitsDistinct(order: seq<string>, t: string)
    requires forall i, j :: 0 <= i < j < |order| ==> order[i] != order[j]
    requires t in order
    ensures Hits(order, t) == 1
  {
    if order[0] == t {
      HitsAbsent(order[1..], t);
    } else {
      HitsDistinct(order[1..], t);
    }
  }

  lemma {:induction false} HitsAbsent(order: seq<string>, t: string)
    requires t !in order
    ensures Hits(order, t) == 0
  {
    if |order| > 0 {
      HitsAbsent(order[1..], t);
    }
  }

  lemma {:induction false} GroupSizesCons(order: seq<string>, f: FontFile, rest: seq<FontFile>)
    ensures GroupSizes(order, [f] + rest) == Hits(order, f.fontType) + GroupSizes(order, rest)
  {
    if |order| > 0 {
      assert ([f] + rest)[1..] == rest;
      GroupSizesCons(order[1..], f, rest);
    }
  }

  /** The groups partition the fonts: when every font's type is listed
      once, the group sizes add up to the number of fonts. */
  lemma {:induction false} GroupsPartition(order: seq<string>, fonts: seq<FontFile>)
    requires forall i, j :: 0 <= i < j < |order| ==> order[i] != order[j]
    requires forall i :: 0 <= i < |fonts| ==> fonts[i].fontType in order
    ensures GroupSizes(order, fonts) == |fonts|
  {
    if |fonts| == 0 {
      EmptyGroups(order);
    } else {
      assert fonts == [fonts[0]] + fonts[1..];
      GroupSizesCons(order, fonts[0], fonts[1..]);
      HitsDistinct(order, fonts[0].fontType);
      GroupsPartition(order, fonts[1..]);
    }
  }

  lemma {:induction false} EmptyGroups(order: seq<string>)
    ensures GroupSizes(order, []) == 0
  {
    if |order| > 0 {
      EmptyGroups(order[1..]);
    }
  }

  /** The fonts directory as `scanned_directories` reports it. */
  function FontsDir(home: string): string {
    home + "/Library/Fonts"
  }

  /** `FontScanner.scan`: never raises; a missing directory gives no fonts
      and is reported "(not found)". The fonts are grouped by type in the
      order the types first appear, and the groups partition the fonts. */
  function Scan(env: Environment): (r: FontScan)
    ensures !env.fontsDirExists ==> r.fontFiles == [] && r.scannedDirectories == [FontsDir(env.home) + " (not found)"]
    ensures env.fontsDirExists ==> r.fontFiles == ScanEntries(env.listing.yielded) && r.scannedDirectories == [FontsDir(env.home)]
    ensures r.totalSizeBytes == TotalSize(r.fontFiles)
    ensures Grouped(r.fontFiles, r.typeOrder, r.byType)
    ensures forall i :: 0 <= i < |r.fontFiles| ==> r.fontFiles[i].fontType in r.byType
    ensures GroupSizes(r.typeOrder, r.fontFiles) == |r.fontFiles|
  {
    var fonts := if env.fontsDirExists then ScanEntries(env.listing.yielded) else [];
    var grouping := Grouping(fonts);
    GroupingGrouped(fonts);
    GroupedCovers(fonts, grouping.0, grouping.1);
    GroupsPartition(grouping.0, fonts);
    var dir := FontsDir(env.home);
    FontScan(fonts, TotalSize(fonts), grouping.0, grouping.1,
             [if env.fontsDirExists then dir else dir + " (not found)"])
  }

  /** The dict of one font file. */
  function FontJson(f: FontFile): Json {
    Dict(map["name" := Str(f.name), "path" := Str(f.path), "extension" := Str(f.extension),
             "type" := Str(f.fontType), "size_bytes" := Int(f.sizeBytes)],
         ["name", "path", "extension", "type", "size_bytes"])
  }

  function FontItems(fonts: seq<FontFile>): (items: seq<Json>)
    ensures |items| == |fonts|
    ensures forall i :: 0 <= i < |fonts| ==>
      Subscript(items[i], "name") == Ok(Str(fonts[i].name)) && Subscript(items[i], "path") == Ok(Str(fonts[i].path))
  {
    seq(|fonts|, i requires 0 <= i < |fonts| => FontJson(fonts[i]))
  }

  /** A font dict whose `name` is the file name of its `path`. */
  predicate NamedAfterPath(item: Json) {
    && HasKey(item, "name") && HasKey(item, "path") && item.fields["path"].Str?
    && item.fields["name"] == Str(BaseName(item.fields["path"].s))
  }

  /** Every font dict a scan lists is named after its path, so the name a
      manifest records is the file name the backup stores the font under. */
  lemma ScannedFontsNamed(env: Environment)
    ensures var items := FontItems(Scan(env).fontFiles);
      forall i :: 0 <= i < |items| ==> NamedAfterPath(items[i])
  {
    var fonts := Scan(env).fontFiles;
    var items := FontItems(fonts);
    forall i | 0 <= i < |items| ensures NamedAfterPath(items[i]) {
      assert items[i] == FontJson(fonts[i]);
      assert Classified(fonts[i]);
    }
  }

  /** The dict `scan` returns. */
  function ToJson(s: FontScan): (d: Json)
    ensures Subscript(d, "font_files") == Ok(List(FontItems(s.fontFiles)))
    ensures Subscript(d, "total_count") == Ok(Int(|s.fontFiles|))
    ensures Subscript(d, "total_size_bytes") == Ok(Int(s.totalSizeBytes))
    ensures Subscript(d, "scanned_directories") == Ok(StrList(s.scannedDirectories))
    ensures HasKey(d, "fonts_by_type") && d.fields["fonts_by_type"].Dict?
    ensures var g := d.fields["fonts_by_type"];
      && g.order == s.typeOrder
      && (forall t :: HasKey(g, t) <==> t in s.byType)
      && (forall t :: t in s.byType ==> g.fields[t] == List(FontItems(s.byType[t])))
    ensures !HasKey(d, "error")
  {
    var byType := map t | t in s.byType :: List(FontItems(s.byType[t]));
    Dict(map["font_files" := List(FontItems(s.fontFiles)),
             "total_count" := Int(|s.fontFiles|),
             "total_size_bytes" := Int(s.totalSizeBytes),
             "fonts_by_type" := Dict(byType, s.typeOrder),
             "scanned_directories" := StrList(s.scannedDirectories)],
         ["font_files", "total_count", "total_size_bytes", "fonts_by_type", "scanned_directories"])
  }

  /** The `fonts_by_type` dict of a scan partitions its `font_files`: each
      type of font the scan found is a key, listed once in first-seen
      order, and holds exactly that type's font dicts in scan order. */
  lemma ScanGroupsPartition(env: Environment)
    ensures var r := Scan(env);
      var d := ToJson(r);
      var g := d.fields["fonts_by_type"];
      && OrderMatches(g.fields, g.order)
      && g.order == TypesSeen(r.fontFiles)
      && (forall i :: 0 <= i < |r.fontFiles| ==> HasKey(g, r.fontFiles[i].fontType))
      && (forall t :: HasKey(g, t) ==> g.fields[t] == List(FontItems(OfType(r.fontFiles, t))) && OfType(r.fontFiles, t) != [])
  {
  }
}

=== FILE: homebrew_scanner.dfy ===
/**
 The Homebrew scanner (macbac/scanners/homebrew_scanner.py): the Brewfile
 `brew bundle dump` prints, and line statistics over it.
 */
module HomebrewScanner {
  import opened Wrappers
  import opened Text
  import opened Py
  import opened Seqs
  import opened Probe

  /** What the scanner can observe. */
  datatype Environment = Environment(
    brewInstalled: bool,     // `which brew` succeeded
    dump: Completed)         // `brew bundle dump --file=-`

  datatype Statistics = Statistics(taps: nat, formulae: nat, casks: nat, masApps: nat, totalLines: nat)

  datatype BrewScan = BrewScan(brewfileContent: string, statistics: Statistics)

  const NotFoundMessage := "Homebrew not found - brew command not available"
  const DumpRepr := "['brew', 'bundle', 'dump', '--file=-']"

  predicate IsTap(line: string) { "tap " <= line }
  predicate IsFormula(line: string) { "brew " <= line }
  predicate IsCask(line: string) { "cask " <= line }
  predicate IsMasApp(line: string) { "mas " <= line }

  /** The statistics of a Brewfile: lines per declaration kind, and the
      non-blank lines. */
  function LineStatistics(content: string): (st: Statistics)
    ensures var lines := Split(content, '\n');
      && st.taps == |Filter(lines, IsTap)|
      && st.formulae == |Filter(lines, IsFormula)|
      && st.casks == |Filter(lines, IsCask)|
      && st.masApps == |Filter(lines, IsMasApp)|
      && st.totalLines == |Filter(lines, HasContent)|
    ensures st.taps + st.formulae + st.casks + st.masApps <= st.totalLines
  {
    var lines := Split(content, '\n');
    CategoriesWithinTotal(lines);
    Statistics(|Filter(lines, IsTap)|, |Filter(lines, IsFormula)|, |Filter(lines, IsCask)|,
               |Filter(lines, IsMasApp)|, |Filter(lines, HasContent)|)
  }

  /** The four declaration kinds are disjoint and only match non-blank
      lines, so together they never exceed the non-blank line count. */
  lemma {:induction false} CategoriesWithinTotal(lines: seq<string>)
    ensures |Filter(lines, IsTap)| + |Filter(lines, IsFormula)| + |Filter(lines, IsCask)|
            + |Filter(lines, IsMasApp)| <= |Filter(lines, HasContent)|
  {
    if |lines| > 0 {
      CategoriesWithinTotal(lines[1..]);
      var l := lines[0];
      if IsTap(l) || IsFormula(l) || IsCask(l) || IsMasApp(l) {
        assert l[0] in "tbcm";
        assert !IsSpace(l[0]);
        assert HasContent(l);
      }
    }
  }

  /** `HomebrewScanner.scan`: no fallback without brew, a failed dump is an
      error, otherwise the stripped dump and its statistics. */
  function Scan(env: Environment): (r: Result<BrewScan>)
    ensures !env.brewInstalled ==> r == Raise(RuntimeError(NotFoundMessage))
    ensures env.brewInstalled && env.dump.returncode != 0 ==>
      r == Raise(RuntimeError("Failed to generate Brewfile: " + CalledProcessErrorText(DumpRepr, env.dump.returncode)))
    ensures r.Ok? <==> env.brewInstalled && env.dump.returncode == 0
    ensures r.Ok? ==> r.value.brewfileContent == Strip(env.dump.stdout)
    ensures r.Ok? ==> r.value.statistics == LineStatistics(Strip(env.dump.stdout))
  {
    if !env.brewInstalled then Raise(RuntimeError(NotFoundMessage))
    else if env.dump.returncode != 0 then
      Raise(RuntimeError("Failed to generate Brewfile: " + CalledProcessErrorText(DumpRepr, env.dump.returncode)))
    else
      var content := Strip(env.dump.stdout);
      Ok(BrewScan(content, LineStatistics(content)))
  }

  /** Reads back the five counts of a `statistics` dict. */
  function StatisticsOf(d: Json): Option<Statistics> {
    if && HasKey(d, "taps") && d.fields["taps"].Int? && d.fields["taps"].i >= 0
       && HasKey(d, "formulae") && d.fields["formulae"].Int? && d.fields["formulae"].i >= 0
       && HasKey(d, "casks") && d.fields["casks"].Int? && d.fields["casks"].i >= 0
       && HasKey(d, "mas_apps") && d.fields["mas_apps"].Int? && d.fields["mas_apps"].i >= 0
       && HasKey(d, "total_lines") && d.fields["total_lines"].Int? && d.fields["total_lines"].i >= 0
    then Some(Statistics(d.fields["taps"].i, d.fields["formulae"].i, d.fields["casks"].i,
                         d.fields["mas_apps"].i, d.fields["total_lines"].i))
    else None
  }

  /** The dict `scan` returns. */
  function ToJson(s: BrewScan): (d: Json)
    ensures Subscript(d, "brewfile_content") == Ok(Str(s.brewfileContent))
    ensures HasKey(d, "statistics") && StatisticsOf(d.fields["statistics"]) == Some(s.statistics)
    ensures !HasKey(d, "error")
  {
    var st := s.statistics;
    Dict(map["brewfile_content" := Str(s.brewfileContent),
             "statistics" := Dict(map["taps" := Int(st.taps), "formulae" := Int(st.formulae),
                                      "casks" := Int(st.casks), "mas_apps" := Int(st.masApps),
                                      "total_lines" := Int(st.totalLines)],
                                  ["taps", "formulae", "casks", "mas_apps", "total_lines"])],
         ["brewfile_content", "statistics"])
  }

  /** A scan's dict describes its own Brewfile: the statistics it stores
      are the line counts of the Brewfile text it stores. */
  lemma StatisticsDescribeBrewfile(env: Environment)
    requires Scan(env).Ok?
    ensures var d := ToJson(Scan(env).value);
      && HasKey(d, "brewfile_content") && d.fields["brewfile_content"].Str?
      && StatisticsOf(d.fields["statistics"]) == Some(LineStatistics(d.fields["brewfile_content"].s))
  {
  }
}

=== FILE: inventory.dfy ===
/**
 The storage manager's inventory half (macbac/storage.py,
 `generate_inventory` and the five `_write_*_section` renderers):
 inventory.md, the human-readable Markdown summary of a backup.

 The file is written piece by piece while the data is read, so an
 exception raised by a badly shaped section leaves the text written
 before it in the file.
 */
module Inventory {
  import opened Wrappers
  import opened Py
  import opened Files
  import opened Storage

  /** The text written to the file, and the exception that stopped the
      writing, if one did. */
  datatype Written = Written(text: string, raised: Option<PyError>)

  /** The text of `a` followed, when `a` finished, by that of `b`. */
  function Then(a: Written, b: Written): (w: Written)
    ensures |a.text| <= |w.text| && w.text[..|a.text|] == a.text
    ensures w.raised.None? <==> a.raised.None? && b.raised.None?
    ensures a.raised.Some? ==> w == a
    ensures a.raised.None? ==> w == Written(a.text + b.text, b.raised)
  {
    if a.raised.Some? then a else Written(a.text + b.text, b.raised)
  }

  function Emit(s: string): Written {
    Written(s, None)
  }

  const AppStoreHeading := "## 🍎 App Store & Sandboxed Applications\n\n"
  const HomebrewHeading := "## 🍺 Homebrew Ecosystem (Brewfile)\n\n"
  const DevEnvHeading := "## 🛠️ Development Environment & Toolchain (Installed)\n\n"
  const FontsHeading := "## ✍️ Custom Fonts\n\n"
  const ManualHeading := "## 📦 Manually Installed Applications\n\n"
  const Rule := "\n---\n\n"
  const NoDevTools := "No development tools detected.\n"

  /** The line an error entry is rendered as. */
  function ErrorLine(err: Json): string {
    "❌ Error: " + Show(err) + "\n\n"
  }

  /** The rows of a list, each rendered by `row`, up to the first item
      `row` refuses. */
  function Rows(items: seq<Json>, row: Json -> Result<string>): (w: Written)
    ensures (forall i :: 0 <= i < |items| ==> row(items[i]).Ok?) <==> w.raised.None?
  {
    if |items| == 0 then Emit("")
    else
      match row(items[0])
      case Raise(e) => Written("", Some(e))
      case Ok(line) =>
        var rest := Rows(items[1..], row);
        assert forall i :: 1 <= i < |items| ==> items[i] == items[1..][i - 1];
        Written(line + rest.text, rest.raised)
  }

  /** The lines of rows that all render. */
  function AllRows(items: seq<Json>, row: Json -> Result<string>): string
    requires forall i :: 0 <= i < |items| ==> row(items[i]).Ok?
  {
    if |items| == 0 then "" else row(items[0]).value + AllRows(items[1..], row)
  }

  /** When every item renders, the rows are the items' lines in order. */
  lemma {:induction false} RowsAll(items: seq<Json>, row: Json -> Result<string>)
    requires forall i :: 0 <= i < |items| ==> row(items[i]).Ok?
    ensures Rows(items, row) == Emit(AllRows(items, row))
  {
    if |items| > 0 {
      RowsAll(items[1..], row);
    }
  }

  /** The skeleton every section but the Homebrew one shares: the heading,
      then the error line if the section holds an "error" entry, otherwise
      `intro` and one row per entry of the `key` list, or `none` when the
      list is empty, then `closing`. */
  function ListSection(heading: string, v: Json, key: string, intro: string, row: Json -> Result<string>,
                       none: string, closing: string): (w: Written)
    ensures HasKey(v, "error") ==> w == Emit(heading + ErrorLine(v.fields["error"]))
    ensures v.Dict? && !HasKey(v, "error") && (!HasKey(v, key) || !Truthy(v.fields[key])) ==> w == Emit(heading + none + closing)
    ensures |w.text| >= |heading| && w.text[..|heading|] == heading
    ensures v.Dict? && !HasKey(v, "error") && HasKey(v, key) && v.fields[key].List? && v.fields[key].items != []
            && (forall i :: 0 <= i < |v.fields[key].items| ==> row(v.fields[key].items[i]).Ok?) ==>
      w == Emit(heading + intro + AllRows(v.fields[key].items, row) + closing)
  {
    match In("error", v)
    case Raise(e) => Written(heading, Some(e))
    case Ok(hasError) =>
      if hasError then
        match Subscript(v, "error")
        case Raise(e) => Written(heading, Some(e))
        case Ok(err) => Emit(heading + ErrorLine(err))
      else
        match Get(v, key, List([]))
        case Raise(e) => Written(heading, Some(e))
        case Ok(entries) =>
          if !Truthy(entries) then Emit(heading + none + closing)
          else
            match Iterate(entries)
            case Raise(e) => Written(heading + intro, Some(e))
            case Ok(items) =>
              var body := Rows(items, row);
              if body.raised.Some? then Written(heading + intro + body.text, body.raised)
              else
                RowsAll(items, row);
                Emit(heading + intro + body.text + closing)
  }

  /** `| {app['id']} | {app['name']} |`. */
  function AppRow(app: Json): Result<string> {
    var id :- Subscript(app, "id");
    var name :- Subscript(app, "name");
    Ok("| " + Show(id) + " | " + Show(name) + " |\n")
  }

  /** A development tool, with its version information when it has any. */
  function ToolRow(tool: Json): Result<string> {
    var versionInfo :- Get(tool, "version_info", Str(""));
    var name :- Subscript(tool, "name");
    var description :- Subscript(tool, "description");
    Ok(ToolLine(Show(name), Show(description), if Truthy(versionInfo) then " (" + Show(versionInfo) + ")" else ""))
  }

  /** `- **{name}** - {description}{version}`. */
  function ToolLine(name: string, description: string, version: string): string {
    "- **" + name + "** - " + description + version + "\n"
  }

  /** ``- `{font['name']}` ``. */
  function FontRow(font: Json): Result<string> {
    var name :- Subscript(font, "name");
    Ok("- `" + Show(name) + "`\n")
  }

  /** `| {app['name']} | {app['path']} |`. */
  function ManualRow(app: Json): Result<string> {
    var name :- Subscript(app, "name");
    var path :- Subscript(app, "path");
    Ok("| " + Show(name) + " | " + Show(path) + " |\n")
  }

  const AppStoreIntro := "| ID | Name |\n|----|------|\n"
  const AppStoreNone := "No App Store applications found.\n"
  const HomebrewNone := "No Homebrew packages found.\n"
  const Fence := "```brewfile\n"
  const FontsNone := "No custom fonts found.\n"
  const ManualIntro := "| Application Name | Path |\n|------------------|------|\n"
  const ManualNone := "No manually installed applications found.\n"

  /** `_write_appstore_section`: an error entry is shown alone; no apps
      give the "none found" line; otherwise a table with one row per app,
      in order. */
  function AppStoreSection(v: Json): (w: Written)
    ensures HasKey(v, "error") ==> w == Emit(AppStoreHeading + ErrorLine(v.fields["error"]))
    ensures v.Dict? && !HasKey(v, "error") && (!HasKey(v, "apps") || !Truthy(v.fields["apps"])) ==> w == Emit(AppStoreHeading + AppStoreNone + Rule)
    ensures v.Dict? && !HasKey(v, "error") && HasKey(v, "apps") && v.fields["apps"].List? && v.fields["apps"].items != []
            && (forall i :: 0 <= i < |v.fields["apps"].items| ==> AppRow(v.fields["apps"].items[i]).Ok?) ==>
      w == Emit(AppStoreHeading + AppStoreIntro + AllRows(v.fields["apps"].items, AppRow) + Rule)
  {
    ListSection(AppStoreHeading, v, "apps", AppStoreIntro, AppRow, AppStoreNone, Rule)
  }

  /** `_write_homebrew_section`: the Brewfile in a fenced block. Writing a
      non-string Brewfile is a TypeError after the opening fence. */
  function HomebrewSection(v: Json): (w: Written)
    ensures HasKey(v, "error") ==> w == Emit(HomebrewHeading + ErrorLine(v.fields["error"]))
    ensures v.Dict? && !HasKey(v, "error") && HasKey(v, "brewfile_content") && v.fields["brewfile_content"].Str?
            && v.fields["brewfile_content"].s != [] ==>
      w == Emit(HomebrewHeading + Fence + v.fields["brewfile_content"].s + "\n```\n" + Rule)
    ensures v.Dict? && !HasKey(v, "error") && (!HasKey(v, "brewfile_content") || !Truthy(v.fields["brewfile_content"])) ==>
      w == Emit(HomebrewHeading + HomebrewNone + Rule)
    ensures v.Dict? && !HasKey(v, "error") && HasKey(v, "brewfile_content") && Truthy(v.fields["brewfile_content"])
            && !v.fields["brewfile_content"].Str? ==>
      w == Written(HomebrewHeading + Fence, Some(TypeError))
  {
    match In("error", v)
    case Raise(e) => Written(HomebrewHeading, Some(e))
    case Ok(hasError) =>
      if hasError then
        match Subscript(v, "error")
        case Raise(e) => Written(HomebrewHeading, Some(e))
        case Ok(err) => Emit(HomebrewHeading + ErrorLine(err))
      else
        match Get(v, "brewfile_content", Str(""))
        case Raise(e) => Written(HomebrewHeading, Some(e))
        case Ok(content) =>
          if !Truthy(content) then Emit(HomebrewHeading + HomebrewNone + Rule)
          else if !content.Str? then Written(HomebrewHeading + Fence, Some(TypeError))
          else Emit(HomebrewHeading + Fence + content.s + "\n```\n" + Rule)
  }

  /** `_write_dev_env_section`: one line per installed tool. */
  function DevEnvSection(v: Json): (w: Written)
    ensures HasKey(v, "error") ==> w == Emit(DevEnvHeading + ErrorLine(v.fields["error"]))
    ensures v.Dict? && !HasKey(v, "error") && (!HasKey(v, "installed_tools") || !Truthy(v.fields["installed_tools"])) ==> w == Emit(DevEnvHeading + NoDevTools + Rule)
    ensures v.Dict? && !HasKey(v, "error") && HasKey(v, "installed_tools") && v.fields["installed_tools"].List?
            && v.fields["installed_tools"].items != []
            && (forall i :: 0 <= i < |v.fields["installed_tools"].items| ==> ToolRow(v.fields["installed_tools"].items[i]).Ok?) ==>
      w == Emit(DevEnvHeading + AllRows(v.fields["installed_tools"].items, ToolRow) + Rule)
  {
    assert DevEnvHeading + "" == DevEnvHeading;
    ListSection(DevEnvHeading, v, "installed_tools", "", ToolRow, NoDevTools, Rule)
  }

  /** `_write_fonts_section`: one line per font file, in order. */
  function FontsSection(v: Json): (w: Written)
    ensures HasKey(v, "error") ==> w == Emit(FontsHeading + ErrorLine(v.fields["error"]))
    ensures v.Dict? && !HasKey(v, "error") && (!HasKey(v, "font_files") || !Truthy(v.fields["font_files"])) ==> w == Emit(FontsHeading + FontsNone + Rule)
    ensures v.Dict? && !HasKey(v, "error") && HasKey(v, "font_files") && v.fields["font_files"].List?
            && v.fields["font_files"].items != []
            && (forall i :: 0 <= i < |v.fields["font_files"].items| ==> FontRow(v.fields["font_files"].items[i]).Ok?) ==>
      w == Emit(FontsHeading + AllRows(v.fields["font_files"].items, FontRow) + Rule)
  {
    assert FontsHeading + "" == FontsHeading;
    ListSection(FontsHeading, v, "font_files", "", FontRow, FontsNone, Rule)
  }

  /** `_write_manual_apps_section`; the last section closes with a blank
      line instead of a rule. */
  function ManualSection(v: Json): (w: Written)
    ensures HasKey(v, "error") ==> w == Emit(ManualHeading + ErrorLine(v.fields["error"]))
    ensures v.Dict? && !HasKey(v, "error") && (!HasKey(v, "apps") || !Truthy(v.fields["apps"])) ==> w == Emit(ManualHeading + ManualNone + "\n")
    ensures v.Dict? && !HasKey(v, "error") && HasKey(v, "apps") && v.fields["apps"].List? && v.fields["apps"].items != []
            && (forall i :: 0 <= i < |v.fields["apps"].items| ==> ManualRow(v.fields["apps"].items[i]).Ok?) ==>
      w == Emit(ManualHeading + ManualIntro + AllRows(v.fields["apps"].items, ManualRow) + "\n")
  {
    ListSection(ManualHeading, v, "apps", ManualIntro, ManualRow, ManualNone, "\n")
  }

  /** The section of `data` under `key`, `{}` when absent. */
  function SectionValue(data: Json, key: string): Result<Json> {
    Get(data, key, Dict(map[], []))
  }

  /** One section, read from the data and rendered: a missing section is
      rendered from an empty dict, and data that is not a dict raises
      before anything of the section is written. */
  function Render(data: Json, key: string, section: Json -> Written): (w: Written)
    ensures !data.Dict? ==> w == Written("", Some(AttributeError))
    ensures data.Dict? && !HasKey(data, key) ==> w == section(Dict(map[], []))
    ensures HasKey(data, key) ==> w == section(data.fields[key])
  {
    match SectionValue(data, key)
    case Raise(e) => Written("", Some(e))
    case Ok(v) => section(v)
  }

  const Title := "# macbac Backup Inventory\n\n"
  const DateLabel := "- **Backup Date:** "
  const VersionLabel := "- **macOS Version:** "

  /** The header: title, backup date and macOS version, then a rule. */
  function Header(now: string, macos: string): string {
    Title + DateLabel + now + "\n" + VersionLabel + macos + "\n\n" + "---\n\n"
  }

  /** The header starts with the title and carries the date and the
      version right after their labels. */
  lemma HeaderFields(now: string, macos: string)
    ensures var h := Header(now, macos);
      var d := |Title| + |DateLabel|;
      var m := d + |now| + 1 + |VersionLabel|;
      |h| == m + |macos| + 7 && h[..|Title|] == Title && h[|Title|..d] == DateLabel && h[d..d + |now|] == now
      && h[d + |now|] == '\n' && h[d + |now| + 1..m] == VersionLabel && h[m..m + |macos|] == macos
  {
  }

  /** The five sections of the inventory, in the order they are written. */
  function Sections(data: Json): (ws: seq<Written>)
    ensures |ws| == 5
  {
    [Render(data, "appstore", AppStoreSection), Render(data, "homebrew", HomebrewSection),
     Render(data, "dev_env", DevEnvSection), Render(data, "fonts", FontsSection),
     Render(data, "manual_apps", ManualSection)]
  }

  /** The pieces `ws` written one after the other, up to the first that
      raises. */
  function Chain(ws: seq<Written>): Written {
    if |ws| == 0 then Emit("") else Then(ws[0], Chain(ws[1..]))
  }

  /** The index of the first piece that raises, `|ws|` when none does. */
  function FirstRaised(ws: seq<Written>): (k: nat)
    ensures k <= |ws|
    ensures forall i :: 0 <= i < k ==> ws[i].raised.None?
    ensures k < |ws| ==> ws[k].raised.Some?
  {
    if |ws| == 0 then 0
    else if ws[0].raised.Some? then 0
    else 1 + FirstRaised(ws[1..])
  }

  /** The texts of `ws`, concatenated. */
  function Texts(ws: seq<Written>): string {
    if |ws| == 0 then "" else ws[0].text + Texts(ws[1..])
  }

  /** Writing pieces one after the other gives all their texts when none
      raises; otherwise the texts up to and including the partial text of
      the first piece that raises, and that piece's exception. */
  lemma {:induction false} ChainUpTo(ws: seq<Written>)
    ensures var k := FirstRaised(ws);
      Chain(ws) == if k == |ws| then Emit(Texts(ws)) else Written(Texts(ws[..k + 1]), ws[k].raised)
  {
    if |ws| > 0 {
      var rest := ws[1..];
      ChainUpTo(rest);
      if ws[0].raised.Some? {
        assert ws[..1][1..] == [];
      } else {
        var k := FirstRaised(ws);
        if k < |ws| {
          assert ws[..k + 1][1..] == rest[..k];
        }
      }
    }
  }

  /** The text `generate_inventory` writes: the header, then the five
      sections in a fixed order. */
  function InventoryText(data: Json, now: string, macos: string): (w: Written)
    ensures |w.text| >= |Header(now, macos)| && w.text[..|Header(now, macos)|] == Header(now, macos)
  {
    Then(Emit(Header(now, macos)), Chain(Sections(data)))
  }

  /** The inventory is the header followed by the sections in the order
      appstore, homebrew, dev_env, fonts, manual_apps; a section that
      raises ends the text with what it wrote before raising. */
  lemma InventorySections(data: Json, now: string, macos: string)
    ensures var ss := Sections(data);
      var k := FirstRaised(ss);
      InventoryText(data, now, macos) ==
        if k == |ss| then Emit(Header(now, macos) + Texts(ss))
        else Written(Header(now, macos) + Texts(ss[..k + 1]), ss[k].raised)
  {
    ChainUpTo(Sections(data));
  }

  /** When no section raises, the inventory is the header and the five
      sections' texts, in that order. */
  lemma InventoryInOrder(data: Json, now: string, macos: string)
    requires forall i :: 0 <= i < 5 ==> Sections(data)[i].raised.None?
    ensures InventoryText(data, now, macos) == Emit(Header(now, macos)
      + Render(data, "appstore", AppStoreSection).text + Render(data, "homebrew", HomebrewSection).text
      + Render(data, "dev_env", DevEnvSection).text + Render(data, "fonts", FontsSection).text
      + Render(data, "manual_apps", ManualSection).text)
  {
    var ss := Sections(data);
    InventorySections(data, now, macos);
    assert FirstRaised(ss) == 5;
    FiveTexts(Header(now, macos), ss);
  }

  /** The texts of five pieces after a prefix, spelled out. */
  lemma FiveTexts(prefix: string, ss: seq<Written>)
    requires |ss| == 5
    ensures prefix + Texts(ss) == prefix + ss[0].text + ss[1].text + ss[2].text + ss[3].text + ss[4].text
  {
    var a, b, c, d, e := ss[0].text, ss[1].text, ss[2].text, ss[3].text, ss[4].text;
    assert Texts(ss[4..]) == e by { assert ss[4..][1..] == []; }
    assert Texts(ss[3..]) == d + e by { assert ss[3..][1..] == ss[4..]; }
    assert Texts(ss[2..]) == c + (d + e) by { assert ss[2..][1..] == ss[3..]; }
    assert Texts(ss[1..]) == b + (c + (d + e)) by { assert ss[1..][1..] == ss[2..]; }
    assert Texts(ss) == a + (b + (c + (d + e)));
  }

  /** The inventory's path. */
  function InventoryPath(backupDir: string): string {
    Join(backupDir, "inventory.md")
  }

  /** `generate_inventory`: the macOS version, then inventory.md written
      with whatever text was rendered before any exception. */
  function GenerateInventory(backupDir: Option<string>, data: Json, fs: FileSystem, sw: SwVers, now: string): (r: Effect)
    ensures backupDir.None? ==> r == Effect(fs, Some(ValueError(NotSetMessage)))
    ensures backupDir.Some? && MacosVersion(sw).Ok? && InventoryPath(backupDir.value) !in fs.dirs ==>
      var w := InventoryText(data, now, MacosVersion(sw).value);
      r == Effect(FileSystem(fs.files[InventoryPath(backupDir.value) := PlainText(w.text)], fs.dirs), w.raised)
    ensures r.raised.None? ==> backupDir.Some? && MacosVersion(sw).Ok?
    ensures r.raised.None? ==> r.fs == FileSystem(
      fs.files[InventoryPath(backupDir.value) := PlainText(InventoryText(data, now, MacosVersion(sw).value).text)], fs.dirs)
  {
    if backupDir.None? then Effect(fs, Some(ValueError(NotSetMessage)))
    else match MacosVersion(sw)
      case Raise(e) => Effect(fs, Some(e))
      case Ok(macos) =>
        var path := InventoryPath(backupDir.value);
        if path in fs.dirs then Effect(fs, Some(IsADirectoryError(path)))
        else
          var w := InventoryText(data, now, macos);
          Effect(FileSystem(fs.files[path := PlainText(w.text)], fs.dirs), w.raised)
  }

  /** A scanner's error entry is rendered as the heading and the error
      message alone. */
  lemma ErrorSection(message: string)
    ensures AppStoreSection(Dict(map["error" := Str(message)], ["error"]))
         == Emit(AppStoreHeading + "❌ Error: " + message + "\n\n")
    ensures DevEnvSection(Dict(map["error" := Str(message)], ["error"]))
         == Emit(DevEnvHeading + "❌ Error: " + message + "\n\n")
  {
  }
}

=== FILE: manual_app_scanner.dfy ===
/**
 The manual-application scanner (macbac/scanners/manual_app_scanner.py):
 the `*.app` bundles of /Applications and ~/Applications, with the App
 Store apps and the Homebrew casks filtered out.
 */
module ManualAppScanner {
  import opened Wrappers
  import opened Text
  import opened Py
  import opened Seqs

  /** Contents/Info.plist of a bundle: absent; present but unreadable (an
      OSError, or a file `plistlib` rejects with InvalidFileException);
      an XML property list the expat parser rejects, whose ExpatError
      neither caller catches; or loaded to its root value. */
  datatype Plist = NoPlist | Unreadable | Malformed | Readable(root: Json)

  /** A path `directory.glob("*.app")` yields. `resolved` is what
      `resolve()` returns, `None` when it raises OSError. */
  datatype Bundle = Bundle(
    path: string,
    isDir: bool,
    isSymlink: bool,
    resolved: Option<string>,
    plist: Plist,
    hasReceipt: bool)        // Contents/_MASReceipt/receipt exists

  /** An Applications directory: missing, or the bundles its glob yielded
      before it finished or raised PermissionError. */
  datatype Listing = Missing | Listed(bundles: seq<Bundle>, deniedAfter: bool)

  /** What the scanner can observe. */
  datatype Environment = Environment(home: string, system: Listing, user: Listing)

  /** The dict `_get_app_info` builds. The plist values are whatever the
      property list holds, not necessarily strings. */
  datatype AppInfo = AppInfo(name: Json, path: string, bundleId: Json, version: Json, displayName: Json)

  /** A bundle together with the info read from it. */
  datatype Found = Found(bundle: Bundle, info: AppInfo)

  datatype ManualScan = ManualScan(apps: seq<AppInfo>, allAppsCount: nat, scannedDirectories: seq<string>)

  const SystemDir := "/Applications"
  const SandboxKey := "com.apple.security.app-sandbox"

  function UserDir(home: string): string {
    home + "/Applications"
  }

  /** `app_path.stem`. */
  function BundleStem(b: Bundle): string {
    Stem(BaseName(b.path))
  }

  /** The info of a bundle whose plist could not be read. */
  function FallbackInfo(b: Bundle): (info: AppInfo)
    ensures info.name == info.displayName == Str(BundleStem(b))
    ensures info.bundleId == info.version == Str("unknown")
  {
    AppInfo(Str(BundleStem(b)), b.path, Str("unknown"), Str("unknown"), Str(BundleStem(b)))
  }

  /** The value of `key` in a dict, or `default`. */
  function Lookup(d: Json, key: string, default: Json): (v: Json)
    requires d.Dict?
    ensures Get(d, key, default) == Ok(v)
  {
    if key in d.fields then d.fields[key] else default
  }

  /** `_get_app_info`: no entry without a plist, the fallback entry when it
      cannot be read, and the plist's values with their defaults otherwise.
      A plist whose root is not a dict has no `get`: the AttributeError is
      not caught, and neither is the ExpatError of a malformed XML plist. */
  function AppInfoOf(b: Bundle): (r: Result<Option<AppInfo>>)
    ensures r.Raise? <==> b.plist.Malformed? || (b.plist.Readable? && !b.plist.root.Dict?)
    ensures r.Raise? ==> r.error == (if b.plist.Malformed? then ExpatError else AttributeError)
    ensures r == Ok(None) <==> b.plist.NoPlist?
    ensures b.plist.Unreadable? ==> r == Ok(Some(FallbackInfo(b)))
    ensures r.Ok? && r.value.Some? ==> r.value.value.path == b.path
    ensures b.plist.Readable? && b.plist.root.Dict? ==>
      var root := b.plist.root;
      var info := r.value.value;
      && Get(root, "CFBundleName", Str(BundleStem(b))) == Ok(info.name)
      && Get(root, "CFBundleIdentifier", Str("unknown")) == Ok(info.bundleId)
      && Get(root, "CFBundleShortVersionString", Str("unknown")) == Ok(info.version)
      && Get(root, "CFBundleDisplayName", info.name) == Ok(info.displayName)
  {
    match b.plist
    case NoPlist => Ok(None)
    case Unreadable => Ok(Some(FallbackInfo(b)))
    case Malformed => Raise(ExpatError)
    case Readable(root) =>
      if !root.Dict? then Raise(AttributeError)
      else
        var name := Lookup(root, "CFBundleName", Str(BundleStem(b)));
        Ok(Some(AppInfo(name, b.path,
                        Lookup(root, "CFBundleIdentifier", Str("unknown")),
                        Lookup(root, "CFBundleShortVersionString", Str("unknown")),
                        Lookup(root, "CFBundleDisplayName", name))))
  }

  /** A plist without any of the four keys yields the stem as both names and
      "unknown" for the id and version, exactly like an unreadable one. */
  lemma EmptyPlistDefaults(b: Bundle)
    requires b.plist.Readable? && b.plist.root.Dict?
    requires forall k :: k in b.plist.root.fields ==>
      k !in {"CFBundleName", "CFBundleIdentifier", "CFBundleShortVersionString", "CFBundleDisplayName"}
    ensures AppInfoOf(b) == Ok(Some(FallbackInfo(b)))
  {
  }

  /** A bundle that contributes an entry: a directory with a plist. */
  predicate HasInfo(b: Bundle) {
    b.isDir && !b.plist.NoPlist?
  }

  /** A bundle whose info lookup raises. */
  predicate Breaks(b: Bundle) {
    b.isDir && (b.plist.Malformed? || (b.plist.Readable? && !b.plist.root.Dict?))
  }

  /** `_scan_applications_directory` over the yielded bundles. */
  function ScanBundles(bundles: seq<Bundle>): (r: Result<seq<Found>>)
    ensures r.Ok? ==> |r.value| <= |bundles|
    ensures r.Ok? ==> forall i :: 0 <= i < |r.value| ==>
      r.value[i].bundle.isDir && AppInfoOf(r.value[i].bundle) == Ok(Some(r.value[i].info))
    ensures r.Raise? ==> r.error == ExpatError || r.error == AttributeError
  {
    if |bundles| == 0 then Ok([])
    else
      var head :- if bundles[0].isDir then AppInfoOf(bundles[0]) else Ok(None);
      var rest :- ScanBundles(bundles[1..]);
      Ok(if head.Some? then [Found(bundles[0], head.value)] + rest else rest)
  }

  function Bundles(found: seq<Found>): (bs: seq<Bundle>)
    ensures |bs| == |found|
    ensures forall i :: 0 <= i < |found| ==> bs[i] == found[i].bundle
  {
    seq(|found|, i requires 0 <= i < |found| => found[i].bundle)
  }

  /** The scan of a directory fails exactly when one of its bundles is a
      directory whose plist is malformed XML or has a root that is not a
      dict. */
  lemma {:induction false} ScanBundlesFails(bundles: seq<Bundle>)
    ensures ScanBundles(bundles).Ok? <==> forall i :: 0 <= i < |bundles| ==> !Breaks(bundles[i])
  {
    if |bundles| > 0 {
      ScanBundlesFails(bundles[1..]);
      assert forall i :: 1 <= i < |bundles| ==> bundles[i] == bundles[1..][i - 1];
    }
  }

  /** When the scan of a directory succeeds, its entries come from exactly
      the bundles that are directories with a plist, in glob order. */
  lemma {:induction false} ScanBundlesKeeps(bundles: seq<Bundle>)
    requires ScanBundles(bundles).Ok?
    ensures Bundles(ScanBundles(bundles).value) == Filter(bundles, HasInfo)
  {
    if |bundles| > 0 {
      var b := bundles[0];
      var rest := ScanBundles(bundles[1..]).value;
      ScanBundlesKeeps(bundles[1..]);
      if HasInfo(b) {
        var info := AppInfoOf(b).value.value;
        assert ScanBundles(bundles).value == [Found(b, info)] + rest;
        assert Bundles([Found(b, info)] + rest) == [b] + Bundles(rest);
      } else {
        assert ScanBundles(bundles).value == rest;
      }
    }
  }

  /** The apps of one directory: none when it is missing. */
  function ListingApps(l: Listing): (r: Result<seq<Found>>)
    ensures l.Missing? ==> r == Ok([])
    ensures l.Listed? ==> r == ScanBundles(l.bundles)
  {
    if l.Missing? then Ok([]) else ScanBundles(l.bundles)
  }

  /** `_is_app_store_app`: a receipt, or a truthy sandbox entry in a
      readable plist. Only OSError and InvalidFileException are caught. */
  function IsAppStoreApp(b: Bundle): (r: Result<bool>)
    ensures b.hasReceipt ==> r == Ok(true)
    ensures r.Raise? <==> !b.hasReceipt && (b.plist.Malformed? || (b.plist.Readable? && !b.plist.root.Dict?))
    ensures r.Raise? ==> r.error == (if b.plist.Malformed? then ExpatError else AttributeError)
    ensures !b.hasReceipt && (b.plist.NoPlist? || b.plist.Unreadable?) ==> r == Ok(false)
    ensures !b.hasReceipt && b.plist.Readable? && b.plist.root.Dict? ==>
      r == Ok(HasKey(b.plist.root, SandboxKey) && Truthy(b.plist.root.fields[SandboxKey]))
  {
    if b.hasReceipt then Ok(true)
    else match b.plist
      case Readable(root) =>
        var v :- Get(root, SandboxKey, Null);
        Ok(Truthy(v))
      case Malformed => Raise(ExpatError)
      case _ => Ok(false)
  }

  /** A resolved symlink target inside a Homebrew prefix. */
  predicate InHomebrewPrefix(target: string) {
    Contains(target, "/opt/homebrew/") || Contains(target, "/usr/local/")
  }

  /** `_is_homebrew_app`: a symlink into a Homebrew prefix, or a bundle id
      holding one of the Homebrew indicators. The `in` test raises a
      TypeError when the bundle id is not a container. */
  function IsHomebrewApp(f: Found): (r: Result<bool>)
    ensures f.bundle.isSymlink && f.bundle.resolved.Some? && InHomebrewPrefix(f.bundle.resolved.value) ==> r == Ok(true)
    ensures r.Raise? ==> r.error == TypeError
    ensures r.Raise? <==>
      && !(f.bundle.isSymlink && f.bundle.resolved.Some? && InHomebrewPrefix(f.bundle.resolved.value))
      && (f.info.bundleId.Null? || f.info.bundleId.Bool? || f.info.bundleId.Int?)
    ensures f.info.bundleId.Str? ==> r == Ok(
      || (f.bundle.isSymlink && f.bundle.resolved.Some? && InHomebrewPrefix(f.bundle.resolved.value))
      || Contains(f.info.bundleId.s, "org.homebrew.") || Contains(f.info.bundleId.s, "homebrew."))
  {
    var b := f.bundle;
    if b.isSymlink && b.resolved.Some? && InHomebrewPrefix(b.resolved.value) then Ok(true)
    else
      var first :- In("org.homebrew.", f.info.bundleId);
      if first then Ok(true)
      else Ok(In("homebrew.", f.info.bundleId).value)
  }

  /** The filter condition of `scan`: not an App Store app and, only asked
      when it is not, not a Homebrew app. */
  function IsManual(f: Found): (r: Result<bool>)
    ensures IsAppStoreApp(f.bundle) == Ok(true) ==> r == Ok(false)
    ensures IsAppStoreApp(f.bundle) == Ok(false) ==> r == (match IsHomebrewApp(f)
      case Ok(h) => Ok(!h)
      case Raise(e) => Raise(e))
  {
    var store :- IsAppStoreApp(f.bundle);
    if store then Ok(false)
    else
      var homebrew :- IsHomebrewApp(f);
      Ok(!homebrew)
  }

  predicate KeptAsManual(f: Found) {
    IsManual(f) == Ok(true)
  }

  /** The filtering loop of `scan`. */
  function FilterManual(found: seq<Found>): (r: Result<seq<Found>>)
    ensures r.Ok? ==> |r.value| <= |found|
    ensures r.Ok? ==> forall i :: 0 <= i < |r.value| ==> r.value[i] in found && KeptAsManual(r.value[i])
  {
    if |found| == 0 then Ok([])
    else
      var keep :- IsManual(found[0]);
      var rest :- FilterManual(found[1..]);
      Ok(if keep then [found[0]] + rest else rest)
  }

  /** The filter keeps exactly the apps that are neither App Store apps
      nor Homebrew apps, in order, and fails exactly when a check fails. */
  lemma {:induction false} FilterManualExact(found: seq<Found>)
    ensures FilterManual(found).Ok? <==> forall i :: 0 <= i < |found| ==> IsManual(found[i]).Ok?
    ensures FilterManual(found).Ok? ==> FilterManual(found).value == Filter(found, KeptAsManual)
  {
    if |found| > 0 {
      FilterManualExact(found[1..]);
      assert forall i :: 1 <= i < |found| ==> found[i] == found[1..][i - 1];
      if IsManual(found[0]).Ok? && FilterManual(found[1..]).Ok? {
        assert forall i :: 0 <= i < |found| ==> IsManual(found[i]).Ok? by {
          forall i | 0 <= i < |found| ensures IsManual(found[i]).Ok? {
            if i > 0 {
              assert found[i] == found[1..][i - 1];
            }
          }
        }
      }
    }
  }

  /** An app with an App Store receipt never counts as manual. */
  lemma ReceiptExcludes(f: Found)
    requires f.bundle.hasReceipt
    ensures !KeptAsManual(f)
  {
  }

  /** A symlink into a Homebrew prefix never counts as manual. */
  lemma HomebrewSymlinkExcludes(f: Found)
    requires f.bundle.isSymlink && f.bundle.resolved.Some? && InHomebrewPrefix(f.bundle.resolved.value)
    ensures !KeptAsManual(f)
  {
  }

  /** The `scanned_directories` entry of a directory. */
  function DirectoryLabel(dir: string, l: Listing): string {
    if l.Missing? then dir + " (not found)" else dir
  }

  /** `ManualAppScanner.scan`. */
  function Scan(env: Environment): (r: Result<ManualScan>)
    ensures r.Ok? ==> |r.value.apps| <= r.value.allAppsCount
    ensures r.Ok? ==> r.value.scannedDirectories == [DirectoryLabel(SystemDir, env.system), DirectoryLabel(UserDir(env.home), env.user)]
    ensures ListingApps(env.system).Raise? || ListingApps(env.user).Raise? ==> r.Raise?
    ensures env.system.Missing? && env.user.Missing? ==> r == Ok(ManualScan([], 0, [SystemDir + " (not found)", UserDir(env.home) + " (not found)"]))
  {
    var system :- ListingApps(env.system);
    var user :- ListingApps(env.user);
    var all := system + user;
    var manual :- FilterManual(all);
    Ok(ManualScan(Infos(manual), |all|,
                  [DirectoryLabel(SystemDir, env.system), DirectoryLabel(UserDir(env.home), env.user)]))
  }

  function Infos(found: seq<Found>): (infos: seq<AppInfo>)
    ensures |infos| == |found|
    ensures forall i :: 0 <= i < |found| ==> infos[i] == found[i].info
  {
    seq(|found|, i requires 0 <= i < |found| => found[i].info)
  }

  /** A successful scan lists the apps of both directories, system first,
      that survive the filter, and counts all of them. */
  lemma ScanContents(env: Environment)
    requires Scan(env).Ok?
    ensures var all := ListingApps(env.system).value + ListingApps(env.user).value;
      && Scan(env).value.allAppsCount == |all|
      && Scan(env).value.apps == Infos(Filter(all, KeptAsManual))
  {
    var all := ListingApps(env.system).value + ListingApps(env.user).value;
    FilterManualExact(all);
  }

  /** The dict of one app. */
  function InfoJson(a: AppInfo): Json {
    Dict(map["name" := a.name, "path" := Str(a.path), "bundle_id" := a.bundleId,
             "version" := a.version, "display_name" := a.displayName],
         ["name", "path", "bundle_id", "version", "display_name"])
  }

  function InfoItems(apps: seq<AppInfo>): (items: seq<Json>)
    ensures |items| == |apps|
    ensures forall i :: 0 <= i < |apps| ==>
      Subscript(items[i], "name") == Ok(apps[i].name) && Subscript(items[i], "path") == Ok(Str(apps[i].path))
  {
    seq(|apps|, i requires 0 <= i < |apps| => InfoJson(apps[i]))
  }

  /** The dict `scan` returns. */
  function ToJson(s: ManualScan): (d: Json)
    ensures Subscript(d, "apps") == Ok(List(InfoItems(s.apps)))
    ensures Subscript(d, "total_count") == Ok(Int(|s.apps|))
    ensures Subscript(d, "all_apps_count") == Ok(Int(s.allAppsCount))
    ensures !HasKey(d, "error")
  {
    Dict(map["apps" := List(InfoItems(s.apps)), "total_count" := Int(|s.apps|),
             "all_apps_count" := Int(s.allAppsCount),
             "scanned_directories" := StrList(s.scannedDirectories)],
         ["apps", "total_count", "all_apps_count", "scanned_directories"])
  }
}

=== FILE: probe.dfy ===
/**
 What the backup engine sees of a scanner and of an external command: a
 scanner either returns its result dict or raises (and only `str(e)` of the
 exception is kept); a command run through `subprocess.run` finishes with
 an exit status and captured output.
 */
module Probe {
  import opened Text
  import opened Py

  /** The outcome of one `scanner.scan()` call. */
  datatype ScanOutcome = Returned(data: Json) | Failed(message: string)

  /** A finished `subprocess.run(..., capture_output=True, text=True)`. */
  datatype Completed = Completed(returncode: int, stdout: string, stderr: string)

  /** The names of macOS's signals 1 to 31, in number order, as Python's
      `signal.Signals` calls them. */
  const MacSignals := ["SIGHUP", "SIGINT", "SIGQUIT", "SIGILL", "SIGTRAP", "SIGABRT", "SIGEMT", "SIGFPE",
                       "SIGKILL", "SIGBUS", "SIGSEGV", "SIGSYS", "SIGPIPE", "SIGALRM", "SIGTERM", "SIGURG",
                       "SIGSTOP", "SIGTSTP", "SIGCONT", "SIGCHLD", "SIGTTIN", "SIGTTOU", "SIGIO", "SIGXCPU",
                       "SIGXFSZ", "SIGVTALRM", "SIGPROF", "SIGWINCH", "SIGINFO", "SIGUSR1", "SIGUSR2"]

  /** `str(e)` of a CalledProcessError for command `cmdRepr` (the command
      list as Python's `repr` prints it) that exited with `code`: a
      negative code is the signal that killed the process, shown by its
      `Signals` repr when it has a name. */
  function CalledProcessErrorText(cmdRepr: string, code: int): string {
    if code < 0 && -code <= |MacSignals| then
      "Command '" + cmdRepr + "' died with <Signals." + MacSignals[-code - 1] + ": " + IntToString(-code) + ">."
    else if code < 0 then
      "Command '" + cmdRepr + "' died with unknown signal " + IntToString(-code) + "."
    else
      "Command '" + cmdRepr + "' returned non-zero exit status " + IntToString(code) + "."
  }

  /** A command killed by SIGKILL, and one killed by a signal macOS does
      not number. */
  lemma SignalTexts(cmdRepr: string)
    ensures CalledProcessErrorText(cmdRepr, -9) == "Command '" + cmdRepr + "' died with <Signals.SIGKILL: 9>."
    ensures CalledProcessErrorText(cmdRepr, -40) == "Command '" + cmdRepr + "' died with unknown signal 40."
  {
    assert IntToString(9) == "9";
    assert IntToString(40) == "40";
  }

  /** `str(e)` of an exception that escapes a scanner. Exceptions raised by
      the scanners themselves and the file-system errors carry their exact
      message; for the ones Python raises on a badly shaped value, a
      malformed property list or a failed copy, the message stands in for
      a text that depends on details the model does not keep. */
  function Message(e: PyError): string {
    match e
    case RuntimeError(m) => m
    case ValueError(m) => m
    case KeyError(k) => "'" + k + "'"
    case TypeError => "TypeError"
    case AttributeError => "AttributeError"
    case UnicodeDecodeError => "UnicodeDecodeError"
    case ExpatError => "ExpatError"
    case FileNotFoundError(p) => "[Errno 2] No such file or directory: '" + p + "'"
    case FileExistsError(p) => "[Errno 17] File exists: '" + p + "'"
    case IsADirectoryError(p) => "[Errno 21] Is a directory: '" + p + "'"
    case OSError(p) => "OSError: '" + p + "'"
  }

  /** A scanner body that returned or raised, as `start_backup` sees it. */
  function Outcome(r: Result<Json>): (o: ScanOutcome)
    ensures r.Ok? <==> o.Returned?
    ensures r.Ok? ==> o.data == r.value
  {
    match r
    case Ok(v) => Returned(v)
    case Raise(e) => Failed(Message(e))
  }
}

=== FILE: py.dfy ===
/**
 The dynamically typed values the program passes around (scanner results,
 the aggregated backup data, the manifest) and the few Python operations
 on them whose failure modes matter: `d.get(k, default)`, `d[k]`,
 `k in v`, iteration, `len`, truthiness and `str()`.

 Python dicts (and so `json.load` results) remember insertion order, and
 iterating one yields its keys in that order, so a dict value carries its
 key order beside its key-to-value map.
 */
module Py {
  import opened Wrappers
  import opened Text

  /** The Python exceptions the modelled code raises or lets escape. */
  datatype PyError =
    | TypeError
    | AttributeError
    | KeyError(key: string)
    | ValueError(message: string)
    | UnicodeDecodeError
    | ExpatError             // xml.parsers.expat.ExpatError, a malformed XML document
    | FileNotFoundError(path: string)
    | FileExistsError(path: string)
    | IsADirectoryError(path: string)
    | OSError(path: string)
    | RuntimeError(message: string)

  /** A computation that returns a value or raises. */
  datatype Result<+T> = Ok(value: T) | Raise(error: PyError) {
    predicate IsFailure() { Raise? }

    function PropagateFailure<U>(): Result<U>
      requires Raise?
    {
      Raise(error)
    }

    function Extract(): T
      requires Ok?
    {
      value
    }
  }

  /** A JSON-representable Python value. A dict is its key-to-value map
      together with its keys in insertion order, the order in which Python
      iterates it. */
  datatype Json =
    | Null
    | Bool(b: bool)
    | Int(i: int)
    | Str(s: string)
    | List(items: seq<Json>)
    | Dict(fields: map<string, Json>, order: seq<string>)

  /** The insertion order lists every key exactly once. */
  ghost predicate OrderMatches(fields: map<string, Json>, order: seq<string>) {
    && (forall k :: k in order <==> k in fields)
    && (forall i, j :: 0 <= i < j < |order| ==> order[i] != order[j])
  }

  /** Python's `key in d` for a dict `d`. */
  predicate HasKey(d: Json, key: string) {
    d.Dict? && key in d.fields
  }

  /** Python's truthiness: `None`, `False`, `0` and empty containers are
      false. */
  predicate Truthy(v: Json) {
    match v
    case Null => false
    case Bool(b) => b
    case Int(n) => n != 0
    case Str(s) => s != []
    case List(items) => items != []
    case Dict(fields, _) => |fields| > 0
  }

  /** Python's `d.get(key, default)`: only dicts have `get`. */
  function Get(d: Json, key: string, default: Json): (r: Result<Json>)
    ensures !d.Dict? <==> r == Raise(AttributeError)
    ensures d.Dict? && !HasKey(d, key) ==> r == Ok(default)
    ensures HasKey(d, key) ==> r == Ok(d.fields[key])
  {
    if !d.Dict? then Raise(AttributeError)
    else if key in d.fields then Ok(d.fields[key])
    else Ok(default)
  }

  /** Python's `d[key]` with a string key: a missing key is a KeyError, and
      every non-dict value refuses a string index with a TypeError. */
  function Subscript(d: Json, key: string): (r: Result<Json>)
    ensures r.Ok? <==> HasKey(d, key)
    ensures r.Ok? ==> r.value == d.fields[key]
    ensures d.Dict? && !HasKey(d, key) ==> r == Raise(KeyError(key))
    ensures !d.Dict? ==> r == Raise(TypeError)
  {
    if !d.Dict? then Raise(TypeError)
    else if key in d.fields then Ok(d.fields[key])
    else Raise(KeyError(key))
  }

  /** Python's `needle in v` for a string `needle`: a substring test on a
      string, element test on a list, key test on a dict; other values are
      not containers. */
  function In(needle: string, v: Json): (r: Result<bool>)
    ensures r.Raise? <==> v.Null? || v.Bool? || v.Int?
    ensures v.Dict? ==> r == Ok(HasKey(v, needle))
    ensures v.Str? ==> r == Ok(Contains(v.s, needle))
    ensures v.List? ==> r == Ok(Str(needle) in v.items)
  {
    match v
    case Str(s) => Ok(Contains(s, needle))
    case List(items) => Ok(Str(needle) in items)
    case Dict(fields, _) => Ok(needle in fields)
    case _ => Raise(TypeError)
  }

  /** The items a Python `for` loop visits: list items, a string's
      one-character strings, a dict's keys. */
  function Iterate(v: Json): (r: Result<seq<Json>>)
    ensures r.Raise? <==> v.Null? || v.Bool? || v.Int?
    ensures v.List? ==> r == Ok(v.items)
    ensures v.Str? ==> r.Ok? && |r.value| == |v.s|
    ensures v.Str? ==> forall i :: 0 <= i < |v.s| ==> r.value[i] == Str([v.s[i]])
    ensures v.Dict? ==> r.Ok? && |r.value| == |v.order|
    ensures v.Dict? ==> forall i :: 0 <= i < |v.order| ==> r.value[i] == Str(v.order[i])
  {
    match v
    case List(items) => Ok(items)
    case Str(s) => Ok(seq(|s|, i requires 0 <= i < |s| => Str([s[i]])))
    case Dict(_, order) => Ok(seq(|order|, i requires 0 <= i < |order| => Str(order[i])))
    case _ => Raise(TypeError)
  }

  /** An iterable value is truthy exactly when iterating it visits
      something, so `if x:` followed by `for i in x` never loops over an
      empty container. */
  lemma TruthyIterate(v: Json)
    requires Iterate(v).Ok?
    requires v.Dict? ==> OrderMatches(v.fields, v.order)
    ensures Truthy(v) <==> |Iterate(v).value| > 0
  {
    if v.Dict? && |v.fields| > 0 {
      var k :| k in v.fields;
      assert k in v.order;
    }
    if v.Dict? && |v.order| > 0 {
      assert v.order[0] in v.fields;
    }
  }

  /** Python's `len(v)`. */
  function Len(v: Json): (r: Result<nat>)
    ensures r.Raise? <==> v.Null? || v.Bool? || v.Int?
    ensures v.List? ==> r == Ok(|v.items|)
    ensures v.Str? ==> r == Ok(|v.s|)
    ensures v.Dict? ==> r == Ok(|v.fields|)
  {
    match v
    case Str(s) => Ok(|s|)
    case List(items) => Ok(|items|)
    case Dict(fields, _) => Ok(|fields|)
    case _ => Raise(TypeError)
  }

  /** `str(v)` as an f-string renders it. Strings, integers, booleans and
      `None` are rendered as Python does; lists and dicts, which Python
      renders with `repr`, are shown as the placeholders "[...]" and
      "{...}". */
  function Show(v: Json): string {
    match v
    case Null => "None"
    case Bool(b) => if b then "True" else "False"
    case Int(n) => IntToString(n)
    case Str(s) => s
    case List(_) => "[...]"
    case Dict(_, _) => "{...}"
  }

  /** A list of strings as a JSON list. */
  function StrList(ss: seq<string>): (r: Json)
    ensures r.List? && |r.items| == |ss|
    ensures forall i :: 0 <= i < |ss| ==> r.items[i] == Str(ss[i])
  {
    List(seq(|ss|, i requires 0 <= i < |ss| => Str(ss[i])))
  }
}

=== FILE: restore.dfy ===
/**
 The restore manager (macbac/restore.py): reading manifest.json back from a
 backup directory, the summary of what a backup can restore, and the three
 restore operations: App Store apps through `mas install`, Homebrew
 packages through `brew bundle` on a temporary Brewfile, and font files
 copied into ~/Library/Fonts without overwriting anything.

 The commands a restore runs are recorded as argument lists; whether a
 command is installed and how it exits are parameters.
 */
module Restore {
  import opened Wrappers
  import opened Text
  import opened Py
  import opened Files
  import opened Probe
  import opened Storage
  import opened Seqs
  import AppStoreScanner
  import FontScanner

  /** What `json.load` makes of a manifest file that is not the JSON text
      of a value the model knows: a value, a JSONDecodeError with its
      message, or text that is not UTF-8. */
  datatype Decoded = Parsed(doc: Json) | NotJson(detail: string) | NotUtf8

  const InvalidManifest := "Invalid manifest file: "

  /** `RestoreManager(backup_dir)`: the manifest of the backup. A missing
      manifest is a FileNotFoundError, a directory in its place cannot be
      opened, and only a JSON syntax error is turned into a ValueError. */
  function LoadManifest(fs: FileSystem, backupDir: string, decode: Content -> Decoded): (r: Result<Json>)
    ensures !Exists(fs, ManifestPath(backupDir)) ==> r == Raise(FileNotFoundError(ManifestPath(backupDir)))
    ensures ManifestPath(backupDir) in fs.dirs && !IsFile(fs, ManifestPath(backupDir)) ==>
      r == Raise(IsADirectoryError(ManifestPath(backupDir)))
    ensures IsFile(fs, ManifestPath(backupDir)) && fs.files[ManifestPath(backupDir)].JsonText? ==>
      r == Ok(fs.files[ManifestPath(backupDir)].doc)
    ensures r.Raise? && r.error.ValueError? ==>
      |r.error.message| >= |InvalidManifest| && r.error.message[..|InvalidManifest|] == InvalidManifest
    ensures IsFile(fs, ManifestPath(backupDir)) && !fs.files[ManifestPath(backupDir)].JsonText? ==>
      var decoded := decode(fs.files[ManifestPath(backupDir)]);
      && (decoded.Parsed? ==> r == Ok(decoded.doc))
      && (decoded.NotJson? ==> r == Raise(ValueError(InvalidManifest + decoded.detail)))
      && (decoded.NotUtf8? ==> r == Raise(UnicodeDecodeError))
  {
    var p := ManifestPath(backupDir);
    if !Exists(fs, p) then Raise(FileNotFoundError(p))
    else if p !in fs.files then Raise(IsADirectoryError(p))
    else
      match fs.files[p]
      case JsonText(doc) => Ok(doc)
      case _ =>
        match decode(fs.files[p])
        case Parsed(doc) => Ok(doc)
        case NotJson(detail) => Raise(ValueError(InvalidManifest + detail))
        case NotUtf8 => Raise(UnicodeDecodeError)
  }

  /** A restore reads back exactly the manifest a backup wrote. */
  lemma ManifestRoundTrip(backupDir: string, data: Json, fs: FileSystem, failing: set<string>, sw: SwVers,
                          date: string, decode: Content -> Decoded)
    requires StoreBackupData(Some(backupDir), data, fs, failing, sw, date).raised.None?
    ensures var stored := StoreBackupData(Some(backupDir), data, fs, failing, sw, date);
      LoadManifest(stored.fs, backupDir, decode) == Ok(BuildManifest(data, date, MacosVersion(sw).value).value)
  {
  }

  // ----- show_backup_summary -----

  /** What the summary shows: the three `backup_info` entries ("Unknown"
      when absent), the number of App Store apps and of fonts when there
      are any, and whether there is a Brewfile. */
  datatype Summary = Summary(date: string, macosVersion: string, macbacVersion: string,
                             apps: Option<nat>, homebrew: bool, fonts: Option<nat>)

  /** `len(v)` of a value that is listed only when it is truthy. */
  function CountIfTruthy(v: Json): (r: Result<Option<nat>>)
    ensures !Truthy(v) ==> r == Ok(None)
    ensures Truthy(v) && v.List? ==> r == Ok(Some(|v.items|))
  {
    if !Truthy(v) then Ok(None)
    else
      var n :- Len(v);
      Ok(Some(n))
  }

  /** `show_backup_summary`. */
  function ShowSummary(m: Json): (r: Result<Summary>)
    ensures !m.Dict? ==> r == Raise(AttributeError)
  {
    var info :- Get(m, "backup_info", Dict(map[], []));
    var date :- Get(info, "date", Str("Unknown"));
    var macos :- Get(info, "macos_version", Str("Unknown"));
    var version :- Get(info, "macbac_version", Str("Unknown"));
    var appstore :- Get(m, "appstore", Null);
    var apps :- CountIfTruthy(appstore);
    var homebrew :- Get(m, "homebrew", Dict(map[], []));
    var brewfile :- Get(homebrew, "brewfile", Null);
    var fontList :- Get(m, "fonts", Null);
    var fonts :- CountIfTruthy(fontList);
    Ok(Summary(Show(date), Show(macos), Show(version), apps, Truthy(brewfile), fonts))
  }

  /** Whatever else the manifest holds, a summary shows each backup_info
      entry that is present and "Unknown" for each one that is missing,
      including when backup_info itself is missing; Homebrew is listed
      exactly when the homebrew entry has a truthy Brewfile. */
  lemma SummaryShowsInfo(m: Json)
    requires ShowSummary(m).Ok?
    ensures var s := ShowSummary(m).value;
      var info := if HasKey(m, "backup_info") then m.fields["backup_info"] else Dict(map[], []);
      && info.Dict?
      && s.date == (if HasKey(info, "date") then Show(info.fields["date"]) else "Unknown")
      && s.macosVersion == (if HasKey(info, "macos_version") then Show(info.fields["macos_version"]) else "Unknown")
      && s.macbacVersion == (if HasKey(info, "macbac_version") then Show(info.fields["macbac_version"]) else "Unknown")
    ensures var s := ShowSummary(m).value;
      var homebrew := if HasKey(m, "homebrew") then m.fields["homebrew"] else Dict(map[], []);
      && homebrew.Dict?
      && s.homebrew == (HasKey(homebrew, "brewfile") && Truthy(homebrew.fields["brewfile"]))
  {
  }

  /** A category line, present when `shown`. */
  function CategoryLine(shown: bool, line: string): seq<string> {
    if shown then [line] else []
  }

  const SummaryTitle := "📦 Backup Summary"
  const DateLabel := "Backup Date: "
  const MacosLabel := "macOS Version: "
  const VersionLabel := "macbac Version: "
  const CategoriesHeading := "Available restore categories:"
  const HomebrewLine := "  🍺 homebrew - Homebrew packages and casks"
  const UsageHint := "Use 'macbac restore --source <backup_dir> <category>' to restore specific categories."

  function AppsLine(n: nat): string {
    "  🍎 appstore - " + IntToString(n) + " App Store applications"
  }

  function FontsLine(n: nat): string {
    "  ✍️  fonts - " + IntToString(n) + " custom fonts"
  }

  /** The lines the summary prints, markup aside. */
  function SummaryLines(s: Summary): seq<string> {
    SummaryHead(s)
      + (CategoryLine(s.apps.Some?, AppsLine(s.apps.GetOr(0))) + CategoryLine(s.homebrew, HomebrewLine)
         + CategoryLine(s.fonts.Some?, FontsLine(s.fonts.GetOr(0))))
      + SummaryTail
  }

  /** The title and the backup_info lines. */
  function SummaryHead(s: Summary): seq<string> {
    [SummaryTitle, "", DateLabel + s.date, MacosLabel + s.macosVersion, VersionLabel + s.macbacVersion, "",
     CategoriesHeading]
  }

  const SummaryTail := ["", UsageHint]

  /** The summary shows the three backup_info lines, then one line per
      category that has something to restore, in the order appstore,
      homebrew, fonts, then the usage hint. */
  lemma SummaryLayout(s: Summary)
    ensures var lines := SummaryLines(s);
      && |lines| == 9 + |CategoryLine(s.apps.Some?, "")| + |CategoryLine(s.homebrew, "")| + |CategoryLine(s.fonts.Some?, "")|
      && lines[2] == DateLabel + s.date
      && lines[3] == MacosLabel + s.macosVersion
      && lines[4] == VersionLabel + s.macbacVersion
      && (s.apps.Some? ==> lines[7] == AppsLine(s.apps.value))
      && (s.homebrew ==> lines[7 + |CategoryLine(s.apps.Some?, "")|] == HomebrewLine)
      && (s.fonts.Some? ==> lines[|lines| - 3] == FontsLine(s.fonts.value))
      && lines[|lines| - 1] == UsageHint
  {
    Layout(SummaryHead(s), CategoryLine(s.apps.Some?, AppsLine(s.apps.GetOr(0))), CategoryLine(s.homebrew, HomebrewLine),
           CategoryLine(s.fonts.Some?, FontsLine(s.fonts.GetOr(0))), SummaryTail);
  }

  /** Where the pieces of a seven-line head, up to three optional lines and
      a two-line tail sit once concatenated. */
  lemma Layout<T>(head: seq<T>, a: seq<T>, b: seq<T>, c: seq<T>, tail: seq<T>)
    requires |head| == 7 && |tail| == 2 && |a| <= 1 && |b| <= 1 && |c| <= 1
    ensures var l := head + (a + b + c) + tail;
      && |l| == 9 + |a| + |b| + |c|
      && l[2] == head[2] && l[3] == head[3] && l[4] == head[4]
      && (|a| == 1 ==> l[7] == a[0])
      && (|b| == 1 ==> l[7 + |a|] == b[0])
      && (|c| == 1 ==> l[|l| - 3] == c[0])
      && l[|l| - 1] == tail[1]
  {
  }

  /** The summary of a manifest the backup wrote shows the recorded date
      and versions, counts the App Store apps and the fonts exactly when
      there are some, and lists Homebrew exactly when the Brewfile is not
      empty. */
  lemma SummaryOfManifest(m: Json, date: string, macos: string, apps: seq<Json>, brewfile: string, fonts: seq<Json>)
    requires Field(m, "backup_info", BackupInfo(date, macos))
    requires Field(m, "appstore", List(apps)) && Field(m, "fonts", List(fonts))
    requires Field(m, "homebrew", HomebrewEntry(Str(brewfile)))
    ensures ShowSummary(m) == Ok(Summary(date, macos, MacbacVersion,
      if |apps| > 0 then Some(|apps|) else None, brewfile != [],
      if |fonts| > 0 then Some(|fonts|) else None))
  {
    var info := BackupInfo(date, macos);
    assert Get(m, "backup_info", Dict(map[], [])) == Ok(info);
    assert Get(info, "date", Str("Unknown")) == Ok(Str(date));
    assert Get(info, "macos_version", Str("Unknown")) == Ok(Str(macos));
    assert Get(info, "macbac_version", Str("Unknown")) == Ok(Str(MacbacVersion));
    assert Get(m, "homebrew", Dict(map[], [])) == Ok(HomebrewEntry(Str(brewfile)));
  }

  // ----- restore_appstore_apps -----

  /** What an App Store restore did: the commands it ran, the names of the
      apps `mas` installed and of those it failed to install, and the
      exception that stopped it, if one did. */
  datatype AppStoreRestore = AppStoreRestore(commands: seq<seq<string>>, installed: seq<string>, failed: seq<string>,
                                             raised: Option<PyError>)

  const WhichMas: seq<string> := ["which", "mas"]

  function InstallCommand(id: string): seq<string> {
    ["mas", "install", id]
  }

  /** An app entry `mas install` can be given: a dict whose "id" is a
      string. A missing id is passed as `None`, which `subprocess.run`
      refuses like any other non-string argument. */
  predicate Installable(app: Json) {
    HasKey(app, "id") && app.fields["id"].Str?
  }

  /** The exception an entry that is not installable raises: only dicts
      have `get`. */
  function EntryError(app: Json): PyError {
    if app.Dict? then TypeError else AttributeError
  }

  /** `app.get("name", "Unknown")`, as printed. */
  function AppName(app: Json): string
    requires app.Dict?
  {
    Show(Get(app, "name", Str("Unknown")).value)
  }

  /** The index of the first entry that is not installable, `|apps|` when
      there is none. */
  function FirstBad(apps: seq<Json>): (k: nat)
    ensures k <= |apps|
    ensures forall i :: 0 <= i < k ==> Installable(apps[i])
    ensures k < |apps| ==> !Installable(apps[k])
  {
    if |apps| == 0 || !Installable(apps[0]) then 0
    else
      assert forall i :: 1 <= i < |apps| ==> apps[i] == apps[1..][i - 1];
      1 + FirstBad(apps[1..])
  }

  /** The `mas install` commands for installable entries, in order. */
  function Installs(apps: seq<Json>): (cmds: seq<seq<string>>)
    requires forall i :: 0 <= i < |apps| ==> Installable(apps[i])
  {
    seq(|apps|, i requires 0 <= i < |apps| && Installable(apps[i]) => InstallCommand(apps[i].fields["id"].s))
  }

  function AppNames(apps: seq<Json>): (names: seq<string>)
    requires forall i :: 0 <= i < |apps| ==> apps[i].Dict?
  {
    seq(|apps|, i requires 0 <= i < |apps| && apps[i].Dict? => AppName(apps[i]))
  }

  /** An installable entry whose install exits 0. */
  predicate InstallSucceeds(failing: set<string>, app: Json) {
    Installable(app) && app.fields["id"].s !in failing
  }

  /** An installable entry whose install exits non-zero. */
  predicate InstallFails(failing: set<string>, app: Json) {
    Installable(app) && app.fields["id"].s in failing
  }

  /** The selectors of the entries whose install exits 0, and of those
      whose install exits non-zero. */
  function Succeeds(failing: set<string>): Json -> bool {
    app => InstallSucceeds(failing, app)
  }

  function Fails(failing: set<string>): Json -> bool {
    app => InstallFails(failing, app)
  }

  /** The names of the apps among `done` whose install exited 0, in order. */
  function Succeeded(done: seq<Json>, failing: set<string>): seq<string> {
    AppNames(Filter(done, Succeeds(failing)))
  }

  /** The names of the apps among `done` whose install failed, in order. */
  function Rejected(done: seq<Json>, failing: set<string>): seq<string> {
    AppNames(Filter(done, Fails(failing)))
  }

  /** The loop of `restore_appstore_apps`. An install that exits non-zero
      is reported and the loop goes on; an entry that cannot be passed to
      `mas` ends the restore with an exception. `failing` holds the ids
      whose install exits non-zero. */
  function InstallApps(apps: seq<Json>, failing: set<string>): (r: AppStoreRestore)
    ensures r.commands == Installs(apps[..FirstBad(apps)])
    ensures r.raised.None? <==> FirstBad(apps) == |apps|
    ensures FirstBad(apps) < |apps| ==> r.raised == Some(EntryError(apps[FirstBad(apps)]))
  {
    if |apps| == 0 then AppStoreRestore([], [], [], None)
    else if !Installable(apps[0]) then
      assert apps[..0] == [];
      AppStoreRestore([], [], [], Some(EntryError(apps[0])))
    else
      var app := apps[0];
      var rest := InstallApps(apps[1..], failing);
      var k := FirstBad(apps);
      assert apps[..k] == [app] + apps[1..][..k - 1];
      var name := AppName(app);
      var cmd := InstallCommand(app.fields["id"].s);
      InstallsCons(app, apps[1..][..k - 1]);
      if app.fields["id"].s in failing then
        AppStoreRestore([cmd] + rest.commands, rest.installed, [name] + rest.failed, rest.raised)
      else
        AppStoreRestore([cmd] + rest.commands, [name] + rest.installed, rest.failed, rest.raised)
  }

  lemma InstallsCons(app: Json, apps: seq<Json>)
    requires Installable(app) && forall i :: 0 <= i < |apps| ==> Installable(apps[i])
    ensures Installs([app] + apps) == [InstallCommand(app.fields["id"].s)] + Installs(apps)
  {
  }

  lemma AppNamesCons(app: Json, apps: seq<Json>)
    requires app.Dict? && forall i :: 0 <= i < |apps| ==> apps[i].Dict?
    ensures AppNames([app] + apps) == [AppName(app)] + AppNames(apps)
  {
  }

  /** The apps the loop reports as installed are, in order, the attempted
      ones whose install exited 0, and those it reports as failed are the
      attempted ones whose install did not. */
  lemma {:induction false} InstallAppsNames(apps: seq<Json>, failing: set<string>)
    ensures var r := InstallApps(apps, failing);
      r.installed == Succeeded(apps[..FirstBad(apps)], failing) && r.failed == Rejected(apps[..FirstBad(apps)], failing)
  {
    var done := apps[..FirstBad(apps)];
    if |apps| > 0 && Installable(apps[0]) {
      var app := apps[0];
      var rest := apps[1..][..FirstBad(apps[1..])];
      InstallAppsNames(apps[1..], failing);
      var ok, bad := Succeeds(failing), Fails(failing);
      assert done == [app] + rest;
      assert done[0] == app && done[1..] == rest;
      if app.fields["id"].s in failing {
        assert !ok(app) && bad(app);
        assert Filter(done, ok) == Filter(rest, ok);
        assert Filter(done, bad) == [app] + Filter(rest, bad);
        AppNamesCons(app, Filter(rest, bad));
      } else {
        assert ok(app) && !bad(app);
        assert Filter(done, ok) == [app] + Filter(rest, ok);
        assert Filter(done, bad) == Filter(rest, bad);
        AppNamesCons(app, Filter(rest, ok));
      }
    } else {
      assert done == [];
    }
  }

  /** Every install that was attempted is reported exactly once, as
      installed or as failed. */
  lemma InstallsReported(apps: seq<Json>, failing: set<string>)
    ensures var r := InstallApps(apps, failing);
      |r.installed| + |r.failed| == |r.commands|
  {
    var done := apps[..FirstBad(apps)];
    InstallAppsNames(apps, failing);
    FilterComplement(done, Succeeds(failing), Fails(failing));
  }

  /** `restore_appstore_apps`: nothing to do without apps, only the `which`
      probe when `mas` is not installed, otherwise one `mas install` per
      app. `masInstalled` is whether `which mas` exits 0. */
  function RestoreAppStore(m: Json, masInstalled: bool, failing: set<string>): (r: AppStoreRestore)
    ensures !m.Dict? ==> r == AppStoreRestore([], [], [], Some(AttributeError))
    ensures m.Dict? && !Truthy(Get(m, "appstore", List([])).value) ==> r == AppStoreRestore([], [], [], None)
    ensures m.Dict? && Truthy(Get(m, "appstore", List([])).value) && !masInstalled ==> r == AppStoreRestore([WhichMas], [], [], None)
    ensures r.commands != [] ==> r.commands[0] == WhichMas
    ensures m.Dict? && masInstalled && Truthy(Get(m, "appstore", List([])).value) && Iterate(Get(m, "appstore", List([])).value).Ok? ==>
      var rest := InstallApps(Iterate(Get(m, "appstore", List([])).value).value, failing);
      r == rest.(commands := [WhichMas] + rest.commands)
  {
    match Get(m, "appstore", List([]))
    case Raise(e) => AppStoreRestore([], [], [], Some(e))
    case Ok(apps) =>
      if !Truthy(apps) then AppStoreRestore([], [], [], None)
      else if !masInstalled then AppStoreRestore([WhichMas], [], [], None)
      else
        match Iterate(apps)
        case Raise(e) => AppStoreRestore([WhichMas], [], [], Some(e))
        case Ok(items) =>
          var rest := InstallApps(items, failing);
          rest.(commands := [WhichMas] + rest.commands)
  }

  /** The App Store apps a backup recorded from `mas list` are reinstalled
      by id, in the order they were listed: a restore from the manifest
      runs `mas install` once per app, reports each as installed unless
      its install fails, and raises nothing. */
  lemma AppStoreRoundTrip(m: Json, scan: seq<AppStoreScanner.StoreApp>, failing: set<string>)
    requires m.Dict? && Field(m, "appstore", List(AppStoreScanner.AppItems(AppStoreScanner.Listed(scan))))
    ensures var r := RestoreAppStore(m, true, failing);
      && r.raised.None?
      && |r.commands| == |scan| + (if |scan| > 0 then 1 else 0)
      && forall i :: 0 <= i < |scan| ==> r.commands[i + 1] == InstallCommand(scan[i].id)
  {
    var items := AppStoreScanner.AppItems(AppStoreScanner.Listed(scan));
    assert forall i :: 0 <= i < |items| ==> Installable(items[i]);
    if |scan| > 0 {
      assert Truthy(List(items));
      assert items[..FirstBad(items)] == items;
    }
  }

  // ----- restore_homebrew -----

  /** What a Homebrew restore did: the commands it ran, the Brewfile text
      `brew bundle` read, whether it exited 0, the file system after it,
      and the exception that stopped it, if one did. */
  datatype HomebrewRestore = HomebrewRestore(commands: seq<seq<string>>, read: Option<string>, succeeded: bool,
                                             fs: FileSystem, raised: Option<PyError>)

  const WhichBrew: seq<string> := ["which", "brew"]

  function BundleCommand(brewfile: string): seq<string> {
    ["brew", "bundle", "--file", brewfile]
  }

  /** `manifest.get("homebrew", {}).get("brewfile")`. */
  function StoredBrewfile(m: Json): Result<Json> {
    var homebrew :- Get(m, "homebrew", Dict(map[], []));
    Get(homebrew, "brewfile", Null)
  }

  /** `restore_homebrew`. The Brewfile is written to the temporary file
      `tmp` (a fresh name, as `tempfile` guarantees), `brew bundle` runs on
      it and exits as `bundle` says, and the file is removed whatever the
      outcome. Writing a Brewfile that is not a string raises after the
      temporary file was created, before the clean-up is armed. */
  function RestoreHomebrew(m: Json, brewInstalled: bool, fs: FileSystem, tmp: string, bundle: Completed): (r: HomebrewRestore)
    requires !Exists(fs, tmp)
    ensures r.raised.None? ==> r.fs == fs
    ensures r.read.Some? ==> r.commands == [WhichBrew, BundleCommand(tmp)] && r.raised.None?
    ensures r.succeeded ==> r.read.Some? && bundle.returncode == 0
    ensures r.read.Some? && bundle.returncode == 0 ==> r.succeeded
    ensures r.raised == Some(TypeError) ==> r.fs == FileSystem(fs.files[tmp := PlainText("")], fs.dirs)
    ensures StoredBrewfile(m).Raise? ==> r == HomebrewRestore([], None, false, fs, Some(StoredBrewfile(m).error))
    ensures StoredBrewfile(m).Ok? && !Truthy(StoredBrewfile(m).value) ==> r == HomebrewRestore([], None, false, fs, None)
    ensures StoredBrewfile(m).Ok? && Truthy(StoredBrewfile(m).value) && !brewInstalled ==>
      r == HomebrewRestore([WhichBrew], None, false, fs, None)
    ensures StoredBrewfile(m).Ok? && Truthy(StoredBrewfile(m).value) && brewInstalled ==>
      if StoredBrewfile(m).value.Str? then
        && r.commands == [WhichBrew, BundleCommand(tmp)]
        && r.read == Some(StoredBrewfile(m).value.s)
        && (r.succeeded <==> bundle.returncode == 0)
        && r.raised.None? && r.fs == fs && !Exists(r.fs, tmp)
      else
        r.commands == [WhichBrew] && r.raised == Some(TypeError) && IsFile(r.fs, tmp)
  {
    var none := HomebrewRestore([], None, false, fs, None);
    match Get(m, "homebrew", Dict(map[], []))
    case Raise(e) => none.(raised := Some(e))
    case Ok(homebrew) =>
      match Get(homebrew, "brewfile", Null)
      case Raise(e) => none.(raised := Some(e))
      case Ok(brewfile) =>
        if !Truthy(brewfile) then none
        else if !brewInstalled then none.(commands := [WhichBrew])
        else if !brewfile.Str? then
          HomebrewRestore([WhichBrew], None, false, FileSystem(fs.files[tmp := PlainText("")], fs.dirs), Some(TypeError))
        else
          var written := FileSystem(fs.files[tmp := PlainText(brewfile.s)], fs.dirs);
          var read := written.files[tmp].text;
          HomebrewRestore([WhichBrew, BundleCommand(tmp)], Some(read), bundle.returncode == 0, RemoveFile(written, tmp), None)
  }

  /** A restore hands `brew bundle` exactly the Brewfile the backup
      recorded, and leaves no temporary file behind. */
  lemma HomebrewRoundTrip(m: Json, brewfile: string, fs: FileSystem, tmp: string, bundle: Completed)
    requires !Exists(fs, tmp)
    requires m.Dict? && Field(m, "homebrew", HomebrewEntry(Str(brewfile))) && brewfile != []
    ensures var r := RestoreHomebrew(m, true, fs, tmp, bundle);
      r.read == Some(brewfile) && r.fs == fs && r.raised.None?
  {
    assert Get(m, "homebrew", Dict(map[], [])) == Ok(HomebrewEntry(Str(brewfile)));
    var r := RestoreHomebrew(m, true, fs, tmp, bundle);
    assert r.fs.files == fs.files by {
      assert r.fs.files == fs.files[tmp := PlainText(brewfile)] - {tmp};
    }
  }

  // ----- restore_fonts -----

  /** Where fonts are restored to: the directory the font scanner reads. */
  function FontTarget(home: string): string {
    FontScanner.FontsDir(home)
  }

  /** The progress of a font restore: the file system, the fonts copied
      and skipped so far, and the exception that stopped it, if one did. */
  datatype FontRestore = FontRestore(fs: FileSystem, copied: nat, skipped: nat, raised: Option<PyError>)

  /** One pass of the copy loop: a missing backup file is reported and not
      counted, an existing target is skipped, and a copy that raises is
      reported and not counted. A name that is not a string cannot be
      joined to a path. */
  function FontStep(t: FontRestore, srcDir: string, dstDir: string, name: Json, failing: set<string>): (u: FontRestore)
    requires t.raised.None?
    ensures u.raised.Some? <==> !name.Str?
    ensures u.raised.Some? ==> u.raised == Some(TypeError) && u.fs == t.fs
    ensures t.copied <= u.copied && t.skipped <= u.skipped && u.copied + u.skipped <= t.copied + t.skipped + 1
    ensures u.fs != t.fs ==> u.copied == t.copied + 1
  {
    if !name.Str? then t.(raised := Some(TypeError))
    else
      var src := Join(srcDir, name.s);
      var dst := Join(dstDir, name.s);
      if !Exists(t.fs, src) then t
      else if Exists(t.fs, dst) then t.(skipped := t.skipped + 1)
      else
        match Copy(t.fs, src, dst, failing)
        case Raise(_) => t
        case Ok(fs') => t.(fs := fs', copied := t.copied + 1)
  }

  /** The copy loop of `restore_fonts` over `names`, starting from `fs`. */
  function CopyFonts(fs: FileSystem, srcDir: string, dstDir: string, names: seq<Json>, failing: set<string>): (t: FontRestore)
    ensures t.raised.None? <==> forall i :: 0 <= i < |names| ==> names[i].Str?
    ensures t.raised.Some? ==> t.raised == Some(TypeError)
    ensures t.copied + t.skipped <= |names|
  {
    if |names| == 0 then FontRestore(fs, 0, 0, None)
    else
      var init := names[..|names| - 1];
      var t := CopyFonts(fs, srcDir, dstDir, init, failing);
      assert forall i :: 0 <= i < |init| ==> init[i] == names[i];
      if t.raised.Some? then t else FontStep(t, srcDir, dstDir, names[|names| - 1], failing)
  }

  /** The new files of `fs'` compared with `fs`. */
  function NewFiles(fs: FileSystem, fs': FileSystem): set<string> {
    fs'.files.Keys - fs.files.Keys
  }

  /** One pass of the copy loop either changes nothing but the skip count,
      or adds one file at the name's target and counts it as copied. */
  lemma FontStepEffect(t: FontRestore, srcDir: string, dstDir: string, name: Json, failing: set<string>)
    requires t.raised.None?
    ensures var u := FontStep(t, srcDir, dstDir, name, failing);
      && u.copied + u.skipped <= t.copied + t.skipped + 1
      && (u.copied == t.copied ==> u.fs == t.fs)
      && (u.copied != t.copied ==>
            && u.copied == t.copied + 1 && name.Str? && Join(dstDir, name.s) !in t.fs.files
            && u.fs.dirs == t.fs.dirs && u.fs.files.Keys == t.fs.files.Keys + {Join(dstDir, name.s)}
            && forall p :: p in t.fs.files ==> u.fs.files[p] == t.fs.files[p])
  {
  }

  /** The copy loop never overwrites or removes a file and creates no
      directory, and every file it creates lies in the target directory. */
  lemma {:induction false} CopyFontsKeeps(fs: FileSystem, srcDir: string, dstDir: string, names: seq<Json>, failing: set<string>)
    ensures var t := CopyFonts(fs, srcDir, dstDir, names, failing);
      && t.fs.dirs == fs.dirs
      && (forall p :: p in fs.files ==> p in t.fs.files && t.fs.files[p] == fs.files[p])
      && (forall p :: p in NewFiles(fs, t.fs) ==> InDir(p, dstDir))
  {
    if |names| > 0 {
      var prev := CopyFonts(fs, srcDir, dstDir, names[..|names| - 1], failing);
      CopyFontsKeeps(fs, srcDir, dstDir, names[..|names| - 1], failing);
      var name := names[|names| - 1];
      if prev.raised.None? {
        FontStepEffect(prev, srcDir, dstDir, name, failing);
        if name.Str? {
          JoinInDir(dstDir, name.s);
        }
      }
    }
  }

  /** Adding a path that is new to `k` adds one path to what `k` has
      beyond `k0`. */
  lemma AddOneNew(k0: set<string>, k: set<string>, k': set<string>, x: string)
    requires k0 <= k && x !in k && k' == k + {x}
    ensures |k' - k0| == |k - k0| + 1
  {
    assert k' - k0 == (k - k0) + {x};
  }

  /** The copy loop counts exactly the files it created as copied, and
      counts each name at most once. */
  lemma {:induction false} CopyFontsCounts(fs: FileSystem, srcDir: string, dstDir: string, names: seq<Json>, failing: set<string>)
    ensures var t := CopyFonts(fs, srcDir, dstDir, names, failing);
      t.copied == |NewFiles(fs, t.fs)| && t.copied + t.skipped <= |names|
  {
    if |names| > 0 {
      var prev := CopyFonts(fs, srcDir, dstDir, names[..|names| - 1], failing);
      CopyFontsCounts(fs, srcDir, dstDir, names[..|names| - 1], failing);
      CopyFontsKeeps(fs, srcDir, dstDir, names[..|names| - 1], failing);
      var name := names[|names| - 1];
      if prev.raised.None? {
        var u := FontStep(prev, srcDir, dstDir, name, failing);
        FontStepEffect(prev, srcDir, dstDir, name, failing);
        if u.copied != prev.copied {
          assert fs.files.Keys <= prev.fs.files.Keys;
          AddOneNew(fs.files.Keys, prev.fs.files.Keys, u.fs.files.Keys, Join(dstDir, name.s));
        }
      }
    }
  }

  /** Every name of `names` whose backup copy is a regular file that can
      be copied already has something at its target. */
  ghost predicate Settled(fs: FileSystem, srcDir: string, dstDir: string, names: seq<Json>, failing: set<string>) {
    forall i :: 0 <= i < |names| && names[i].Str? && IsFile(fs, Join(srcDir, names[i].s)) && Join(srcDir, names[i].s) !in failing
      ==> Exists(fs, Join(dstDir, names[i].s))
  }

  /** Paths in two different directories are different when neither name
      has a "/". */
  lemma JoinApart(a: string, b: string, n: string, m: string)
    requires a != b && '/' !in n && '/' !in m
    ensures Join(a, n) != Join(b, m)
  {
    var s := Join(a, n);
    var t := Join(b, m);
    if |a| == |b| {
      assert s[..|a|] == a && t[..|b|] == b;
    } else if |a| < |b| {
      if |b| < |s| {
        assert s[|b|] == n[|b| - |a| - 1];
        assert t[|b|] == '/';
      }
    } else {
      if |a| < |t| {
        assert t[|a|] == m[|a| - |b| - 1];
        assert s[|a|] == '/';
      }
    }
  }

  /** Font names the backup can hold: strings without a "/". */
  predicate PlainNames(names: seq<Json>) {
    forall i :: 0 <= i < |names| ==> names[i].Str? && '/' !in names[i].s
  }

  /** After a copy loop that raised nothing, every font it could copy has
      something at its target. */
  lemma {:induction false} CopyFontsSettles(fs: FileSystem, srcDir: string, dstDir: string, names: seq<Json>, failing: set<string>)
    requires srcDir != dstDir && PlainNames(names)
    ensures var t := CopyFonts(fs, srcDir, dstDir, names, failing);
      t.raised.None? && Settled(t.fs, srcDir, dstDir, names, failing)
  {
    if |names| > 0 {
      var init := names[..|names| - 1];
      var prev := CopyFonts(fs, srcDir, dstDir, init, failing);
      CopyFontsSettles(fs, srcDir, dstDir, init, failing);
      var name := names[|names| - 1];
      var src := Join(srcDir, name.s);
      var dst := Join(dstDir, name.s);
      var t := CopyFonts(fs, srcDir, dstDir, names, failing);
      assert t == FontStep(prev, srcDir, dstDir, name, failing);
      forall i | 0 <= i < |names| && names[i].Str? && IsFile(t.fs, Join(srcDir, names[i].s)) && Join(srcDir, names[i].s) !in failing
        ensures Exists(t.fs, Join(dstDir, names[i].s))
      {
        if i < |names| - 1 {
          assert names[i] == init[i];
          JoinApart(srcDir, dstDir, names[i].s, name.s);
          assert IsFile(prev.fs, Join(srcDir, names[i].s));
        }
      }
    }
  }

  /** A copy loop over names that are all settled changes nothing and
      copies nothing. */
  lemma {:induction false} SettledCopiesNothing(fs: FileSystem, srcDir: string, dstDir: string, names: seq<Json>, failing: set<string>)
    requires PlainNames(names) && Settled(fs, srcDir, dstDir, names, failing)
    ensures var t := CopyFonts(fs, srcDir, dstDir, names, failing);
      t.fs == fs && t.copied == 0 && t.raised.None?
  {
    if |names| > 0 {
      var init := names[..|names| - 1];
      assert Settled(fs, srcDir, dstDir, init, failing) by {
        forall i | 0 <= i < |init| ensures init[i] == names[i] {}
      }
      SettledCopiesNothing(fs, srcDir, dstDir, init, failing);
    }
  }

  /** The backup copy of font `n` is a regular file whose copy does not
      fail. */
  predicate Copyable(fs: FileSystem, srcDir: string, n: string, failing: set<string>) {
    IsFile(fs, Join(srcDir, n)) && Join(srcDir, n) !in failing
  }

  /** A name the copy loop started in `fs` counts, as copied or as
      skipped: its backup copy exists, and its target either exists
      already or can be copied to. */
  predicate Counted(fs: FileSystem, srcDir: string, dstDir: string, name: Json, failing: set<string>) {
    && name.Str?
    && Exists(fs, Join(srcDir, name.s))
    && (Exists(fs, Join(dstDir, name.s)) || Copyable(fs, srcDir, name.s, failing))
  }

  /** The number of names of `names` that count. */
  function Tally(fs: FileSystem, srcDir: string, dstDir: string, names: seq<Json>, failing: set<string>): nat {
    if |names| == 0 then 0
    else
      Tally(fs, srcDir, dstDir, names[..|names| - 1], failing)
      + (if Counted(fs, srcDir, dstDir, names[|names| - 1], failing) then 1 else 0)
  }

  /** What a copy loop started in `fs` has done when it reaches `t`: no
      directory changed, no file disappeared, no backup copy appeared or
      disappeared, and every target that exists now existed before or
      belongs to a font that can be copied. */
  ghost predicate Tracks(fs: FileSystem, t: FontRestore, srcDir: string, dstDir: string, failing: set<string>) {
    && t.fs.dirs == fs.dirs
    && (forall p :: p in fs.files ==> p in t.fs.files)
    && (forall n :: '/' !in n ==> (Join(srcDir, n) in t.fs.files <==> Join(srcDir, n) in fs.files))
    && (forall n :: '/' !in n && Join(dstDir, n) in t.fs.files ==>
          Join(dstDir, n) in fs.files || Copyable(fs, srcDir, n, failing))
  }

  /** Two names in one directory are the same path only if they are the
      same name. */
  lemma JoinSame(dir: string, n: string, m: string)
    requires Join(dir, n) == Join(dir, m)
    ensures n == m
  {
    assert n == Join(dir, n)[|dir| + 1..];
    assert m == Join(dir, m)[|dir| + 1..];
  }

  /** One pass of the copy loop keeps what it tracks, and counts the name
      exactly when the name counts with respect to where the loop started. */
  lemma FontStepTracks(fs: FileSystem, t: FontRestore, srcDir: string, dstDir: string, name: Json, failing: set<string>)
    requires srcDir != dstDir && t.raised.None? && name.Str? && '/' !in name.s
    requires Tracks(fs, t, srcDir, dstDir, failing)
    ensures var u := FontStep(t, srcDir, dstDir, name, failing);
      && u.raised.None? && Tracks(fs, u, srcDir, dstDir, failing)
      && u.copied + u.skipped == t.copied + t.skipped + (if Counted(fs, srcDir, dstDir, name, failing) then 1 else 0)
  {
    var u := FontStep(t, srcDir, dstDir, name, failing);
    var src := Join(srcDir, name.s);
    var dst := Join(dstDir, name.s);
    FontStepEffect(t, srcDir, dstDir, name, failing);
    JoinApart(srcDir, dstDir, name.s, name.s);
    assert Exists(t.fs, src) <==> Exists(fs, src);
    assert Exists(fs, dst) ==> Exists(t.fs, dst);
    if u.copied != t.copied {
      forall n | '/' !in n
        ensures Join(srcDir, n) in u.fs.files <==> Join(srcDir, n) in fs.files
      {
        JoinApart(srcDir, dstDir, n, name.s);
      }
      forall n | '/' !in n && Join(dstDir, n) in u.fs.files
        ensures Join(dstDir, n) in fs.files || Copyable(fs, srcDir, n, failing)
      {
        if Join(dstDir, n) !in t.fs.files {
          JoinSame(dstDir, n, name.s);
        }
      }
    }
  }

  /** A copy loop over plain names raises nothing, keeps what it tracks,
      and copies or skips exactly the names that count. */
  lemma {:induction false} CopyFontsTally(fs: FileSystem, srcDir: string, dstDir: string, names: seq<Json>, failing: set<string>)
    requires srcDir != dstDir && PlainNames(names)
    ensures var t := CopyFonts(fs, srcDir, dstDir, names, failing);
      && t.raised.None? && Tracks(fs, t, srcDir, dstDir, failing)
      && t.copied + t.skipped == Tally(fs, srcDir, dstDir, names, failing)
  {
    if |names| > 0 {
      var init := names[..|names| - 1];
      assert PlainNames(init) by {
        forall i | 0 <= i < |init| ensures init[i] == names[i] {}
      }
      CopyFontsTally(fs, srcDir, dstDir, init, failing);
      var prev := CopyFonts(fs, srcDir, dstDir, init, failing);
      FontStepTracks(fs, prev, srcDir, dstDir, names[|names| - 1], failing);
    }
  }

  /** Two file systems in which the same names count give the same tally. */
  lemma {:induction false} TallyAgrees(fs: FileSystem, fs': FileSystem, srcDir: string, dstDir: string, names: seq<Json>, failing: set<string>)
    requires forall i :: 0 <= i < |names| ==>
      (Counted(fs, srcDir, dstDir, names[i], failing) <==> Counted(fs', srcDir, dstDir, names[i], failing))
    ensures Tally(fs, srcDir, dstDir, names, failing) == Tally(fs', srcDir, dstDir, names, failing)
  {
    if |names| > 0 {
      var init := names[..|names| - 1];
      assert forall i :: 0 <= i < |init| ==> init[i] == names[i];
      TallyAgrees(fs, fs', srcDir, dstDir, init, failing);
    }
  }

  /** After a copy loop, a font counts exactly when it counted before it:
      its backup copy is untouched, and a target the loop created belongs
      to a font that could already be copied. */
  lemma CountedAgain(fs: FileSystem, t: FontRestore, srcDir: string, dstDir: string, name: Json, failing: set<string>)
    requires Tracks(fs, t, srcDir, dstDir, failing) && name.Str? && '/' !in name.s
    ensures Counted(t.fs, srcDir, dstDir, name, failing) <==> Counted(fs, srcDir, dstDir, name, failing)
  {
    assert Copyable(t.fs, srcDir, name.s, failing) <==> Copyable(fs, srcDir, name.s, failing);
  }

  /** Restoring the same fonts twice: the second copy loop finds every
      font it could copy in place, copies nothing, leaves the file system
      as the first left it, and skips every font the first copied or
      skipped. */
  lemma CopyFontsIdempotent(fs: FileSystem, srcDir: string, dstDir: string, names: seq<Json>, failing: set<string>)
    requires srcDir != dstDir && PlainNames(names)
    ensures var first := CopyFonts(fs, srcDir, dstDir, names, failing);
      var second := CopyFonts(first.fs, srcDir, dstDir, names, failing);
      && first.raised.None? && second.fs == first.fs && second.copied == 0 && second.raised.None?
      && second.skipped == first.copied + first.skipped
  {
    var first := CopyFonts(fs, srcDir, dstDir, names, failing);
    CopyFontsSettles(fs, srcDir, dstDir, names, failing);
    SettledCopiesNothing(first.fs, srcDir, dstDir, names, failing);
    CopyFontsTally(fs, srcDir, dstDir, names, failing);
    CopyFontsTally(first.fs, srcDir, dstDir, names, failing);
    forall i | 0 <= i < |names|
      ensures Counted(fs, srcDir, dstDir, names[i], failing) <==> Counted(first.fs, srcDir, dstDir, names[i], failing)
    {
      CountedAgain(fs, first, srcDir, dstDir, names[i], failing);
    }
    TallyAgrees(fs, first.fs, srcDir, dstDir, names, failing);
  }

  /** `restore_fonts`: nothing happens without font names or without the
      backup's fonts directory; otherwise the target directory is created
      (an existing file there is a FileExistsError) and the copy loop runs
      from the backup's fonts directory into it. */
  function RestoreFonts(m: Json, backupDir: string, home: string, fs: FileSystem, failing: set<string>): (r: FontRestore)
    ensures !m.Dict? ==> r == FontRestore(fs, 0, 0, Some(AttributeError))
    ensures m.Dict? && !Truthy(Get(m, "fonts", List([])).value) ==> r == FontRestore(fs, 0, 0, None)
    ensures !Exists(fs, FontsDir(backupDir)) ==> r.fs == fs && r.copied == 0 && r.skipped == 0
    ensures m.Dict? && Truthy(Get(m, "fonts", List([])).value) && Exists(fs, FontsDir(backupDir)) && IsFile(fs, FontTarget(home)) ==>
      r == FontRestore(fs, 0, 0, Some(FileExistsError(FontTarget(home))))
    ensures forall p :: p in fs.files ==> p in r.fs.files && r.fs.files[p] == fs.files[p]
    ensures forall p :: p in NewFiles(fs, r.fs) ==> InDir(p, FontTarget(home))
    ensures r.copied == |NewFiles(fs, r.fs)|
  {
    match Get(m, "fonts", List([]))
    case Raise(e) => FontRestore(fs, 0, 0, Some(e))
    case Ok(fonts) =>
      if !Truthy(fonts) || !Exists(fs, FontsDir(backupDir)) then FontRestore(fs, 0, 0, None)
      else
        match MakeDir(fs, FontTarget(home))
        case Raise(e) => FontRestore(fs, 0, 0, Some(e))
        case Ok(made) =>
          match Iterate(fonts)
          case Raise(e) => FontRestore(made, 0, 0, Some(e))
          case Ok(names) =>
            CopyFontsKeeps(made, FontsDir(backupDir), FontTarget(home), names, failing);
            CopyFontsCounts(made, FontsDir(backupDir), FontTarget(home), names, failing);
            CopyFonts(made, FontsDir(backupDir), FontTarget(home), names, failing)
  }

  /** Restoring fonts a second time copies nothing, changes nothing and
      skips every font the first restore copied or skipped, provided the backup is not inside the target directory's place and
      the names are plain file names. */
  lemma RestoreFontsIdempotent(m: Json, backupDir: string, home: string, fs: FileSystem, failing: set<string>)
    requires FontsDir(backupDir) != FontTarget(home)
    requires HasKey(m, "fonts") && m.fields["fonts"].List? && PlainNames(m.fields["fonts"].items)
    ensures var first := RestoreFonts(m, backupDir, home, fs, failing);
      var second := RestoreFonts(m, backupDir, home, first.fs, failing);
      first.raised.None? ==>
        && second.fs == first.fs && second.copied == 0 && second.raised.None?
        && second.skipped == first.copied + first.skipped
  {
    var names := m.fields["fonts"].items;
    var srcDir := FontsDir(backupDir);
    var dstDir := FontTarget(home);
    var first := RestoreFonts(m, backupDir, home, fs, failing);
    if first.raised.None? && |names| > 0 && Exists(fs, srcDir) {
      var made := MakeDir(fs, dstDir).value;
      assert first == CopyFonts(made, srcDir, dstDir, names, failing);
      CopyFontsIdempotent(made, srcDir, dstDir, names, failing);
      CopyFontsKeeps(made, srcDir, dstDir, names, failing);
      assert dstDir !in first.fs.files by {
        assert !InDir(dstDir, dstDir);
      }
      assert first.fs.dirs + {dstDir} == first.fs.dirs;
      assert MakeDir(first.fs, dstDir) == Ok(first.fs);
    }
  }

  /** The backup stores each font file under its file name in its fonts
      directory: after a backup that raised nothing, every font file entry
      the copy loop could copy is there. A restore looks a font up by the
      `name` the manifest records for it, so an entry named after its path,
      as every entry the font scanner produces is, is found under that
      name. */
  lemma StoredFontsRestorable(backupDir: string, data: Json, fs: FileSystem, failing: set<string>, sw: SwVers, date: string)
    requires StoreBackupData(Some(backupDir), data, fs, failing, sw, date).raised.None?
    requires HasKey(data, "fonts") && HasKey(data.fields["fonts"], "font_files")
    requires data.fields["fonts"].fields["font_files"].List?
    ensures var items := data.fields["fonts"].fields["font_files"].items;
      var stored := StoreBackupData(Some(backupDir), data, fs, failing, sw, date);
      forall i :: 0 <= i < |items| && WillCopy(FileSystem(fs.files, fs.dirs + {FontsDir(backupDir)}), FontsDir(backupDir), items[i]) ==>
        IsFile(stored.fs, Join(FontsDir(backupDir), BaseName(SourceOf(items[i]).value)))
    ensures var items := data.fields["fonts"].fields["font_files"].items;
      var stored := StoreBackupData(Some(backupDir), data, fs, failing, sw, date);
      forall i :: 0 <= i < |items| && WillCopy(FileSystem(fs.files, fs.dirs + {FontsDir(backupDir)}), FontsDir(backupDir), items[i])
                  && FontScanner.NamedAfterPath(items[i]) ==>
        IsFile(stored.fs, Join(FontsDir(backupDir), items[i].fields["name"].s))
  {
    var items := data.fields["fonts"].fields["font_files"].items;
    var fs1 := FileSystem(fs.files, fs.dirs + {FontsDir(backupDir)});
    var copied := CopyFontFiles(fs1, FontsDir(backupDir), items, failing);
    assert copied.raised.None?;
    CopiedTargets(fs1, FontsDir(backupDir), items, failing);
  }
}

=== FILE: seqs.dfy ===
/** Order-preserving selection from a sequence (a Python list
    comprehension with an `if`), and the facts the scanners need about it. */
module Seqs {

  /** `[x for x in s if p(x)]`. */
  function Filter<T(!new)>(s: seq<T>, p: T -> bool): (r: seq<T>)
    ensures |r| <= |s|
    ensures forall x :: x in r <==> x in s && p(x)
    ensures forall i :: 0 <= i < |r| ==> p(r[i])
  {
    if |s| == 0 then []
    else if p(s[0]) then [s[0]] + Filter(s[1..], p)
    else Filter(s[1..], p)
  }

  /** An element that satisfies `p` in front of elements that all do. */
  lemma AllCons<T>(x: T, s: seq<T>, p: T -> bool)
    requires p(x) && forall i :: 0 <= i < |s| ==> p(s[i])
    ensures forall i :: 0 <= i < |s| + 1 ==> p(([x] + s)[i])
  {
    forall i | 0 <= i < |s| + 1 ensures p(([x] + s)[i]) {
      if i > 0 {
        assert ([x] + s)[i] == s[i - 1];
      }
    }
  }

  /** `[f(x) for x in s]`, for an `f` defined on every element. */
  function Map<A, B>(s: seq<A>, f: A --> B): (r: seq<B>)
    requires forall i :: 0 <= i < |s| ==> f.requires(s[i])
    ensures |r| == |s|
    ensures forall i :: 0 <= i < |s| ==> r[i] == f(s[i])
  {
    seq(|s|, i requires 0 <= i < |s| => f(s[i]))
  }

  /** Mapping an element in front of a sequence. */
  lemma MapCons<A, B>(x: A, s: seq<A>, f: A --> B)
    requires f.requires(x) && forall i :: 0 <= i < |s| ==> f.requires(s[i])
    ensures forall i :: 0 <= i < |s| + 1 ==> f.requires(([x] + s)[i])
    ensures Map([x] + s, f) == [f(x)] + Map(s, f)
  {
    forall i | 0 <= i < |s| + 1 ensures f.requires(([x] + s)[i]) {
      if i > 0 {
        assert ([x] + s)[i] == s[i - 1];
      }
    }
  }

  /** `a` is `b` with some elements deleted, order kept. */
  predicate IsSubsequence<T(==)>(a: seq<T>, b: seq<T>)
    decreases |b|
  {
    if |a| == 0 then true
    else if |b| == 0 then false
    else if a[0] == b[0] then IsSubsequence(a[1..], b[1..])
    else IsSubsequence(a, b[1..])
  }

  /** Filtering keeps the survivors in their original order. */
  lemma {:induction false} FilterIsSubsequence<T(!new)>(s: seq<T>, p: T -> bool)
    ensures IsSubsequence(Filter(s, p), s)
  {
    if |s| > 0 {
      FilterIsSubsequence(s[1..], p);
      if p(s[0]) {
        assert Filter(s, p)[1..] == Filter(s[1..], p);
      }
    }
  }

  /** Filtering distributes over concatenation. */
  lemma {:induction false} FilterAppend<T(!new)>(a: seq<T>, b: seq<T>, p: T -> bool)
    ensures Filter(a + b, p) == Filter(a, p) + Filter(b, p)
  {
    if |a| == 0 {
      assert a + b == b;
    } else {
      assert (a + b)[1..] == a[1..] + b;
      FilterAppend(a[1..], b, p);
    }
  }

  /** An element and a predicate that splits the sequence in two: the
      selected and the rejected elements add up to the whole. */
  lemma {:induction false} FilterComplement<T(!new)>(s: seq<T>, p: T -> bool, q: T -> bool)
    requires forall x :: x in s ==> (q(x) <==> !p(x))
    ensures |Filter(s, p)| + |Filter(s, q)| == |s|
  {
    if |s| > 0 {
      assert forall x :: x in s[1..] ==> x in s;
      FilterComplement(s[1..], p, q);
    }
  }
}

=== FILE: storage.dfy ===
/**
 The storage manager's backup half (macbac/storage.py, `store_backup_data`
 and `_generate_manifest`): copying the scanned font files into the backup
 and writing manifest.json, the machine-readable record a restore reads.
 */
module Storage {
  import opened Wrappers
  import opened Text
  import opened Py
  import opened Files
  import opened Probe

  /** `sw_vers -productVersion`: whether the binary exists, and how it ran. */
  datatype SwVers = SwVers(installed: bool, run: Completed)

  const MacbacVersion := "0.2.0"
  const NotSetMessage := "Backup directory not set"

  /** The keys of a manifest, in the order they are inserted. */
  const ManifestOrder: seq<string> := ["backup_info", "appstore", "homebrew", "fonts", "manual_apps", "dev_tools"]

  /** The macOS version as the manifest and the inventory record it: the
      stripped output, "Unknown" when the command fails; a missing binary
      is not caught. */
  function MacosVersion(sw: SwVers): (r: Result<string>)
    ensures !sw.installed ==> r == Raise(FileNotFoundError("sw_vers"))
    ensures sw.installed && sw.run.returncode != 0 ==> r == Ok("Unknown")
    ensures sw.installed && sw.run.returncode == 0 ==> r == Ok(Strip(sw.run.stdout))
  {
    if !sw.installed then Raise(FileNotFoundError("sw_vers"))
    else if sw.run.returncode != 0 then Ok("Unknown")
    else Ok(Strip(sw.run.stdout))
  }

  /** `d` has key `k` bound to `v`. */
  predicate Field(d: Json, k: string, v: Json) {
    HasKey(d, k) && d.fields[k] == v
  }

  /** `outer in data and inner in data[outer]`, then `data[outer][inner]`:
      the value when both keys are there, `None` when one is missing. */
  function Section(data: Json, outer: string, inner: string): (r: Result<Option<Json>>)
    ensures HasKey(data, outer) && HasKey(data.fields[outer], inner) ==>
      r == Ok(Some(data.fields[outer].fields[inner]))
    ensures data.Dict? && !HasKey(data, outer) ==> r == Ok(None)
    ensures HasKey(data, outer) && data.fields[outer].Dict? && !HasKey(data.fields[outer], inner) ==> r == Ok(None)
    ensures r.Ok? && r.value.Some? ==> HasKey(data, outer) && HasKey(data.fields[outer], inner)
    ensures HasKey(data, outer) && In(inner, data.fields[outer]) == Ok(false) ==> r == Ok(None)
    ensures HasKey(data, outer) && In(inner, data.fields[outer]).Raise? ==> r == Raise(In(inner, data.fields[outer]).error)
    ensures HasKey(data, outer) && !data.fields[outer].Dict? && In(inner, data.fields[outer]) == Ok(true) ==>
      r == Raise(TypeError)
  {
    var hasOuter :- In(outer, data);
    if !hasOuter then Ok(None)
    else
      var sub :- Subscript(data, outer);
      var hasInner :- In(inner, sub);
      if !hasInner then Ok(None)
      else
        var v :- Subscript(sub, inner);
        Ok(Some(v))
  }

  /** `[x["name"] for x in items]`: fails exactly when an item has no
      "name" key. */
  function NamesOf(items: seq<Json>): (r: Result<seq<Json>>)
    ensures r.Ok? <==> forall i :: 0 <= i < |items| ==> HasKey(items[i], "name")
    ensures r.Ok? ==> |r.value| == |items|
    ensures r.Ok? ==> forall i :: 0 <= i < |items| ==> r.value[i] == items[i].fields["name"]
  {
    if |items| == 0 then Ok([])
    else
      match Subscript(items[0], "name")
      case Raise(e) => Raise(e)
      case Ok(n) =>
        var rest := NamesOf(items[1..]);
        assert forall i :: 1 <= i < |items| ==> items[i] == items[1..][i - 1];
        if rest.Raise? then rest
        else
          var r := [n] + rest.value;
          assert forall i :: 1 <= i < |items| ==> r[i] == rest.value[i - 1];
          Ok(r)
  }

  /** The name list of a section value, `[]` when the section is absent. */
  function NameList(section: Option<Json>): (r: Result<Json>)
    ensures section.None? ==> r == Ok(List([]))
    ensures section.Some? && section.value.List? ==> r.Ok? == NamesOf(section.value.items).Ok?
    ensures section.Some? && section.value.List? && r.Ok? ==> r.value == List(NamesOf(section.value.items).value)
  {
    if section.None? then Ok(List([]))
    else
      var items :- Iterate(section.value);
      var names :- NamesOf(items);
      Ok(List(names))
  }

  /** The `backup_info` entry of a manifest. */
  function BackupInfo(date: string, macos: string): (info: Json)
    ensures info.Dict?
    ensures Field(info, "date", Str(date)) && Field(info, "macos_version", Str(macos))
    ensures Field(info, "macbac_version", Str(MacbacVersion))
  {
    Dict(map["date" := Str(date), "macos_version" := Str(macos), "macbac_version" := Str(MacbacVersion)],
         ["date", "macos_version", "macbac_version"])
  }

  /** The `homebrew` entry of a manifest. */
  function HomebrewEntry(brewfile: Json): (h: Json)
    ensures Field(h, "brewfile", brewfile)
  {
    Dict(map["brewfile" := brewfile], ["brewfile"])
  }

  /** The manifest dict with its six entries in insertion order. */
  function ManifestJson(info: Json, appstore: Json, brewfile: Json, fonts: Json, manual: Json, devTools: Json): (m: Json)
    ensures m.Dict? && m.order == ManifestOrder
    ensures Field(m, "backup_info", info) && Field(m, "appstore", appstore)
    ensures Field(m, "homebrew", HomebrewEntry(brewfile)) && Field(m, "fonts", fonts)
    ensures Field(m, "manual_apps", manual) && Field(m, "dev_tools", devTools)
  {
    Dict(map["backup_info" := info, "appstore" := appstore, "homebrew" := HomebrewEntry(brewfile),
             "fonts" := fonts, "manual_apps" := manual, "dev_tools" := devTools],
         ManifestOrder)
  }

  /** A manifest's key order lists each of its keys once. */
  lemma ManifestOrderMatches(info: Json, appstore: Json, brewfile: Json, fonts: Json, manual: Json, devTools: Json)
    ensures var m := ManifestJson(info, appstore, brewfile, fonts, manual, devTools);
      OrderMatches(m.fields, m.order)
  {
    ManifestKeysDistinct();
  }

  /** The manifest keys start with six different letters. */
  lemma ManifestKeysDistinct()
    ensures forall i, j :: 0 <= i < j < |ManifestOrder| ==> ManifestOrder[i] != ManifestOrder[j]
  {
    forall i, j | 0 <= i < j < |ManifestOrder| ensures ManifestOrder[i] != ManifestOrder[j] {
      assert ManifestOrder[i][0] != ManifestOrder[j][0];
    }
  }

  /** The manifest `_generate_manifest` builds from the aggregated data. */
  function BuildManifest(data: Json, date: string, macos: string): (r: Result<Json>)
    ensures r.Ok? ==> r.value.Dict? && r.value.order == ManifestOrder && OrderMatches(r.value.fields, r.value.order)
    ensures r.Ok? ==> Field(r.value, "backup_info", BackupInfo(date, macos))
  {
    var appstore :- Section(data, "appstore", "apps");
    var homebrew :- Section(data, "homebrew", "brewfile_content");
    var fontFiles :- Section(data, "fonts", "font_files");
    var fonts :- NameList(fontFiles);
    var manual :- Section(data, "manual_apps", "apps");
    var tools :- Section(data, "dev_env", "installed_tools");
    var devTools :- NameList(tools);
    ManifestOrderMatches(BackupInfo(date, macos), appstore.GetOr(List([])), homebrew.GetOr(Str("")), fonts,
                         manual.GetOr(List([])), devTools);
    Ok(ManifestJson(BackupInfo(date, macos), appstore.GetOr(List([])), homebrew.GetOr(Str("")), fonts,
                    manual.GetOr(List([])), devTools))
  }

  /** The entries of a built manifest: the App Store apps and the manual
      apps verbatim, the Brewfile text, the font file names and the
      development tool names, each defaulting to empty when its section
      lacks the key. */
  lemma ManifestSections(data: Json, date: string, macos: string)
    requires BuildManifest(data, date, macos).Ok?
    ensures var m := BuildManifest(data, date, macos).value;
      && Field(m, "appstore",
           if HasKey(data, "appstore") && HasKey(data.fields["appstore"], "apps") then data.fields["appstore"].fields["apps"] else List([]))
      && Field(m, "homebrew", HomebrewEntry(
           if HasKey(data, "homebrew") && HasKey(data.fields["homebrew"], "brewfile_content") then data.fields["homebrew"].fields["brewfile_content"] else Str("")))
      && Field(m, "manual_apps",
           if HasKey(data, "manual_apps") && HasKey(data.fields["manual_apps"], "apps") then data.fields["manual_apps"].fields["apps"] else List([]))
      && Section(data, "fonts", "font_files").Ok? && NameList(Section(data, "fonts", "font_files").value).Ok?
      && Section(data, "dev_env", "installed_tools").Ok? && NameList(Section(data, "dev_env", "installed_tools").value).Ok?
      && Field(m, "fonts", NameList(Section(data, "fonts", "font_files").value).value)
      && Field(m, "dev_tools", NameList(Section(data, "dev_env", "installed_tools").value).value)
  {
    var appstore := Section(data, "appstore", "apps").value;
    var homebrew := Section(data, "homebrew", "brewfile_content").value;
    var fonts := NameList(Section(data, "fonts", "font_files").value).value;
    var manual := Section(data, "manual_apps", "apps").value;
    var devTools := NameList(Section(data, "dev_env", "installed_tools").value).value;
    assert BuildManifest(data, date, macos).value == ManifestJson(BackupInfo(date, macos), appstore.GetOr(List([])),
      homebrew.GetOr(Str("")), fonts, manual.GetOr(List([])), devTools);
  }

  /** A section of the aggregated data that the manifest can always read:
      absent, or a dict whose `inner` entry, if any, is a list of dicts
      with a "name" when `named` asks for names. */
  predicate ReadableSection(data: Json, outer: string, inner: string, named: bool) {
    HasKey(data, outer) ==>
      && data.fields[outer].Dict?
      && (named && HasKey(data.fields[outer], inner) ==>
            var v := data.fields[outer].fields[inner];
            v.List? && forall i :: 0 <= i < |v.items| ==> HasKey(v.items[i], "name"))
  }

  /** Building the manifest fails only on badly shaped data: a dict whose
      sections are dicts, and whose font files and tools carry names,
      always yields a manifest. */
  lemma ManifestTotal(data: Json, date: string, macos: string)
    requires data.Dict?
    requires ReadableSection(data, "appstore", "apps", false)
    requires ReadableSection(data, "homebrew", "brewfile_content", false)
    requires ReadableSection(data, "fonts", "font_files", true)
    requires ReadableSection(data, "manual_apps", "apps", false)
    requires ReadableSection(data, "dev_env", "installed_tools", true)
    ensures BuildManifest(data, date, macos).Ok?
  {
  }

  /** The `fonts` directory of a backup. */
  function FontsDir(backupDir: string): string {
    Join(backupDir, "fonts")
  }

  /** The manifest's path. */
  function ManifestPath(backupDir: string): string {
    Join(backupDir, "manifest.json")
  }

  /** The path of a font file entry, when it is a string. */
  function SourceOf(item: Json): Option<string> {
    if HasKey(item, "path") && item.fields["path"].Str? then Some(item.fields["path"].s) else None
  }

  /** The copy loop of `store_backup_data`: each font file that exists is
      copied into `fontsDir` under its file name. Only files under
      `fontsDir` are created or changed. */
  function CopyFontFiles(fs: FileSystem, fontsDir: string, items: seq<Json>, failing: set<string>): (r: Effect)
    ensures |items| == 0 ==> r == Effect(fs, None)
    ensures r.raised.None? ==> forall i :: 0 <= i < |items| ==> SourceOf(items[i]).Some?
    decreases |items|
  {
    if |items| == 0 then Effect(fs, None)
    else
      match Subscript(items[0], "path")
      case Raise(e) => Effect(fs, Some(e))
      case Ok(p) =>
        if !p.Str? then Effect(fs, Some(TypeError))
        else if !Exists(fs, p.s) then CopyFontFiles(fs, fontsDir, items[1..], failing)
        else
          match Copy(fs, p.s, Join(fontsDir, BaseName(p.s)), failing)
          case Raise(e) => Effect(fs, Some(e))
          case Ok(fs') => CopyFontFiles(fs', fontsDir, items[1..], failing)
  }

  /** The copy loop keeps every directory and every file, and creates or
      changes files under the fonts directory only. */
  lemma {:induction false} CopyFontFilesTouches(fs: FileSystem, fontsDir: string, items: seq<Json>, failing: set<string>)
    ensures var r := CopyFontFiles(fs, fontsDir, items, failing);
      && r.fs.dirs == fs.dirs
      && (forall q :: q in fs.files ==> q in r.fs.files)
      && (forall q :: q in r.fs.files && !(q in fs.files && r.fs.files[q] == fs.files[q]) ==> InDir(q, fontsDir))
    decreases |items|
  {
    if |items| > 0 && Subscript(items[0], "path").Ok? {
      var p := Subscript(items[0], "path").value;
      if p.Str? && !Exists(fs, p.s) {
        CopyFontFilesTouches(fs, fontsDir, items[1..], failing);
      } else if p.Str? && Copy(fs, p.s, Join(fontsDir, BaseName(p.s)), failing).Ok? {
        var fs' := Copy(fs, p.s, Join(fontsDir, BaseName(p.s)), failing).value;
        CopiedInDir(fs, p.s, fontsDir, failing);
        CopyFontFilesTouches(fs', fontsDir, items[1..], failing);
      }
    }
  }

  /** Copying a file into `dir/<name>` changes only files under `dir`. */
  lemma CopiedInDir(fs: FileSystem, src: string, dir: string, failing: set<string>)
    requires Copy(fs, src, Join(dir, BaseName(src)), failing).Ok?
    ensures var fs' := Copy(fs, src, Join(dir, BaseName(src)), failing).value;
      && fs'.dirs == fs.dirs
      && (forall q :: q in fs.files ==> q in fs'.files)
      && (forall q :: q in fs'.files && !(q in fs.files && fs'.files[q] == fs.files[q]) ==> InDir(q, dir))
  {
    var dst := Join(dir, BaseName(src));
    var target := if dst in fs.dirs then Join(dst, BaseName(src)) else dst;
    var fs' := Copy(fs, src, dst, failing).value;
    assert fs' == FileSystem(fs.files[target := fs.files[src]], fs.dirs);
    JoinInDir(dir, BaseName(src));
    JoinInDir(dst, BaseName(src));
    forall q | q in fs'.files && !(q in fs.files && fs'.files[q] == fs.files[q])
      ensures InDir(q, dir)
    {
      UpdatedKey(fs.files, target, fs.files[src], q);
    }
  }

  /** The only key whose entry an update changes is the updated one. */
  lemma UpdatedKey<K, V>(m: map<K, V>, k: K, v: V, q: K)
    requires q in m[k := v] && !(q in m && m[k := v][q] == m[q])
    ensures q == k
  {
  }

  /** A font file entry the copy loop will copy into `fontsDir` under its
      file name: its path names a regular file outside `fontsDir`, and
      `fontsDir/<name>` is not a directory. */
  predicate WillCopy(fs: FileSystem, fontsDir: string, item: Json) {
    && SourceOf(item).Some?
    && SourceOf(item).value in fs.files
    && !InDir(SourceOf(item).value, fontsDir)
    && Join(fontsDir, BaseName(SourceOf(item).value)) !in fs.dirs
  }

  /** Where the copy of a font file entry goes. */
  function TargetOf(fontsDir: string, item: Json): string
    requires SourceOf(item).Some?
  {
    Join(fontsDir, BaseName(SourceOf(item).value))
  }

  /** After a copy loop that raised nothing, every listed font file that
      was a regular file outside the fonts directory when the loop began
      has a copy under its file name there. */
  lemma {:induction false} CopiedTargets(fs: FileSystem, fontsDir: string, items: seq<Json>, failing: set<string>)
    requires CopyFontFiles(fs, fontsDir, items, failing).raised.None?
    ensures forall i :: 0 <= i < |items| && WillCopy(fs, fontsDir, items[i]) ==>
      TargetOf(fontsDir, items[i]) in CopyFontFiles(fs, fontsDir, items, failing).fs.files
    decreases |items|
  {
    if |items| > 0 {
      var p := Subscript(items[0], "path").value;
      var end := CopyFontFiles(fs, fontsDir, items, failing).fs;
      var next := if !Exists(fs, p.s) then fs else Copy(fs, p.s, Join(fontsDir, BaseName(p.s)), failing).value;
      assert CopyFontFiles(fs, fontsDir, items, failing) == CopyFontFiles(next, fontsDir, items[1..], failing);
      if Exists(fs, p.s) {
        CopiedInDir(fs, p.s, fontsDir, failing);
      }
      CopyFontFilesTouches(next, fontsDir, items[1..], failing);
      CopiedTargets(next, fontsDir, items[1..], failing);
      forall i | 0 <= i < |items| && WillCopy(fs, fontsDir, items[i])
        ensures TargetOf(fontsDir, items[i]) in end.files
      {
        if i == 0 {
          assert TargetOf(fontsDir, items[0]) in next.files;
        } else {
          assert items[i] == items[1..][i - 1];
          assert WillCopy(next, fontsDir, items[i]);
        }
      }
    }
  }

  /** `_generate_manifest`: the macOS version, the manifest, and
      manifest.json written with it. */
  function GenerateManifest(backupDir: Option<string>, data: Json, fs: FileSystem, sw: SwVers, date: string): (r: Effect)
    ensures backupDir.None? ==> r == Effect(fs, Some(ValueError(NotSetMessage)))
    ensures r.raised.None? ==> backupDir.Some? && MacosVersion(sw).Ok?
    ensures r.raised.None? ==> BuildManifest(data, date, MacosVersion(sw).value).Ok?
    ensures r.raised.None? ==> var path := ManifestPath(backupDir.value);
      r.fs == FileSystem(fs.files[path := JsonText(BuildManifest(data, date, MacosVersion(sw).value).value)], fs.dirs)
    ensures r.raised.Some? ==> r.fs == fs
  {
    if backupDir.None? then Effect(fs, Some(ValueError(NotSetMessage)))
    else match MacosVersion(sw)
      case Raise(e) => Effect(fs, Some(e))
      case Ok(macos) =>
        match BuildManifest(data, date, macos)
        case Raise(e) => Effect(fs, Some(e))
        case Ok(m) =>
          match WriteFile(fs, ManifestPath(backupDir.value), JsonText(m))
          case Raise(e) => Effect(fs, Some(e))
          case Ok(fs') => Effect(fs', None)
  }

  /** `store_backup_data`: the fonts directory (created even when there is
      nothing to copy), the font copies, then the manifest. */
  function StoreBackupData(backupDir: Option<string>, data: Json, fs: FileSystem, failing: set<string>, sw: SwVers, date: string): (r: Effect)
    ensures backupDir.None? ==> r == Effect(fs, Some(ValueError(NotSetMessage)))
    ensures r.raised.None? ==> backupDir.Some? && MacosVersion(sw).Ok? && BuildManifest(data, date, MacosVersion(sw).value).Ok?
    ensures r.raised.None? ==> r.fs.dirs == fs.dirs + {FontsDir(backupDir.value)}
    ensures r.raised.None? ==> Manifest(r.fs, backupDir.value) == BuildManifest(data, date, MacosVersion(sw).value).value
  {
    if backupDir.None? then Effect(fs, Some(ValueError(NotSetMessage)))
    else
      var dir := backupDir.value;
      match MakeDir(fs, FontsDir(dir))
      case Raise(e) => Effect(fs, Some(e))
      case Ok(fs1) =>
        match Section(data, "fonts", "font_files")
        case Raise(e) => Effect(fs1, Some(e))
        case Ok(None) => GenerateManifest(backupDir, data, fs1, sw, date)
        case Ok(Some(v)) =>
          match Iterate(v)
          case Raise(e) => Effect(fs1, Some(e))
          case Ok(items) =>
            var copied := CopyFontFiles(fs1, FontsDir(dir), items, failing);
            CopyFontFilesTouches(fs1, FontsDir(dir), items, failing);
            if copied.raised.Some? then copied
            else GenerateManifest(backupDir, data, copied.fs, sw, date)
  }

  /** The document a manifest file holds, `Null` when there is none. */
  function Manifest(fs: FileSystem, backupDir: string): Json {
    var p := ManifestPath(backupDir);
    if p in fs.files && fs.files[p].JsonText? then fs.files[p].doc else Null
  }
}

=== FILE: text.dfy ===
/**
 String helpers with the semantics of the Python built-ins the scanners and
 the archiver rely on: `str.isspace`, `str.strip`, `str.split(sep)`,
 `str.split(" ", 1)`, `str.startswith`, `in` on strings, and the
 `pathlib` properties `name`, `stem` and `suffix`.
 */
module Text {
  import opened Wrappers

  /** Python's `str.isspace()` for one character: U+0009..U+000D,
      U+001C..U+0020, U+0085, U+00A0, U+1680, U+2000..U+200A, U+2028,
      U+2029, U+202F, U+205F and U+3000. */
  predicate IsSpace(c: char) {
    || ('\t' <= c <= '\r')
    || ('\U{1C}' <= c <= ' ')
    || c == '\U{85}' || c == '\U{A0}' || c == '\U{1680}'
    || ('\U{2000}' <= c <= '\U{200A}')
    || c == '\U{2028}' || c == '\U{2029}' || c == '\U{202F}'
    || c == '\U{205F}' || c == '\U{3000}'
  }

  /** Every character of `s` is whitespace (true of ""). */
  predicate IsBlank(s: string)
    decreases |s|
  {
    |s| == 0 || (IsSpace(s[0]) && IsBlank(s[1..]))
  }

  lemma {:induction false} BlankAppend(a: string, b: string)
    ensures IsBlank(a + b) <==> IsBlank(a) && IsBlank(b)
    decreases |a|
  {
    if |a| == 0 {
      assert a + b == b;
    } else {
      assert (a + b)[1..] == a[1..] + b;
      BlankAppend(a[1..], b);
    }
  }

  lemma {:induction false} BlankAt(s: string, i: nat)
    requires IsBlank(s) && i < |s|
    ensures IsSpace(s[i])
    decreases i
  {
    if i > 0 {
      BlankAt(s[1..], i - 1);
    }
  }

  /** `s` with its leading whitespace removed. */
  function TrimStart(s: string): (r: string)
    ensures |r| <= |s| && r == s[|s| - |r|..]
    ensures IsBlank(s[..|s| - |r|])
    ensures r == [] || !IsSpace(r[0])
    decreases |s|
  {
    if |s| > 0 && IsSpace(s[0]) then
      var r := TrimStart(s[1..]);
      assert s[..|s| - |r|] == [s[0]] + s[1..][..|s| - 1 - |r|];
      BlankAppend([s[0]], s[1..][..|s| - 1 - |r|]);
      r
    else s
  }

  /** `s` with its trailing whitespace removed. */
  function TrimEnd(s: string): (r: string)
    ensures |r| <= |s| && r == s[..|r|]
    ensures IsBlank(s[|r|..])
    ensures r == [] || !IsSpace(r[|r| - 1])
    decreases |s|
  {
    if |s| > 0 && IsSpace(s[|s| - 1]) then
      var r := TrimEnd(s[..|s| - 1]);
      assert s[|r|..] == s[..|s| - 1][|r|..] + [s[|s| - 1]];
      BlankAppend(s[..|s| - 1][|r|..], [s[|s| - 1]]);
      r
    else s
  }

  /** Python's `s.strip()`: `s` without its leading and trailing
      whitespace; it is empty exactly when `s` is blank, which is what
      `if s.strip():` tests. */
  function Strip(s: string): (r: string)
    ensures |r| <= |s|
    ensures r == [] <==> IsBlank(s)
    ensures r != [] ==> !IsSpace(r[0]) && !IsSpace(r[|r| - 1])
    ensures (|s| == 0 || (!IsSpace(s[0]) && !IsSpace(s[|s| - 1]))) ==> r == s
    ensures Framed(s, |s| - |TrimStart(s)|, r)
  {
    TrimBoth(s);
    TrimSlice(s);
    TrimEnd(TrimStart(s))
  }

  /** `r` is the slice of `s` at `i`, with only whitespace before and
      after it. */
  predicate Framed(s: string, i: int, r: string) {
    0 <= i && i + |r| <= |s| && r == s[i..i + |r|] && IsBlank(s[..i]) && IsBlank(s[i + |r|..])
  }

  /** Trimming both ends keeps a slice of `s` with blanks on either side. */
  lemma TrimSlice(s: string)
    ensures Framed(s, |s| - |TrimStart(s)|, TrimEnd(TrimStart(s)))
  {
    var t := TrimStart(s);
    FramedTail(s, t, TrimEnd(t));
  }

  /** A blank-framed prefix `r` of a blank-led suffix `t` of `s` is framed
      in `s`. */
  lemma FramedTail(s: string, t: string, r: string)
    requires |t| <= |s| && t == s[|s| - |t|..] && IsBlank(s[..|s| - |t|])
    requires |r| <= |t| && r == t[..|r|] && IsBlank(t[|r|..])
    ensures Framed(s, |s| - |t|, r)
  {
    var i := |s| - |t|;
    assert t[|r|..] == s[i + |r|..];
  }

  lemma {:induction false} TrimBoth(s: string)
    ensures TrimEnd(TrimStart(s)) == [] <==> IsBlank(s)
  {
    var t := TrimStart(s);
    var lead := s[..|s| - |t|];
    assert IsBlank(lead);
    assert s[|s| - |t|..] == t;
    assert s == lead + t;
    BlankAppend(lead, t);
    assert IsBlank(s) <==> IsBlank(t);
    TrimEndEmpty(t);
  }

  /** Trimming the end of a string that starts with a non-space leaves
      nothing exactly when the string was blank. */
  lemma {:induction false} TrimEndEmpty(t: string)
    requires t == [] || !IsSpace(t[0])
    ensures TrimEnd(t) == [] <==> IsBlank(t)
  {
    var r := TrimEnd(t);
    if r == [] {
      assert t[|r|..] == t;
    } else {
      assert r[0] == t[0];
    }
  }

  /** Python's `bool(s.strip())`: `s` holds a non-whitespace character. */
  predicate HasContent(s: string) {
    !IsBlank(s)
  }

  /** Index of the first occurrence of `c` in `s`. */
  function IndexOf(s: string, c: char): (i: nat)
    requires c in s
    ensures i < |s| && s[i] == c && c !in s[..i]
  {
    if s[0] == c then 0 else 1 + IndexOf(s[1..], c)
  }

  /** The first occurrence is the one with no earlier occurrence. */
  lemma {:induction false} IndexOfAt(s: string, c: char, j: nat)
    requires j < |s| && s[j] == c && c !in s[..j]
    ensures IndexOf(s, c) == j
  {
    if j > 0 {
      assert s[0] == s[..j][0];
      assert s[1..][..j - 1] == s[..j][1..];
      IndexOfAt(s[1..], c, j - 1);
    }
  }

  /** Python's `sep.join(parts)` for a one-character separator. */
  function JoinWith(parts: seq<string>, sep: char): string
    decreases |parts|
  {
    if |parts| == 0 then ""
    else if |parts| == 1 then parts[0]
    else parts[0] + [sep] + JoinWith(parts[1..], sep)
  }

  /** Python's `s.split(sep)` for a one-character separator: the pieces
      between separators, empty pieces included, never an empty list. */
  function Split(s: string, sep: char): (r: seq<string>)
    ensures |r| >= 1
    ensures forall i :: 0 <= i < |r| ==> sep !in r[i]
    ensures JoinWith(r, sep) == s
    decreases |s|
  {
    if sep !in s then [s]
    else
      var i := IndexOf(s, sep);
      var rest := Split(s[i + 1..], sep);
      assert s == s[..i] + [sep] + s[i + 1..];
      [s[..i]] + rest
  }

  /** Splitting inverts joining when no part holds the separator. */
  lemma {:induction false} SplitJoin(parts: seq<string>, sep: char)
    requires |parts| >= 1
    requires forall i :: 0 <= i < |parts| ==> sep !in parts[i]
    ensures Split(JoinWith(parts, sep), sep) == parts
    decreases |parts|
  {
    if |parts| == 1 {
    } else {
      var s := JoinWith(parts, sep);
      var tail := JoinWith(parts[1..], sep);
      assert s == parts[0] + [sep] + tail;
      assert sep in s by { assert s[|parts[0]|] == sep; }
      assert s[..|parts[0]|] == parts[0];
      IndexOfAt(s, sep, |parts[0]|);
      assert s[..|parts[0]|] == parts[0];
      assert s[|parts[0]| + 1..] == tail;
      SplitJoin(parts[1..], sep);
    }
  }

  /** Python's `s.split(c, 1)` read as "is there a second part": `None` when
      `c` does not occur, otherwise the text before the first `c` and the
      text after it. */
  function SplitOnce(s: string, c: char): (r: Option<(string, string)>)
    ensures r.None? <==> c !in s
    ensures r.Some? ==> c !in r.value.0 && r.value.0 + [c] + r.value.1 == s
  {
    if c !in s then None
    else
      var i := IndexOf(s, c);
      assert s == s[..i] + [c] + s[i + 1..];
      Some((s[..i], s[i + 1..]))
  }

  /** Python's `needle in haystack` on strings (substring test). */
  predicate Contains(haystack: string, needle: string)
    decreases |haystack|
  {
    needle <= haystack || (|haystack| > 0 && Contains(haystack[1..], needle))
  }

  lemma {:induction false} ContainsWitness(haystack: string, needle: string, i: nat)
    requires i + |needle| <= |haystack| && haystack[i..i + |needle|] == needle
    ensures Contains(haystack, needle)
    decreases i
  {
    if i == 0 {
      assert needle <= haystack;
    } else {
      assert haystack[1..][i - 1..i - 1 + |needle|] == needle;
      ContainsWitness(haystack[1..], needle, i - 1);
    }
  }

  /** ASCII lower-casing of one character. */
  function LowerChar(c: char): char {
    if 'A' <= c <= 'Z' then (c as int - 'A' as int + 'a' as int) as char else c
  }

  /** Lower-casing as `str.lower()` does it for ASCII letters. */
  function Lower(s: string): (r: string)
    ensures |r| == |s|
    ensures forall i :: 0 <= i < |s| ==> r[i] == LowerChar(s[i])
  {
    seq(|s|, i requires 0 <= i < |s| => LowerChar(s[i]))
  }

  /** `pathlib.PurePath(p).name`: the last `/`-separated component. */
  function BaseName(p: string): (r: string)
    ensures '/' !in r
    ensures |r| <= |p| && p[|p| - |r|..] == r
    ensures |r| < |p| ==> p[|p| - |r| - 1] == '/'
    decreases |p|
  {
    if |p| == 0 || p[|p| - 1] == '/' then ""
    else
      var r := BaseName(p[..|p| - 1]) + [p[|p| - 1]];
      assert p[..|p| - 1][|p| - |r|..] + [p[|p| - 1]] == p[|p| - |r|..];
      r
  }

  /** Index of the last `.` in `s`, or -1 (Python's `s.rfind(".")`). */
  function LastDot(s: string): (i: int)
    ensures -1 <= i < |s|
    ensures i >= 0 ==> s[i] == '.'
    ensures forall j :: i < j < |s| ==> s[j] != '.'
    decreases |s|
  {
    if |s| == 0 then -1
    else if s[|s| - 1] == '.' then |s| - 1
    else LastDot(s[..|s| - 1])
  }

  /** `pathlib.PurePath.suffix` of a file name: from the last dot on, when
      that dot is neither the first nor the last character. */
  function Suffix(name: string): string {
    var i := LastDot(name);
    if 0 < i < |name| - 1 then name[i..] else ""
  }

  /** `pathlib.PurePath.stem` of a file name: the name without `Suffix`. */
  function Stem(name: string): string {
    var i := LastDot(name);
    if 0 < i < |name| - 1 then name[..i] else name
  }

  /** Stem and suffix split a name in two. */
  lemma StemSuffix(name: string)
    ensures Stem(name) + Suffix(name) == name
  {
    var i := LastDot(name);
    if 0 < i < |name| - 1 {
      assert name[..i] + name[i..] == name;
    } else {
      assert name + [] == name;
    }
  }

  /** A non-empty suffix is one dot followed by at least one dot-free
      character, after a non-empty stem. */
  lemma SuffixShape(name: string)
    requires Suffix(name) != ""
    ensures |Suffix(name)| >= 2 && Suffix(name)[0] == '.'
    ensures '.' !in Suffix(name)[1..]
    ensures Stem(name) != ""
  {
    var i := LastDot(name);
    assert name[i..][1..] == name[i + 1..];
  }

  /** Decimal digits of a natural number, most significant first. */
  function NatToString(n: nat): (r: string)
    ensures |r| >= 1
    ensures forall i :: 0 <= i < |r| ==> '0' <= r[i] <= '9'
  {
    if n < 10 then [DigitChar(n)] else NatToString(n / 10) + [DigitChar(n % 10)]
  }

  function DigitChar(d: nat): (c: char)
    requires d < 10
    ensures '0' <= c <= '9' && c as int - '0' as int == d
  {
    ('0' as int + d) as char
  }

  /** Python's `str(n)` for an integer. */
  function IntToString(n: int): (r: string)
    ensures r != []
    ensures r[0] == '-' <==> n < 0
  {
    if n < 0 then "-" + NatToString(-n) else NatToString(n)
  }
}

=== FILE: wrappers.dfy ===
/** The optional-value type shared by every module of the model. */
module Wrappers {

  datatype Option<+T> = None | Some(value: T) {

    /** The carried value, or `default` when there is none. */
    function GetOr(default: T): T {
      match this
      case Some(v) => v
      case None => default
    }
  }
}
